=== FILE: README.md ===
# Motion design club: a verified model of the course platform's core logic

The platform is a Next.js application for selling and watching motion-design
video courses. The hosted backend (Appwrite) stores users, courses, lessons,
enrollments and per-course progress documents. Most of the application is page
composition. Under it sits a small set of pure or nearly pure logic, and this
project models that logic in Dafny:

- the Redux slices for courses, progress, authentication and UI
  (`src/lib/store/slices/*.ts`);
- the course, progress and payment services (`src/lib/services/*.ts`), over
  an in-memory document store;
- the slug helper (`src/lib/appwrite.ts`);
- the video player's playback classification, skip, volume and clock rules
  (`src/components/ui/video-player.tsx`);
- the navigation bar's initials, search guard and theme toggle
  (`src/components/layout/navbar.tsx`);
- the profile page's form rules (`src/app/profile/page.tsx`).

Modules follow the source files:

- `Wrappers`, `Seqs` and `Text` are helpers. `Text` gives the JavaScript
  built-ins the source calls (`String(n)`, `toUpperCase`, `toLowerCase`,
  `trim`, `split`) their meaning.
- `Constants` holds the status vocabularies.
- The reducers are `ProgressSlice`, `CourseSlice`, `AuthSlice` and `UiSlice`.
- `Backend` is the abstract store. Each collection is a sequence of documents
  in listing order.
- The services are `ProgressService`, `CourseService` and `PaymentService`.
  `CourseCounters` and `CourseDeletion` hold the proofs about the course
  counters.
- `Appwrite`, `VideoPlayer`, `Navbar` and `ProfilePage` cover the rest.

Every reducer is a pure function from state to state. Every service call
takes the store and returns an `Outcome`: the store it leaves behind plus
either its result or the failure it throws. Writes made before a throw stay
in the returned store, just as they stay in the backend. Clocks
(`new Date().toISOString()`, `Date.now()`) and fresh ids (`ID.unique()`) are
parameters.

## Model

| member | source | states |
|---|---|---|
| ProgressSlice.IndexOfLesson | src/lib/store/slices/progressSlice.ts:56-58 | the position of the first entry for the lesson, or None exactly when no entry has that lesson id |
| ProgressSlice.Upsert | src/lib/services/progress.service.ts:62-81 | if the lesson has an entry, only its first entry changes: status and percentage are overwritten, and `completedAt` is stamped for a completion and kept otherwise, with the length unchanged; otherwise exactly one entry is appended, carrying the lesson id, status and percentage, with `completedAt` stamped for a completion and absent otherwise; all other entries are untouched |
| ProgressSlice.UpsertRecordsUpdate | src/lib/services/progress.service.ts:62-81 | after an upsert, the first entry for the lesson carries the reported status and percentage, and a completion carries the supplied timestamp; a lesson seen for the first time with another status has no `completedAt` |
| ProgressSlice.UpsertIdempotent | src/lib/services/progress.service.ts:62-81 | repeating the same update changes nothing further |
| ProgressSlice.UpsertKeepsDistinct | src/lib/services/progress.service.ts:62-81 | an upsert never creates a second entry for a lesson |
| ProgressSlice.SetProgressLoading | src/lib/store/slices/progressSlice.ts:41-43 | sets only the loading flag |
| ProgressSlice.SetUserCourseProgress | src/lib/store/slices/progressSlice.ts:44-48 | stores the list, ends loading, clears the error, and keeps the current document |
| ProgressSlice.SetCurrentCourseProgress | src/lib/store/slices/progressSlice.ts:49-52 | stores the current document and ends loading, but leaves the error alone |
| ProgressSlice.UpdateLessonProgress | src/lib/store/slices/progressSlice.ts:53-78 | a no-op without a current document; otherwise the document's list becomes the upsert and `lastAccessedAt` the supplied time, with every other field of the document and of the state kept |
| ProgressSlice.SetProgressError | src/lib/store/slices/progressSlice.ts:79-82 | sets the error, ends loading, and keeps the data |
| ProgressService.GetCourseProgress | src/lib/services/progress.service.ts:8-28 | None exactly when no document matches the user and course; otherwise the first listed document of that user for that course (`documents[0]`) |
| ProgressService.GetAllUserProgress | src/lib/services/progress.service.ts:31-44 | exactly the stored documents of the user |
| ProgressService.UpdateLessonProgress | src/lib/services/progress.service.ts:47-99 | a missing document throws and leaves the store alone; otherwise the stored document gets the upserted list and a fresh `lastAccessedAt`, and nothing else in the store changes |
| ProgressService.MarkCourseAsCompleted | src/lib/services/progress.service.ts:102-118 | a missing document throws; otherwise only the document's `completedAt` changes |
| ProgressService.JsRound | src/lib/services/progress.service.ts:130 | `Math.round` gives the integer r with r − ½ ≤ x < r + ½ |
| ProgressService.CompletedEntries | src/lib/services/progress.service.ts:126-128 | exactly the entries whose status is completed |
| ProgressService.CompletionPercentage | src/lib/services/progress.service.ts:120-131 | 0 without a document or with zero lessons, and 0 when no entry is completed |
| ProgressService.CompletionPercentageFormula | src/lib/services/progress.service.ts:122-130 | for t > 0 lessons and c completed entries, the percentage is (200c + t) div 2t in integers |
| ProgressService.RoundedShare | src/lib/services/progress.service.ts:130 | round-half-up of 100·c/t equals (200c + t) div 2t |
| ProgressService.CompletionPercentageBounded | src/lib/services/progress.service.ts:126-130 | with no more completed entries than lessons, the percentage lies in 0..100 |
| ProgressService.CompletionPercentageExceeds | src/lib/services/progress.service.ts:126-130 | nothing caps the percentage: two completed entries against one lesson read as 200 |
| ProgressService.IsLessonCompleted | src/lib/services/progress.service.ts:134-141 | false without a document; otherwise true exactly when the first entry for the lesson is completed |
| ProgressService.CompletedIds | src/lib/services/progress.service.ts:150-155 | the lesson ids that have some completed entry (the completed map) |
| ProgressService.IsLessonCompletedIffCompletedIds | src/lib/services/progress.service.ts:139-155 | a lesson that `isLessonCompleted` accepts is in the completed map; without duplicate entries the converse also holds |
| ProgressService.FirstEntryDecides | src/lib/services/progress.service.ts:139-155 | with a duplicate entry, a lesson can count as done for `getNextLesson` while `isLessonCompleted` says no |
| ProgressService.NextLessonOf | src/lib/services/progress.service.ts:158-165 | the chosen lesson is in the list, and every lesson before it is completed; it is the first lesson not completed, or the last lesson when all are completed |
| ProgressService.GetNextLesson | src/lib/services/progress.service.ts:144-166 | an empty list gives undefined; no document gives the first lesson; otherwise the choice above, over the completed map built by the loop |
| ProgressService.UpdateThenIsCompleted | src/lib/services/progress.service.ts:62-99 | after a successful update, the lesson reads as completed exactly when the reported status is completed |
| CourseSlice.IndexOfCourse | src/lib/store/slices/courseSlice.ts:83 | the position of the first course with the id, or None exactly when no course has it |
| CourseSlice.WithoutCourse | src/lib/store/slices/courseSlice.ts:92 | keeps every course with another id, with its multiplicity, and no course with this id |
| CourseSlice.WithoutCourseAppend | src/lib/store/slices/courseSlice.ts:92 | filtering a concatenation filters each part, so the surviving courses keep their relative order |
| CourseSlice.WithoutCourseSingle | src/lib/store/slices/courseSlice.ts:92 | a single course survives exactly when its id differs; with the append lemma this fixes the result element by element |
| CourseSlice.SetCoursesLoading | src/lib/store/slices/courseSlice.ts:55-57 | sets only the loading flag |
| CourseSlice.SetCourses | src/lib/store/slices/courseSlice.ts:58-62 | stores the list, ends loading, clears the error, and changes nothing else |
| CourseSlice.SetFeaturedCourses | src/lib/store/slices/courseSlice.ts:63-65 | sets only the featured list |
| CourseSlice.SetCurrentCourse | src/lib/store/slices/courseSlice.ts:66-68 | sets only the current course |
| CourseSlice.SetCourseLessons | src/lib/store/slices/courseSlice.ts:69-71 | sets only the lesson list |
| CourseSlice.SetCurrentLesson | src/lib/store/slices/courseSlice.ts:72-74 | sets only the current lesson |
| CourseSlice.SetCourseError | src/lib/store/slices/courseSlice.ts:75-78 | sets the error, ends loading, and changes nothing else |
| CourseSlice.AddCourse | src/lib/store/slices/courseSlice.ts:79-81 | appends exactly the new course at the end and changes nothing else |
| CourseSlice.UpdateCourse | src/lib/store/slices/courseSlice.ts:82-90 | replaces only the first course with the id, keeping the length and the other courses, and leaves the list alone when no course has the id; the current course is replaced exactly when its id matches |
| CourseSlice.DeleteCourse | src/lib/store/slices/courseSlice.ts:91-96 | no course with the id remains, every other course keeps its multiplicity, and the current course is cleared exactly when it has the id |
| CourseSlice.DeleteCourseInOrder | src/lib/store/slices/courseSlice.ts:91-92 | deleting from a list split in two deletes from each half in place, so the remaining courses keep their cached order |
| CourseSlice.UpdateThenLookup | src/lib/store/slices/courseSlice.ts:82-90 | after an update, a lookup by id finds the new version |
| CourseSlice.DeleteAfterAdd | src/lib/store/slices/courseSlice.ts:79-96 | adding a course with an uncached id and then deleting that id restores the list |
| CourseSlice.DeleteIdempotent | src/lib/store/slices/courseSlice.ts:91-96 | deleting an id twice is the same as deleting it once |
| AuthSlice.Override | src/lib/store/slices/authSlice.ts:51 | one field of an object spread: the patch's value if the key is present, else the old value |
| AuthSlice.SetAuthLoading | src/lib/store/slices/authSlice.ts:31-33 | sets only the loading flag |
| AuthSlice.SetUser | src/lib/store/slices/authSlice.ts:34-39 | user present, authenticated, not loading, no error |
| AuthSlice.ClearUser | src/lib/store/slices/authSlice.ts:40-44 | no user, not authenticated, not loading, and the error kept |
| AuthSlice.SetAuthError | src/lib/store/slices/authSlice.ts:45-48 | sets the error and ends loading; nothing else changes |
| AuthSlice.UpdateUserProfile | src/lib/store/slices/authSlice.ts:49-53 | a no-op without a user; otherwise each patched field takes the patch's value and every other field keeps its value |
| AuthSlice.ReducePreservesConsistent | src/lib/store/slices/authSlice.ts:31-53 | every reducer keeps `isAuthenticated` true exactly when a user is present |
| AuthSlice.RunPreservesConsistent | src/lib/store/slices/authSlice.ts:31-53 | so does any sequence of reducers |
| AuthSlice.RunFromInitialConsistent | src/lib/store/slices/authSlice.ts:20-54 | from the initial state, after any sequence of actions, `isAuthenticated` is true exactly when a user is present |
| UiSlice.ToggleTheme | src/lib/store/slices/uiSlice.ts:31-33 | swaps light and dark and changes nothing else |
| UiSlice.SetTheme | src/lib/store/slices/uiSlice.ts:34-36 | sets only the theme |
| UiSlice.ToggleSidebar | src/lib/store/slices/uiSlice.ts:37-39 | negates only the sidebar flag |
| UiSlice.SetSidebarOpen | src/lib/store/slices/uiSlice.ts:40-42 | sets only the sidebar flag |
| UiSlice.AddNotification | src/lib/store/slices/uiSlice.ts:43-53 | appends exactly one unread notification with the supplied fields, whose id is the decimal text of the clock reading |
| UiSlice.IndexOfNotification | src/lib/store/slices/uiSlice.ts:55 | the position of the first notification with the id, or None exactly when none has it |
| UiSlice.MarkNotificationAsRead | src/lib/store/slices/uiSlice.ts:54-59 | only the first notification with the id becomes read, its other fields and the length are kept, and the state is unchanged when no notification has the id |
| UiSlice.ClearNotifications | src/lib/store/slices/uiSlice.ts:60-62 | empties only the notification list |
| UiSlice.SetSearching | src/lib/store/slices/uiSlice.ts:63-65 | sets only the searching flag |
| UiSlice.SetSearchQuery | src/lib/store/slices/uiSlice.ts:66-68 | sets only the query |
| UiSlice.ToggleVideoFullscreen | src/lib/store/slices/uiSlice.ts:69-71 | negates only the full-screen flag |
| UiSlice.SetVideoFullscreen | src/lib/store/slices/uiSlice.ts:72-74 | sets only the full-screen flag |
| UiSlice.TogglesAreInvolutions | src/lib/store/slices/uiSlice.ts:31-39 | each of the three toggles applied twice restores the state |
| UiSlice.MarkAfterAdd | src/lib/store/slices/uiSlice.ts:43-59 | a notification just added is marked read by its id, unless an older notification has that id |
| UiSlice.SameMillisecondShadows | src/lib/store/slices/uiSlice.ts:49-57 | two notifications added in the same millisecond share an id, and marking that id leaves the newer one unread |
| CourseService.GetCourseById | src/lib/services/course.service.ts:45-58 | the stored course with the id, or "document not found" exactly when there is none |
| CourseService.GetCourseBySlug | src/lib/services/course.service.ts:61-78 | fails with "Course not found" exactly when no course has the slug; otherwise the first course listed with that slug |
| CourseService.GetLessonById | src/lib/services/course.service.ts:119-132 | the stored lesson with the id, or "document not found" exactly when there is none |
| CourseService.GetCourseLessons | src/lib/services/course.service.ts:100-116 | exactly the stored lessons of the course |
| CourseService.CreateCourse | src/lib/services/course.service.ts:135-159 | appends a course with the fresh id, a slug made from the title, the draft's title, description, price, thumbnail, category, status and instructor, zero counters, and equal creation and update times; a clashing id throws with the store unchanged |
| CourseService.PatchCounters | src/lib/services/course.service.ts:162-179 | overwrites only the given counters and `updatedAt` of the first course with the id, and keeps every other field of that course and every other document; a missing course throws with the store unchanged |
| CourseService.CreateLesson | src/lib/services/course.service.ts:203-224 | stores the lesson, then raises its course's count by one and total by the lesson's duration, leaving every other course alone; with a missing course the lesson stays stored and the call throws |
| CourseService.UpdateLesson | src/lib/services/course.service.ts:227-256 | patches the lesson; when the patch has a `duration` key, moves the course's total by the new duration (0 when it is `undefined`) minus the old one, so a key holding `undefined` lowers it by the old duration; never moves the count; the course gets `updatedAt` set to the call's time and keeps every other field; a missing lesson throws with the store unchanged |
| CourseService.DurationOrZero | src/lib/services/course.service.ts:233 | the `duration`-or-zero fallback is the number when one is given and 0 for `undefined` |
| CourseService.DeleteLesson | src/lib/services/course.service.ts:259-280 | removes the lesson, then lowers its course's count by one and total by the duration, each floored at zero, sets the course's `updatedAt` and keeps its other fields; with a missing course the lesson is gone and the call throws "document not found" |
| CourseService.Max0 | src/lib/services/course.service.ts:273-274 | `Math.max(0, x)` is the larger of 0 and x |
| CourseService.LessonIds | src/lib/services/course.service.ts:186-188 | the ids of the listed lessons, in order |
| CourseCounters.CreateLessonKeepsInStep | src/lib/services/course.service.ts:212-217 | creating a lesson with a non-negative duration for a stored course succeeds and keeps every course's counters equal to the number and summed duration of its lessons |
| CourseCounters.CreateLessonOrphan | src/lib/services/course.service.ts:205-217 | a lesson created for a missing course is stored anyway, with no course, and the call throws |
| CourseCounters.UpdateLessonKeepsInStep | src/lib/services/course.service.ts:230-249 | updating a stored lesson without moving it to another course, to a non-negative duration, succeeds and keeps every counter in step |
| CourseCounters.UndefinedDurationBreaksInStep | src/lib/services/course.service.ts:230-249 | a patch whose `duration` key holds `undefined` leaves the lessons as they were but lowers the course's total, so the counters fall out of step |
| CourseCounters.DeleteLessonKeepsInStep | src/lib/services/course.service.ts:271-275 | deleting a stored lesson keeps every counter in step; the zero floors never engage, so the count drops by exactly one and the total by exactly the duration |
| CourseCounters.FloorsIdle | src/lib/services/course.service.ts:273-274 | while the counters are in step, a stored lesson's course has a count of at least one and a total of at least that lesson's duration |
| CourseCounters.CreateCourseKeepsInStep | src/lib/services/course.service.ts:135-159 | creating a course under a fresh id keeps every counter in step |
| CourseCounters.NoLessonsOfFreshCourse | src/lib/services/course.service.ts:147-148 | a course id that is not stored has no lessons, so zero counters describe it |
| CourseDeletion.DeleteLessonsKeepsInStep | src/lib/services/course.service.ts:186-188 | deleting distinct stored lessons one after another succeeds, keeps the counters in step, and removes exactly the lessons with those ids |
| CourseDeletion.CourseLessonIds | src/lib/services/course.service.ts:185 | the ids `deleteCourse` deletes are distinct, stored, and exactly the ids of the course's lessons |
| CourseService.DeleteCourse | src/lib/services/course.service.ts:182-200 | a successful call removes exactly one course and a failed one none; enrollments and progress documents are never touched |
| CourseDeletion.DeleteCourseClears | src/lib/services/course.service.ts:182-200 | deleting a stored course succeeds; the course and all of its lessons are gone, every other lesson stays, and the counters stay in step |
| CourseDeletion.DeleteMissingCourse | src/lib/services/course.service.ts:182-200 | deleting a course that is not stored and has no lessons throws "document not found" and changes nothing |
| PaymentService.FindCourse | src/lib/services/payment.service.ts:21-25 | the stored course, or "document not found" exactly when there is none |
| PaymentService.CreateEnrollment | src/lib/services/payment.service.ts:19-61 | a missing course throws before any write; otherwise stores an active enrollment charging the course price, then an empty active progress document for the course |
| PaymentService.IsUserEnrolled | src/lib/services/payment.service.ts:64-81 | true exactly when some enrollment matches the user and course and is active |
| PaymentService.GetUserEnrollments | src/lib/services/payment.service.ts:84-97 | exactly the enrollments of the user |
| PaymentService.EnrolledAfterCreate | src/lib/services/payment.service.ts:19-81 | after a successful enrollment, the user is enrolled in the course |
| PaymentService.ProgressAfterCreate | src/lib/services/payment.service.ts:42-54 | a successful enrollment also stores an empty active progress document for the user and course |
| PaymentService.IndexOfPayment | src/lib/services/payment.service.ts:134-141 | the position of the first enrollment with the payment id, or None exactly when none has it |
| PaymentService.EnrollmentStatusFor | src/lib/services/payment.service.ts:149 | a succeeded payment gives "active" and a failed one "failed", in both directions |
| PaymentService.VerifyPayment | src/lib/services/payment.service.ts:131-157 | only the first enrollment with the payment id changes: active on success, failed otherwise; with none, nothing changes |
| PaymentService.VerifySucceededEnrolls | src/lib/services/payment.service.ts:131-157 | a succeeded payment makes its enrollment's user enrolled in the course |
| PaymentService.VerifyIdempotent | src/lib/services/payment.service.ts:131-157 | settling the same payment twice with the same status is the same as settling it once |
| PaymentService.ApplyPromoCode | src/lib/services/payment.service.ts:160-175 | valid exactly for a code in the table, with that code's discount; otherwise invalid, with no discount |
| PaymentService.PromoCodeTable | src/lib/services/payment.service.ts:164-170 | exactly WELCOME10, MOTION25 and DESIGN50 are valid; every discount lies between 10 and 50; the course never changes the answer |
| PaymentService.PromoCodeCaseSensitive | src/lib/services/payment.service.ts:164-170 | matching is case-sensitive |
| Appwrite.KeepWordsAndSpaces | src/lib/appwrite.ts:37 | the deletion keeps only word characters and spaces, taken from the input, and keeps every word character and space as often as it occurs |
| Appwrite.KeepAppend | src/lib/appwrite.ts:37 | the deletion works piece by piece, so the kept characters stay in order |
| Appwrite.DashSpaceRuns | src/lib/appwrite.ts:38 | dashing never lengthens the text, and the result is empty exactly when the text is |
| Appwrite.DashSpaceRunsFacts | src/lib/appwrite.ts:38 | dashing writes only '-' and non-space characters of the text, starts with '-' exactly when the text starts with a space, and writes no two dashes in a row when the text had none |
| Appwrite.DashSpaceRunsKeepsText | src/lib/appwrite.ts:38 | on text without '-', removing the dashes from the result gives the text with its spaces removed: every other character is copied, in order |
| Appwrite.CreateSlug | src/lib/appwrite.ts:34-39 | the slug is no longer than the text, uses only `a-z`, `0-9`, `_` and `-`, never has two adjacent dashes, and without its dashes is exactly the lower-cased text's word characters in order |
| Appwrite.TrailingSpaceBecomesDash | src/lib/appwrite.ts:38 | a trailing space is not trimmed; it becomes a trailing '-' |
| Appwrite.SlugFixedPoint | src/lib/appwrite.ts:34-39 | strings over `[a-z0-9_]` are their own slugs |
| Appwrite.LeadingSpaceBecomesDash | src/lib/appwrite.ts:38 | a leading space is not trimmed; it becomes a leading '-' |
| Appwrite.TwoWordSlug | src/lib/appwrite.ts:34-39 | two slug words joined by a space become the words joined by '-' |
| Appwrite.DashedSlugLosesDash | src/lib/appwrite.ts:37 | the hyphen between two slug words is deleted |
| Appwrite.NotIdempotent | src/lib/appwrite.ts:34-39 | a second application changes the slug: "a b" gives "a-b", which then gives "ab" |
| VideoPlayer.StatusFor | src/components/ui/video-player.tsx:63-74 | completed exactly from 95 percent on, otherwise in progress; never "not started" |
| VideoPlayer.OnTimeUpdate | src/components/ui/video-player.tsx:56-81 | a zero time or duration does nothing; otherwise the percentage is time/duration·100, one update is dispatched exactly when both ids are truthy (completed exactly from 95 percent), and the callback gets the percentage whether or not an update was dispatched |
| VideoPlayer.PercentageUncapped | src/components/ui/video-player.tsx:59 | a clock past the end reads above 100 percent |
| VideoPlayer.DispatchMarksCompletion | src/components/ui/video-player.tsx:63-75 | the dispatched update makes the store's lesson read completed exactly when at least 95 percent was watched |
| VideoPlayer.RewindRegressesStatus | src/components/ui/video-player.tsx:63-75 | a 95 percent sample followed by a 50 percent one leaves the lesson in progress, with the first completion stamp still on its entry |
| VideoPlayer.SkipForward | src/components/ui/video-player.tsx:207-212 | the clock becomes the smaller of the end and ten seconds on; nothing else changes |
| VideoPlayer.SkipBackward | src/components/ui/video-player.tsx:214-219 | the clock becomes the larger of zero and ten seconds back; nothing else changes |
| VideoPlayer.SkipsStayInside | src/components/ui/video-player.tsx:207-219 | both skips keep a clock inside the video, and away from the end a skip back undoes a skip forward |
| VideoPlayer.HandleVolumeChange | src/components/ui/video-player.tsx:167-182 | the volume becomes slider/100 on the element and in the state; zero mutes; a non-zero value unmutes only when the state was muted |
| VideoPlayer.ToggleMute | src/components/ui/video-player.tsx:184-190 | negates the element's flag and the state's flag |
| VideoPlayer.OnVolumeChange | src/components/ui/video-player.tsx:86-89 | the state copies the element's volume and mute flag |
| VideoPlayer.VolumeHandlersKeepSync | src/components/ui/video-player.tsx:167-190 | the volume handlers keep the state and the element in agreement, and two mute toggles restore both |
| VideoPlayer.VolumeChangeNeedsSync | src/components/ui/video-player.tsx:175-181 | out of sync, a muted element stays muted while the state reads unmuted |
| VideoPlayer.GetVolumeIcon | src/components/ui/video-player.tsx:227-232 | exactly one icon: muted for muted or zero volume, then low below 0.3, medium below 0.7, high otherwise |
| VideoPlayer.VolumeIconMonotone | src/components/ui/video-player.tsx:227-232 | a louder volume never shows a quieter icon |
| VideoPlayer.FormatTime | src/components/ui/video-player.tsx:221-225 | the clock always has a colon; for t ≥ 0 it is ⌊t⌋ div 60, a colon, and ⌊t⌋ mod 60 as exactly two digits |
| VideoPlayer.ParseFormatTime | src/components/ui/video-player.tsx:221-225 | reading the clock back gives the whole seconds ⌊t⌋ |
| VideoPlayer.FormatTimeExamples | src/components/ui/video-player.tsx:221-225 | zero shows "0:00"; a negative time shows a malformed clock such as "-1:0-5" |
| Navbar.GetUserInitials | src/components/layout/navbar.tsx:55-62 | empty without a user or with an empty name; otherwise at least one character |
| Navbar.InitialsOfOneWord | src/components/layout/navbar.tsx:61 | a name without a space gives its first character, upper-cased |
| Navbar.InitialsOfTwoWords | src/components/layout/navbar.tsx:57-60 | when the first space has a word on each side, the result is the upper-cased first characters of those two words, and later words are ignored |
| Navbar.LeadingSpaceSplicesUndefined | src/components/layout/navbar.tsx:57-59 | a name starting with a space gives initials that begin with "UNDEFINED" and are longer than two characters |
| Navbar.LeadingSpaceExample | src/components/layout/navbar.tsx:57-59 | the name " Ann" gives "UNDEFINEDA" |
| Navbar.GetUserInitialsFixed | src/components/layout/navbar.tsx:55-62 | the corrected initials have at most two characters and are empty without a user |
| Navbar.FixedInitialsFromName | src/components/layout/navbar.tsx:57-61 | each corrected initial is an upper-cased non-space character of the name |
| Navbar.FixedInitialsEmptyIff | src/components/layout/navbar.tsx:56 | the corrected initials are empty exactly when the name has no non-space character |
| Navbar.FixedAgreesOnWellFormedNames | src/components/layout/navbar.tsx:57-61 | on a one-word name, or a name whose first space has a word on each side, the corrected initials equal the ones as written |
| Navbar.HandleSearch | src/components/layout/navbar.tsx:47-53 | sets searching and navigates with the untrimmed query exactly when the query has a non-whitespace character; otherwise nothing changes |
| Navbar.NextTheme | src/components/layout/navbar.tsx:142 | dark goes to light and anything else, "system" included, goes to dark |
| Navbar.NextThemeTwice | src/components/layout/navbar.tsx:142 | two presses restore light or dark, and turn "system" into light |
| ProfilePage.ValidateProfile | src/app/profile/page.tsx:31-34 | an issue on the name exactly when it is shorter than 2; an issue on the bio exactly when it is present and longer than 500; each issue has its message; valid exactly when neither holds |
| ProfilePage.ValidatePassword | src/app/profile/page.tsx:39-46 | length issues on the current and new password exactly when shorter than 6; a "Passwords do not match" issue on `confirmPassword` exactly on a mismatch, whatever the lengths; valid exactly when none holds |
| ProfilePage.ValidConfirmIsLongEnough | src/app/profile/page.tsx:42-46 | in any valid form the confirmation has at least 6 characters, through the equality |
| ProfilePage.MismatchReported | src/app/profile/page.tsx:43-46 | a mismatch is reported on `confirmPassword` with its own message |
| ProfilePage.SubmitProfile | src/app/profile/page.tsx:84-93 | a request is sent exactly with a user and a valid form; it targets the user's id and carries only the name and bio |
| ProfilePage.SubmitChangesOnlyNameAndBio | src/app/profile/page.tsx:90-95 | when the reply echoes the request and is stored, only the user's name and bio change |
| Text.NatToString | src/lib/store/slices/uiSlice.ts:49 | `String(n)` of a natural number is a non-empty string of digits with no leading zero ("0" only for zero) |
| Text.ParseNatToString | src/lib/store/slices/uiSlice.ts:49 | the decimal text of n reads back as n |
| Text.NatToStringInjective | src/lib/store/slices/uiSlice.ts:49 | different clock readings give different notification ids |
| Text.Split | src/components/layout/navbar.tsx:57 | `split(' ')` gives at least one piece, and no piece contains the separator |
| Text.JoinSplit | src/components/layout/navbar.tsx:57 | joining the pieces with the separator gives back the string |
| Text.SplitManyIff | src/components/layout/navbar.tsx:58 | there is more than one piece exactly when the separator occurs |
| Text.TrimEmptyIff | src/components/layout/navbar.tsx:49 | the trimmed query is empty exactly when every character is whitespace |
| Text.LowerChar | src/lib/appwrite.ts:36 | `toLowerCase` maps each upper-case ASCII letter to its lower-case letter (code + 32) and changes nothing else |
| Text.UpperChar | src/components/layout/navbar.tsx:59-61 | `toUpperCase` maps each lower-case ASCII letter to its upper-case letter (code − 32) and changes nothing else |

## Left out

- The backend SDK (`databases`, `account`, `storage`, `avatars`) is an in-memory store of sequences. Network failures, retries, permissions and query limits are not modelled. The only failures are a missing document, a clashing fresh id and the service's own "Course not found".
- Clocks and ids are parameters. One `now` is used per call, even where the source reads the clock several times (`startedAt` and `lastAccessedAt` in `createEnrollment`, `completedAt` and `lastAccessedAt` in an update).
- `getPublishedCourses`, `getFeaturedCourses`, `getCoursesByCategory` and `searchCourses` are left out. They only forward backend queries; `orderDesc`, `limit` and full-text `search` are backend behaviour.
- `uploadCourseThumbnail` and `uploadLessonVideo` are left out because they are storage I/O.
- `createStripeCheckoutSession` is left out because it is a hard-coded demonstration stub.
- `CourseService.PatchCounters`: `updateCourse` is modelled only as the lesson operations call it (counters plus `updatedAt`). The general `Partial<Course>` patch is not modelled.
- `CourseService.GetCourseLessons` returns lessons in store order. The `orderAsc('order')` sort is not modelled, and no property depends on it.
- `CourseService.GetCourseLessons` returns every lesson of the course in one listing. The source passes no `Query.limit`, and the backend returns one page of at most 25 documents by default. Paging is not modelled.
- `CourseDeletion.DeleteCourseClears` assumes that all of a course's lessons come back in that one listing. With the backend's default page size, `deleteCourse` on a course with more than 25 lessons deletes only the first page of lessons and then the course, which leaves the other lessons orphaned.
- The optional `thumbnail` and `resources` lesson fields are left out. They are pass-through data.
- `CourseCounters.UpdateLessonKeepsInStep` assumes the patch does not move the lesson to another course. A patch that moves a lesson changes neither course's count and moves only the new course's total, so the invariant holds only for patches that keep the course.
- `CourseCounters.UpdateLessonKeepsInStep` also assumes that a `duration` key holds a number. A key holding `undefined` breaks the invariant (`CourseCounters.UndefinedDurationBreaksInStep`).
- `CourseService.UpdateLesson`: a `duration` key holding `null` is not modelled. JSON keeps the `null`, and what the backend stores for a null integer is backend behaviour. `Some(None)` stands for `undefined` only.
- `ProgressService.CompletionPercentage`: the share `(c / t) * 100` is computed on exact reals, but the source computes it in IEEE-754 doubles. For 23 completed entries of 40 lessons the double product is 57.49999999999999, which rounds to 57, while the model gives 58. Results can differ by one at such near-halves.
- `ProgressService.CompletionPercentageFormula` holds for the exact-real share only. It does not hold for the double product at src/lib/services/progress.service.ts:130 (23 of 40 is the example above).
- `ProgressService.RoundedShare` is an identity over exact reals. The double product `(23 / 40) * 100` falls just below the half, so it rounds differently.
- `ProgressService.CompletionPercentage` and `ProgressService.GetNextLesson`: the model's documents always have a `progress` list, so the source's `!progress.progress` guard is covered only through the missing-document case.
- `ProgressService.GetNextLesson` returns `Option<string>`, where None is the `undefined` of `lessons[0]` on an empty list.
- `PaymentService.ApplyPromoCode` accepts any string code, but the model's table has only the three own keys. An inherited key such as "toString" would return a truthy non-record in JavaScript; that case is not modelled.
- `VideoPlayer.OnTimeUpdate`: times, volumes and percentages are exact reals rather than IEEE-754 doubles. A NaN duration, which is also falsy, is not represented.
- Player refs, `useEffect` listener wiring, the controls timer, the fullscreen API and seeking through the progress bar are not modelled; they are React and browser behaviour.
- `Navbar.HandleSearch` returns the raw query as the navigation target. `encodeURIComponent` and the router are library behaviour.
- `Navbar.NextTheme`: how the theme provider resolves "system" (`localStorage`, `matchMedia`) is left out.
- `ProfilePage.SubmitProfile` stops at the request. `authService.updateProfile` is not part of this model; `SubmitChangesOnlyNameAndBio` assumes its reply echoes the request.
- The `onPasswordSubmit` handler and the auth service are left out. They forward to the authentication backend.
- `ProfilePage.ValidatePassword` follows zod 3's order of issues. A string-length failure does not abort the object, so the refinement still runs; this is library behaviour that the model states explicitly.
- `Text.LowerChar` and `Text.UpperChar` map ASCII letters only. Lengths count characters rather than UTF-16 code units, so the 2-, 6- and 500-character limits agree with JavaScript only on text inside the Basic Multilingual Plane.
- Deliberately modelled as the code behaves:
  - the percentage is not clamped to 0..100;
  - a zero current time is ignored like a zero duration;
  - the status can regress after seeking back (`VideoPlayer.RewindRegressesStatus`);
  - `completedAt` is re-stamped on every completed update, not only on the first.

## Findings

| source | as written | input that shows it | evidently intended | confidence | as-written member | corrected member |
|---|---|---|---|---|---|---|
| src/components/layout/navbar.tsx:57-61 | The initials index the first character of the first one or two pieces of `name.split(' ')`. An empty piece has no first character, so the template literal splices in the text "undefined". | The name " Ann" gives the pieces "" and "Ann", so the result is "UNDEFINEDA". The names "Ann " and "Ann  Lee" behave alike. | The initials are the first characters of the first two words, whatever spacing separates them: at most two characters, each taken from the name. | not executed | Navbar.GetUserInitials, with Navbar.LeadingSpaceExample and Navbar.LeadingSpaceSplicesUndefined | Navbar.GetUserInitialsFixed, with Navbar.FixedInitialsFromName, Navbar.FixedInitialsEmptyIff and Navbar.FixedAgreesOnWellFormedNames |

=== FILE: appwrite.dfy ===
/** The slug helper of the backend wrapper (src/lib/appwrite.ts). */
module Appwrite {
  import Seqs
  import Text

  /** `\w` in a JavaScript regular expression without the `u` flag: `[A-Za-z0-9_]`. */
  predicate IsWordChar(c: char)
  {
    Text.IsAsciiUpper(c) || Text.IsAsciiLower(c) || Text.IsDigit(c) || c == '_'
  }

  /** The characters a slug can contain. */
  predicate IsSlugChar(c: char)
  {
    Text.IsAsciiLower(c) || Text.IsDigit(c) || c == '_' || c == '-'
  }

  /** The characters the deletion step keeps. */
  predicate Kept(c: char)
  {
    IsWordChar(c) || c == ' '
  }

  predicate IsNotSpace(c: char)
  {
    c != ' '
  }

  predicate IsNotDash(c: char)
  {
    c != '-'
  }

  /** `replace(/[^\w ]+/g, '')`: delete everything but word characters and spaces;
      every word character and space survives, as often as it occurred. */
  function KeepWordsAndSpaces(s: string): (r: string)
    ensures |r| <= |s|
    ensures forall i :: 0 <= i < |r| ==> r[i] in s && Kept(r[i])
    ensures forall c {:trigger multiset(r)[c]} :: Kept(c) ==> multiset(r)[c] == multiset(s)[c]
  {
    var r := Seqs.Filter(s, Kept);
    assert forall i :: 0 <= i < |r| ==> r[i] in r;
    r
  }

  /** The string without its leading spaces. */
  function DropLeadingSpaces(s: string): (r: string)
    ensures |r| <= |s| && r == s[|s| - |r|..]
    ensures |r| > 0 ==> r[0] != ' '
  {
    if |s| > 0 && s[0] == ' ' then DropLeadingSpaces(s[1..]) else s
  }

  /** The deletion works piece by piece, so the kept characters stay in order. */
  lemma KeepAppend(a: string, b: string)
    ensures KeepWordsAndSpaces(a + b) == KeepWordsAndSpaces(a) + KeepWordsAndSpaces(b)
  {
    Seqs.FilterAppend(a, b, Kept);
  }

  /** `replace(/ +/g, '-')`: each maximal run of spaces becomes one '-'. The
      result is empty exactly when the text is, and never longer. */
  function DashSpaceRuns(s: string): (r: string)
    ensures |r| <= |s|
    decreases |s|
  {
    if |s| == 0 then ""
    else if s[0] == ' ' then "-" + DashSpaceRuns(DropLeadingSpaces(s[1..]))
    else [s[0]] + DashSpaceRuns(s[1..])
  }

  /** Dashing starts with '-' exactly when the text starts with a space, writes
      nothing but '-' and characters of the text other than spaces, and never
      writes two dashes in a row when the text had none. */
  lemma {:induction false} DashSpaceRunsFacts(s: string)
    ensures |s| > 0 ==> |DashSpaceRuns(s)| > 0
    ensures |s| > 0 && s[0] == ' ' ==> DashSpaceRuns(s)[0] == '-'
    ensures |s| > 0 && s[0] != ' ' ==> DashSpaceRuns(s)[0] == s[0]
    ensures forall i :: 0 <= i < |DashSpaceRuns(s)| ==>
              DashSpaceRuns(s)[i] == '-' || (DashSpaceRuns(s)[i] in s && DashSpaceRuns(s)[i] != ' ')
    ensures '-' !in s ==> forall i :: 0 <= i < |DashSpaceRuns(s)| - 1 ==>
              !(DashSpaceRuns(s)[i] == '-' && DashSpaceRuns(s)[i + 1] == '-')
    decreases |s|
  {
    if |s| > 0 {
      var r := DashSpaceRuns(s);
      var t := if s[0] == ' ' then DropLeadingSpaces(s[1..]) else s[1..];
      DashSpaceRunsFacts(t);
      var rt := DashSpaceRuns(t);
      assert r == [r[0]] + rt;
      assert forall c :: c in t ==> c in s by {
        assert t == s[|s| - |t|..];
      }
      forall i | 1 <= i < |r|
        ensures r[i] == '-' || (r[i] in s && r[i] != ' ')
      {
        assert r[i] == rt[i - 1];
      }
      if '-' !in s {
        forall i | 0 <= i < |r| - 1
          ensures !(r[i] == '-' && r[i + 1] == '-')
        {
          if i == 0 {
            assert r[1] == rt[0];
            if s[0] == ' ' {
              assert |t| > 0 ==> t[0] != ' ' && t[0] in s;
            }
          } else {
            assert r[i] == rt[i - 1] && r[i + 1] == rt[i];
          }
        }
      }
    }
  }

  /** Dropping leading spaces does not change the text's non-space characters. */
  lemma {:induction false} DropLeadingKeepsText(s: string)
    ensures Seqs.Filter(DropLeadingSpaces(s), IsNotSpace) == Seqs.Filter(s, IsNotSpace)
    decreases |s|
  {
    if |s| > 0 && s[0] == ' ' {
      DropLeadingKeepsText(s[1..]);
    }
  }

  /** On text without '-', dashing only turns space runs into '-': removing the
      dashes from the result gives the text with its spaces removed. */
  lemma {:induction false} DashSpaceRunsKeepsText(s: string)
    requires '-' !in s
    ensures Seqs.Filter(DashSpaceRuns(s), IsNotDash) == Seqs.Filter(s, IsNotSpace)
    decreases |s|
  {
    if |s| > 0 {
      if s[0] == ' ' {
        var t := DropLeadingSpaces(s[1..]);
        assert t == s[1..][|s[1..]| - |t|..];
        assert forall c :: c in t ==> c in s;
        DashSpaceRunsKeepsText(t);
        var d := "-" + DashSpaceRuns(t);
        assert d[0] == '-' && d[1..] == DashSpaceRuns(t);
        assert Seqs.Filter(d, IsNotDash) == Seqs.Filter(DashSpaceRuns(t), IsNotDash);
        DropLeadingKeepsText(s[1..]);
      } else {
        assert forall c :: c in s[1..] ==> c in s;
        DashSpaceRunsKeepsText(s[1..]);
        var d := [s[0]] + DashSpaceRuns(s[1..]);
        assert d[0] == s[0] && d[1..] == DashSpaceRuns(s[1..]);
      }
    }
  }

  /** A text ending in a space dashes to a text ending in '-'. */
  lemma {:induction false} DashTrailingSpace(s: string)
    requires |s| > 0 && s[|s| - 1] == ' '
    ensures |DashSpaceRuns(s)| > 0 && DashSpaceRuns(s)[|DashSpaceRuns(s)| - 1] == '-'
    decreases |s|
  {
    if s[0] == ' ' {
      var t := DropLeadingSpaces(s[1..]);
      if |t| > 0 {
        assert t == s[1..][|s[1..]| - |t|..];
        assert t[|t| - 1] == s[|s| - 1];
        DashTrailingSpace(t);
      }
    } else {
      DashTrailingSpace(s[1..]);
    }
  }

  /** Word characters survive and nothing else: removing the dashes from the
      kept text with its spaces removed leaves the word characters. */
  lemma {:induction false} KeptWithoutSpaces(s: string)
    ensures Seqs.Filter(Seqs.Filter(s, Kept), IsNotSpace) == Seqs.Filter(s, IsWordChar)
  {
    if |s| > 0 {
      KeptWithoutSpaces(s[1..]);
      var rest := Seqs.Filter(s[1..], Kept);
      var k := Seqs.Filter(s, Kept);
      var w := Seqs.Filter(s, IsWordChar);
      assert w == (if IsWordChar(s[0]) then [s[0]] else []) + Seqs.Filter(s[1..], IsWordChar);
      if Kept(s[0]) {
        assert k == [s[0]] + rest;
        assert k[0] == s[0] && k[1..] == rest;
        assert Seqs.Filter(k, IsNotSpace) == (if IsNotSpace(s[0]) then [s[0]] else []) + Seqs.Filter(rest, IsNotSpace);
      } else {
        assert k == rest;
      }
    }
  }

  /** `createSlug`: lower-case, drop punctuation (hyphens included), then dash the
      space runs. The slug without its dashes is exactly the lowered text's word
      characters, in order. */
  function CreateSlug(text: string): (slug: string)
    ensures |slug| <= |text|
    ensures forall i :: 0 <= i < |slug| ==> IsSlugChar(slug[i])
    ensures forall i :: 0 <= i < |slug| - 1 ==> !(slug[i] == '-' && slug[i + 1] == '-')
    ensures Seqs.Filter(slug, IsNotDash) == Seqs.Filter(Text.Lower(text), IsWordChar)
  {
    var kept := KeepWordsAndSpaces(Text.Lower(text));
    SlugShape(text, kept);
    SlugKeepsWords(text, kept);
    DashSpaceRuns(kept)
  }

  /** The three stages together give the slug's shape. */
  lemma SlugShape(text: string, kept: string)
    requires kept == KeepWordsAndSpaces(Text.Lower(text))
    ensures |DashSpaceRuns(kept)| <= |text|
    ensures forall i :: 0 <= i < |DashSpaceRuns(kept)| ==> IsSlugChar(DashSpaceRuns(kept)[i])
    ensures forall i :: 0 <= i < |DashSpaceRuns(kept)| - 1 ==>
              !(DashSpaceRuns(kept)[i] == '-' && DashSpaceRuns(kept)[i + 1] == '-')
    ensures '-' !in kept
  {
    SlugAlphabet(text, kept);
    DashSpaceRunsFacts(kept);
  }

  /** The slug's non-dash characters are the lowered text's word characters. */
  lemma SlugKeepsWords(text: string, kept: string)
    requires kept == KeepWordsAndSpaces(Text.Lower(text))
    requires '-' !in kept
    ensures Seqs.Filter(DashSpaceRuns(kept), IsNotDash) == Seqs.Filter(Text.Lower(text), IsWordChar)
  {
    DashSpaceRunsKeepsText(kept);
    KeptWithoutSpaces(Text.Lower(text));
  }

  /** A trailing space is not trimmed: it becomes a trailing '-'. */
  lemma TrailingSpaceBecomesDash(text: string)
    requires |text| > 0 && text[|text| - 1] == ' '
    ensures |CreateSlug(text)| > 0 && CreateSlug(text)[|CreateSlug(text)| - 1] == '-'
  {
    var lowered := Text.Lower(text);
    var n := |text| - 1;
    assert lowered == lowered[..n] + [' '];
    KeepAppend(lowered[..n], [' ']);
    assert KeepWordsAndSpaces([' ']) == [' '];
    var kept := KeepWordsAndSpaces(lowered);
    assert kept[|kept| - 1] == ' ';
    DashTrailingSpace(kept);
    SlugStages(text);
  }

  /** After lowering and deleting, only lower-case letters, digits, '_' and spaces remain. */
  lemma SlugAlphabet(text: string, kept: string)
    requires kept == KeepWordsAndSpaces(Text.Lower(text))
    ensures forall i :: 0 <= i < |kept| ==> (IsSlugChar(kept[i]) && kept[i] != '-') || kept[i] == ' '
    ensures '-' !in kept
  {
    var lowered := Text.Lower(text);
    forall i | 0 <= i < |kept|
      ensures (IsSlugChar(kept[i]) && kept[i] != '-') || kept[i] == ' '
    {
      var c := kept[i];
      assert c in lowered && Kept(c);
      var k :| 0 <= k < |lowered| && lowered[k] == c;
      assert c == Text.LowerChar(text[k]);
      LoweredWordChar(c);
    }
  }

  lemma LoweredWordChar(c: char)
    requires !Text.IsAsciiUpper(c)
    ensures IsWordChar(c) ==> IsSlugChar(c) && c != '-'
  {
  }

  /** Strings over `[a-z0-9_]` are their own slugs. */
  lemma SlugFixedPoint(text: string)
    requires forall i :: 0 <= i < |text| ==> Text.IsAsciiLower(text[i]) || Text.IsDigit(text[i]) || text[i] == '_'
    ensures CreateSlug(text) == text
  {
    assert Text.Lower(text) == text;
    Seqs.FilterAll(text, Kept);
    DashNoSpaces(text);
  }

  lemma {:induction false} DashNoSpaces(s: string)
    requires ' ' !in s
    ensures DashSpaceRuns(s) == s
  {
    if |s| > 0 {
      DashNoSpaces(s[1..]);
    }
  }

  /** A leading space is not trimmed: it becomes a leading '-'. */
  lemma LeadingSpaceBecomesDash(text: string)
    requires |text| > 0 && text[0] == ' '
    ensures |CreateSlug(text)| > 0 && CreateSlug(text)[0] == '-'
  {
    var lowered := Text.Lower(text);
    assert lowered[0] == ' ';
    assert lowered == [lowered[0]] + lowered[1..];
    assert Seqs.Filter(lowered, Kept)[0] == ' ';
  }

  /** The characters `createSlug` keeps unchanged: `[a-z0-9_]`. */
  predicate IsSlugWord(w: string)
  {
    forall i :: 0 <= i < |w| ==> Text.IsAsciiLower(w[i]) || Text.IsDigit(w[i]) || w[i] == '_'
  }

  /** Lower-casing leaves text without upper-case letters alone. */
  lemma LowerNoUpper(w: string)
    requires forall i :: 0 <= i < |w| ==> !Text.IsAsciiUpper(w[i])
    ensures Text.Lower(w) == w
  {
  }

  /** Dashing passes over a prefix without spaces unchanged. */
  lemma {:induction false} DashPrefix(a: string, s: string)
    requires ' ' !in a
    ensures DashSpaceRuns(a + s) == a + DashSpaceRuns(s)
  {
    if |a| == 0 {
      assert a + s == s;
    } else {
      var t := a + s;
      assert t[0] == a[0] && t[0] != ' ';
      assert DashSpaceRuns(t) == [t[0]] + DashSpaceRuns(t[1..]);
      assert t[1..] == a[1..] + s;
      DashPrefix(a[1..], s);
      assert a == [a[0]] + a[1..];
    }
  }

  /** Two slug words joined by a space become the words joined by '-'. */
  lemma TwoWordSlug(a: string, b: string)
    requires IsSlugWord(a) && IsSlugWord(b)
    ensures CreateSlug(a + " " + b) == a + "-" + b
  {
    LowerOfJoin(a, b, ' ');
    KeepJoin(a, b);
    DashJoin(a, b);
    SlugStages(a + " " + b);
  }

  /** Dashing two slug words around a space joins them with '-'. */
  lemma DashJoin(a: string, b: string)
    requires IsSlugWord(a) && IsSlugWord(b)
    ensures DashSpaceRuns(a + " " + b) == a + "-" + b
  {
    SlugWordPlain(a);
    assert a + " " + b == a + (" " + b);
    DashPrefix(a, " " + b);
    DashSpaceB(b);
    assert a + ("-" + b) == a + "-" + b;
  }

  lemma DashSpaceB(b: string)
    requires IsSlugWord(b)
    ensures DashSpaceRuns(" " + b) == "-" + b
  {
    var t := " " + b;
    assert t[0] == ' ' && t[1..] == b;
    assert DashSpaceRuns(t) == "-" + DashSpaceRuns(DropLeadingSpaces(b));
    SlugWordPlain(b);
    DashNoSpaces(b);
  }

  /** Slug words hold no space, no dash and no upper-case letter. */
  lemma SlugWordPlain(w: string)
    requires IsSlugWord(w)
    ensures ' ' !in w && '-' !in w
    ensures forall i :: 0 <= i < |w| ==> !Text.IsAsciiUpper(w[i]) && Kept(w[i])
  {
  }

  /** Two slug words around a separator that is not an upper-case letter are left
      alone by lower-casing. */
  lemma LowerOfJoin(a: string, b: string, sep: char)
    requires IsSlugWord(a) && IsSlugWord(b) && !Text.IsAsciiUpper(sep)
    ensures Text.Lower(a + [sep] + b) == a + [sep] + b
  {
    var t := a + [sep] + b;
    SlugWordPlain(a);
    SlugWordPlain(b);
    forall i | 0 <= i < |t|
      ensures !Text.IsAsciiUpper(t[i])
    {
      if i < |a| {
        assert t[i] == a[i];
      } else if i > |a| {
        assert t[i] == b[i - |a| - 1];
      }
    }
    LowerNoUpper(t);
  }

  /** The deletion keeps two slug words around a space. */
  lemma KeepJoin(a: string, b: string)
    requires IsSlugWord(a) && IsSlugWord(b)
    ensures KeepWordsAndSpaces(a + " " + b) == a + " " + b
  {
    var t := a + " " + b;
    SlugWordPlain(a);
    SlugWordPlain(b);
    forall i | 0 <= i < |t|
      ensures Kept(t[i])
    {
      if i < |a| {
        assert t[i] == a[i];
      } else if i > |a| {
        assert t[i] == b[i - |a| - 1];
      }
    }
    Seqs.FilterAll(t, Kept);
  }

  /** A second pass over the dashed words deletes the dash. */
  lemma DashedSlugLosesDash(a: string, b: string)
    requires IsSlugWord(a) && IsSlugWord(b)
    ensures CreateSlug(a + "-" + b) == a + b
  {
    LowerOfJoin(a, b, '-');
    KeepDashed(a, b);
    SlugWordPlain(a);
    SlugWordPlain(b);
    DashNoSpaces(a + b);
    SlugStages(a + "-" + b);
  }

  lemma KeepDashed(a: string, b: string)
    requires IsSlugWord(a) && IsSlugWord(b)
    ensures KeepWordsAndSpaces(a + "-" + b) == a + b
  {
    assert a + "-" + b == a + ("-" + b);
    Seqs.FilterAppend(a, "-" + b, Kept);
    Seqs.FilterAll(a, Kept);
    DropDash(b);
  }

  lemma DropDash(b: string)
    requires IsSlugWord(b)
    ensures Seqs.Filter("-" + b, Kept) == b
  {
    var t := "-" + b;
    assert t[0] == '-' && !Kept(t[0]) && t[1..] == b;
    assert Seqs.Filter(t, Kept) == Seqs.Filter(t[1..], Kept);
    Seqs.FilterAll(b, Kept);
  }

  lemma SlugStages(text: string)
    ensures CreateSlug(text) == DashSpaceRuns(KeepWordsAndSpaces(Text.Lower(text)))
  {
  }

  /** `createSlug` is not idempotent: the hyphen it writes between two words is
      deleted by a second pass. */
  lemma NotIdempotent(a: string, b: string)
    requires IsSlugWord(a) && IsSlugWord(b)
    ensures CreateSlug(a + " " + b) == a + "-" + b
    ensures CreateSlug(CreateSlug(a + " " + b)) == a + b != a + "-" + b
  {
    TwoWordSlug(a, b);
    DashedSlugLosesDash(a, b);
    assert |a + b| < |a + "-" + b|;
  }
}

=== FILE: auth_slice.dfy ===
/** The client-side authentication store (src/lib/store/slices/authSlice.ts). */
module AuthSlice {
  import opened Wrappers

  datatype UserProfile = UserProfile(
    id: string,
    email: string,
    name: string,
    role: string,
    avatarUrl: Option<string>,
    bio: Option<string>)

  /** A `Partial<UserProfile>`: None means the key is absent. For the optional
      fields a present key may hold `undefined` (Some(None)), which the object
      spread copies over the old value. */
  datatype ProfilePatch = ProfilePatch(
    id: Option<string>,
    email: Option<string>,
    name: Option<string>,
    role: Option<string>,
    avatarUrl: Option<Option<string>>,
    bio: Option<Option<string>>)

  datatype AuthState = AuthState(
    user: Option<UserProfile>,
    isAuthenticated: bool,
    isLoading: bool,
    error: Option<string>)

  const Initial: AuthState := AuthState(None, false, false, None)

  /** The value of one field after `{...old, ...patch}`. */
  function Override<T>(current: T, patch: Option<T>): (r: T)
    ensures patch.None? ==> r == current
    ensures patch.Some? ==> r == patch.value
  {
    match patch
    case None => current
    case Some(v) => v
  }

  /** `{...user, ...patch}`. */
  function Merge(u: UserProfile, p: ProfilePatch): UserProfile
  {
    UserProfile(Override(u.id, p.id), Override(u.email, p.email), Override(u.name, p.name),
                Override(u.role, p.role), Override(u.avatarUrl, p.avatarUrl), Override(u.bio, p.bio))
  }

  function SetAuthLoading(s: AuthState, loading: bool): (r: AuthState)
    ensures r.isLoading == loading
    ensures r.(isLoading := s.isLoading) == s
  {
    s.(isLoading := loading)
  }

  /** Signing a user in: authenticated, not loading, no error. */
  function SetUser(s: AuthState, user: UserProfile): (r: AuthState)
    ensures r.user == Some(user) && r.isAuthenticated && !r.isLoading && r.error.None?
  {
    AuthState(Some(user), true, false, None)
  }

  /** Signing out keeps the last error. */
  function ClearUser(s: AuthState): (r: AuthState)
    ensures r.user.None? && !r.isAuthenticated && !r.isLoading
    ensures r.error == s.error
  {
    AuthState(None, false, false, s.error)
  }

  function SetAuthError(s: AuthState, message: string): (r: AuthState)
    ensures r.error == Some(message) && !r.isLoading
    ensures r.(error := s.error, isLoading := s.isLoading) == s
  {
    s.(error := Some(message), isLoading := false)
  }

  /** Patch the signed-in user; a no-op when nobody is signed in. */
  function UpdateUserProfile(s: AuthState, patch: ProfilePatch): (r: AuthState)
    ensures s.user.None? ==> r == s
    ensures s.user.Some? ==> r.user.Some? && r.(user := s.user) == s
    ensures s.user.Some? ==>
              var before := s.user.value;
              var u := r.user.value;
              && (patch.name.Some? ==> u.name == patch.name.value)
              && (patch.name.None? ==> u.name == before.name)
              && (patch.email.Some? ==> u.email == patch.email.value)
              && (patch.email.None? ==> u.email == before.email)
              && (patch.id.Some? ==> u.id == patch.id.value)
              && (patch.id.None? ==> u.id == before.id)
              && (patch.role.Some? ==> u.role == patch.role.value)
              && (patch.role.None? ==> u.role == before.role)
              && (patch.avatarUrl.Some? ==> u.avatarUrl == patch.avatarUrl.value)
              && (patch.avatarUrl.None? ==> u.avatarUrl == before.avatarUrl)
              && (patch.bio.Some? ==> u.bio == patch.bio.value)
              && (patch.bio.None? ==> u.bio == before.bio)
  {
    match s.user
    case None => s
    case Some(u) => s.(user := Some(Merge(u, patch)))
  }

  /** The actions of the slice. */
  datatype Action =
    | SetAuthLoadingAction(loading: bool)
    | SetUserAction(user: UserProfile)
    | ClearUserAction
    | SetAuthErrorAction(message: string)
    | UpdateUserProfileAction(patch: ProfilePatch)

  function Reduce(s: AuthState, a: Action): AuthState
  {
    match a
    case SetAuthLoadingAction(b) => SetAuthLoading(s, b)
    case SetUserAction(u) => SetUser(s, u)
    case ClearUserAction => ClearUser(s)
    case SetAuthErrorAction(m) => SetAuthError(s, m)
    case UpdateUserProfileAction(p) => UpdateUserProfile(s, p)
  }

  /** Dispatch the actions in order. */
  function Run(s: AuthState, actions: seq<Action>): AuthState
    decreases |actions|
  {
    if |actions| == 0 then s else Run(Reduce(s, actions[0]), actions[1..])
  }

  /** The flag agrees with the presence of a user. */
  predicate Consistent(s: AuthState)
  {
    s.isAuthenticated <==> s.user.Some?
  }

  /** Every reducer keeps the flag in step with the user. */
  lemma ReducePreservesConsistent(s: AuthState, a: Action)
    requires Consistent(s)
    ensures Consistent(Reduce(s, a))
  {
  }

  /** From the initial state, any sequence of actions leaves `isAuthenticated`
      true exactly when a user is present. */
  lemma {:induction false} RunFromInitialConsistent(actions: seq<Action>)
    ensures Consistent(Run(Initial, actions))
  {
    RunPreservesConsistent(Initial, actions);
  }

  lemma {:induction false} RunPreservesConsistent(s: AuthState, actions: seq<Action>)
    requires Consistent(s)
    ensures Consistent(Run(s, actions))
    decreases |actions|
  {
    if |actions| > 0 {
      ReducePreservesConsistent(s, actions[0]);
      RunPreservesConsistent(Reduce(s, actions[0]), actions[1..]);
    }
  }
}

=== FILE: backend.dfy ===
/** The hosted backend seen as an in-memory document store: one sequence of
    documents per collection, in the order the backend lists them. A call that
    throws part-way leaves the writes made before the throw in place, so every
    service call returns the store it leaves behind together with its result. */
module Backend {
  import opened Wrappers
  import Seqs
  import CS = CourseSlice
  import PS = ProgressSlice

  /** An enrollment document (the `Enrollment` interface of the payment service). */
  datatype Enrollment = Enrollment(
    id: string,
    userId: string,
    courseId: string,
    paymentId: Option<string>,
    amount: real,
    status: string,
    enrolledAt: string,
    expiresAt: Option<string>)

  /** The four collections the services use. */
  datatype Db = Db(
    courses: seq<CS.Course>,
    lessons: seq<CS.Lesson>,
    enrollments: seq<Enrollment>,
    progress: seq<PS.CourseProgress>)

  /** The store after a service call, and what the call returned or threw. */
  datatype Outcome<T> = Outcome(db: Db, result: Result<T>)

  /** Position of the lesson document with this id. */
  function IndexOfLessonDoc(lessons: seq<CS.Lesson>, id: string): (r: Option<nat>)
    ensures r.Some? ==> r.value < |lessons| && lessons[r.value].id == id
    ensures r.Some? ==> forall j :: 0 <= j < r.value ==> lessons[j].id != id
    ensures r.None? <==> forall j :: 0 <= j < |lessons| ==> lessons[j].id != id
  {
    Seqs.FindIndex(lessons, (l: CS.Lesson) => l.id == id)
  }

  /** Position of the progress document with this id. */
  function IndexOfProgressDoc(docs: seq<PS.CourseProgress>, id: string): (r: Option<nat>)
    ensures r.Some? ==> r.value < |docs| && docs[r.value].id == id
    ensures r.None? <==> forall j :: 0 <= j < |docs| ==> docs[j].id != id
  {
    Seqs.FindIndex(docs, (d: PS.CourseProgress) => d.id == id)
  }

  /** Position of the enrollment document with this id. */
  function IndexOfEnrollment(docs: seq<Enrollment>, id: string): (r: Option<nat>)
    ensures r.Some? ==> r.value < |docs| && docs[r.value].id == id
    ensures r.None? <==> forall j :: 0 <= j < |docs| ==> docs[j].id != id
  {
    Seqs.FindIndex(docs, (e: Enrollment) => e.id == id)
  }

  predicate UniqueCourseIds(courses: seq<CS.Course>)
  {
    forall i, j :: 0 <= i < j < |courses| ==> courses[i].id != courses[j].id
  }

  predicate UniqueLessonIds(lessons: seq<CS.Lesson>)
  {
    forall i, j :: 0 <= i < j < |lessons| ==> lessons[i].id != lessons[j].id
  }

  /** The sequence without its element at position `k` (deleting one document). */
  function RemoveAt<T>(s: seq<T>, k: nat): (r: seq<T>)
    requires k < |s|
    ensures |r| == |s| - 1
    ensures forall i :: 0 <= i < k ==> r[i] == s[i]
    ensures forall i :: k <= i < |r| ==> r[i] == s[i + 1]
  {
    s[..k] + s[k + 1..]
  }

  /** Deleting a document keeps the remaining lesson ids distinct. */
  lemma RemoveKeepsUniqueLessons(lessons: seq<CS.Lesson>, k: nat)
    requires k < |lessons| && UniqueLessonIds(lessons)
    ensures UniqueLessonIds(RemoveAt(lessons, k))
  {
    var r := RemoveAt(lessons, k);
    forall i, j | 0 <= i < j < |r|
      ensures r[i].id != r[j].id
    {
      var i' := if i < k then i else i + 1;
      var j' := if j < k then j else j + 1;
      assert r[i] == lessons[i'] && r[j] == lessons[j'];
    }
  }

  /** Deleting a document keeps the remaining course ids distinct. */
  lemma RemoveKeepsUniqueCourses(courses: seq<CS.Course>, k: nat)
    requires k < |courses| && UniqueCourseIds(courses)
    ensures UniqueCourseIds(RemoveAt(courses, k))
  {
    var r := RemoveAt(courses, k);
    forall i, j | 0 <= i < j < |r|
      ensures r[i].id != r[j].id
    {
      var i' := if i < k then i else i + 1;
      var j' := if j < k then j else j + 1;
      assert r[i] == courses[i'] && r[j] == courses[j'];
    }
  }
}

=== FILE: constants.dfy ===
/** The status vocabularies of the platform (src/lib/constants.ts). */
module Constants {

  /** `progressStatuses`: 'not_started' | 'in_progress' | 'completed'. */
  datatype ProgressStatus = NotStarted | InProgress | Completed

  /** The enrollment status strings the payment service writes and queries. */
  const ACTIVE: string := "active"
  const FAILED: string := "failed"
}

=== FILE: course_counters.dfy ===
/** The aggregate counters of a course stay equal to the number and summed
    duration of its lessons, as long as lessons change only through
    `createLesson`, `updateLesson` and `deleteLesson`, durations are
    non-negative and no lesson moves to another course. */
module CourseCounters {
  import opened Wrappers
  import Seqs
  import CS = CourseSlice
  import opened Backend
  import opened CourseService

  /** A course's counters describe its lessons. */
  predicate CountersMatch(c: CS.Course, lessons: seq<CS.Lesson>)
  {
    c.lessonsCount == CountOf(lessons, c.id) && c.totalDuration == TotalOf(lessons, c.id)
  }

  /** Each lesson of the store has a non-negative duration and names a stored course. */
  predicate LessonsSound(courses: seq<CS.Course>, lessons: seq<CS.Lesson>)
  {
    forall k :: 0 <= k < |lessons| ==>
      lessons[k].duration >= 0 && CS.IndexOfCourse(courses, lessons[k].courseId).Some?
  }

  /** The store invariant: distinct ids, non-negative durations, every lesson
      belongs to a stored course, and every course's counters are in step. */
  predicate InStep(db: Db)
  {
    && UniqueCourseIds(db.courses)
    && UniqueLessonIds(db.lessons)
    && LessonsSound(db.courses, db.lessons)
    && (forall i {:trigger CountersMatch(db.courses[i], db.lessons)} ::
          0 <= i < |db.courses| ==> CountersMatch(db.courses[i], db.lessons))
  }

  /** Two course lists with the same ids at the same positions. */
  predicate SameIds(a: seq<CS.Course>, b: seq<CS.Course>)
  {
    |a| == |b| && forall j :: 0 <= j < |a| ==> a[j].id == b[j].id
  }

  lemma SameIdsSameIndex(a: seq<CS.Course>, b: seq<CS.Course>, id: string)
    requires SameIds(a, b)
    ensures CS.IndexOfCourse(a, id) == CS.IndexOfCourse(b, id)
  {
  }

  /** One lesson's share of a course's counters. */
  lemma SplitCounts(a: seq<CS.Lesson>, l: CS.Lesson, b: seq<CS.Lesson>, cid: string)
    ensures CountOf(a + [l] + b, cid) == CountOf(a + b, cid) + (if l.courseId == cid then 1 else 0)
    ensures TotalOf(a + [l] + b, cid) == TotalOf(a + b, cid) + (if l.courseId == cid then l.duration else 0)
  {
    var p := (x: CS.Lesson) => x.courseId == cid;
    Seqs.FilterAppend(a + [l], b, p);
    Seqs.FilterAppend(a, [l], p);
    Seqs.FilterAppend(a, b, p);
    assert [l][1..] == [];
    var mid := Seqs.Filter([l], p);
    assert mid == if l.courseId == cid then [l] else [];
    Seqs.SumAppend(Seqs.Filter(a, p) + mid, Seqs.Filter(b, p), Duration);
    Seqs.SumAppend(Seqs.Filter(a, p), mid, Duration);
    Seqs.SumAppend(Seqs.Filter(a, p), Seqs.Filter(b, p), Duration);
  }

  lemma AppendCounts(s: seq<CS.Lesson>, l: CS.Lesson, cid: string)
    ensures CountOf(s + [l], cid) == CountOf(s, cid) + (if l.courseId == cid then 1 else 0)
    ensures TotalOf(s + [l], cid) == TotalOf(s, cid) + (if l.courseId == cid then l.duration else 0)
  {
    SplitCounts(s, l, [], cid);
    assert s + [l] + [] == s + [l];
    assert s + [] == s;
  }

  /** The lessons of a course have a non-negative total when all durations are. */
  lemma TotalNonNegative(lessons: seq<CS.Lesson>, cid: string)
    requires forall k :: 0 <= k < |lessons| ==> lessons[k].duration >= 0
    ensures TotalOf(lessons, cid) >= 0
  {
    var of := LessonsOf(lessons, cid);
    forall i | 0 <= i < |of|
      ensures Duration(of[i]) >= 0
    {
      assert of[i] in lessons;
    }
    Seqs.SumNonNegative(of, Duration);
  }

  /** When a change moves one course's lesson count and total by some amounts and
      the course's counters by the same amounts, and leaves every other course and
      its lessons alone, all counters stay in step. */
  lemma CountersAfterEdit(courses: seq<CS.Course>, courses': seq<CS.Course>,
                          lessons: seq<CS.Lesson>, lessons': seq<CS.Lesson>,
                          i: nat, dCount: int, dTotal: int)
    requires forall j {:trigger CountersMatch(courses[j], lessons)} :: 0 <= j < |courses| ==> CountersMatch(courses[j], lessons)
    requires UniqueCourseIds(courses) && SameIds(courses', courses) && i < |courses|
    requires forall j :: 0 <= j < |courses| && j != i ==> courses'[j] == courses[j]
    requires forall j :: 0 <= j < |courses| && j != i ==>
               CountOf(lessons', courses[j].id) == CountOf(lessons, courses[j].id)
               && TotalOf(lessons', courses[j].id) == TotalOf(lessons, courses[j].id)
    requires CountOf(lessons', courses[i].id) == CountOf(lessons, courses[i].id) + dCount
    requires TotalOf(lessons', courses[i].id) == TotalOf(lessons, courses[i].id) + dTotal
    requires courses'[i].lessonsCount == courses[i].lessonsCount + dCount
    requires courses'[i].totalDuration == courses[i].totalDuration + dTotal
    ensures forall j {:trigger CountersMatch(courses'[j], lessons')} :: 0 <= j < |courses'| ==> CountersMatch(courses'[j], lessons')
  {
    forall j | 0 <= j < |courses'|
      ensures CountersMatch(courses'[j], lessons')
    {
      if j != i {
        assert courses'[j] == courses[j];
        assert CountersMatch(courses[j], lessons);
      } else {
        assert CountersMatch(courses[i], lessons);
      }
    }
  }

  /** Every lesson still names a stored course when the course ids are unchanged. */
  lemma SoundAfterEdit(courses: seq<CS.Course>, courses': seq<CS.Course>, lessons': seq<CS.Lesson>)
    requires SameIds(courses', courses) && LessonsSound(courses, lessons')
    ensures LessonsSound(courses', lessons')
  {
    forall k | 0 <= k < |lessons'|
      ensures CS.IndexOfCourse(courses', lessons'[k].courseId).Some?
    {
      SameIdsSameIndex(courses', courses, lessons'[k].courseId);
    }
  }

  /** A sequence is its prefix, its element at `k` and its suffix. */
  lemma SplitAround<T>(s: seq<T>, k: nat)
    requires k < |s|
    ensures s == s[..k] + [s[k]] + s[k + 1..]
    ensures s[..k] + s[k + 1..] == RemoveAt(s, k)
  {
  }

  lemma SameIdsKeepUnique(a: seq<CS.Course>, b: seq<CS.Course>)
    requires SameIds(a, b) && UniqueCourseIds(b)
    ensures UniqueCourseIds(a)
  {
    forall i, j | 0 <= i < j < |a|
      ensures a[i].id != a[j].id
    {
      assert a[i].id == b[i].id && a[j].id == b[j].id;
    }
  }

  /** Storing a lesson under an unused id keeps lesson ids distinct. */
  lemma AppendKeepsUniqueLessons(lessons: seq<CS.Lesson>, l: CS.Lesson)
    requires UniqueLessonIds(lessons) && IndexOfLessonDoc(lessons, l.id).None?
    ensures UniqueLessonIds(lessons + [l])
  {
    var r := lessons + [l];
    forall i, j | 0 <= i < j < |r|
      ensures r[i].id != r[j].id
    {
      assert r[i] == lessons[i];
      if j < |lessons| {
        assert r[j] == lessons[j];
      }
    }
  }

  /** Overwriting a lesson with one of the same id keeps lesson ids distinct. */
  lemma ReplaceKeepsUniqueLessons(lessons: seq<CS.Lesson>, k: nat, l: CS.Lesson)
    requires UniqueLessonIds(lessons) && k < |lessons| && l.id == lessons[k].id
    ensures UniqueLessonIds(lessons[k := l])
  {
    var r := lessons[k := l];
    forall i, j | 0 <= i < j < |r|
      ensures r[i].id != r[j].id
    {
      assert r[i].id == lessons[i].id && r[j].id == lessons[j].id;
    }
  }

  /** The invariant after an edit, from the facts each lesson operation
      establishes: the course ids stay put, one course's counters move by the
      same amounts as its lessons, and nothing else changes. */
  lemma InStepAfterEdit(db: Db, db': Db, i: nat, dCount: int, dTotal: int)
    requires InStep(db)
    requires SameIds(db'.courses, db.courses) && i < |db.courses|
    requires forall j :: 0 <= j < |db.courses| && j != i ==> db'.courses[j] == db.courses[j]
    requires forall j :: 0 <= j < |db.courses| && j != i ==>
               CountOf(db'.lessons, db.courses[j].id) == CountOf(db.lessons, db.courses[j].id)
               && TotalOf(db'.lessons, db.courses[j].id) == TotalOf(db.lessons, db.courses[j].id)
    requires CountOf(db'.lessons, db.courses[i].id) == CountOf(db.lessons, db.courses[i].id) + dCount
    requires TotalOf(db'.lessons, db.courses[i].id) == TotalOf(db.lessons, db.courses[i].id) + dTotal
    requires db'.courses[i].lessonsCount == db.courses[i].lessonsCount + dCount
    requires db'.courses[i].totalDuration == db.courses[i].totalDuration + dTotal
    requires UniqueLessonIds(db'.lessons)
    requires LessonsSound(db.courses, db'.lessons)
    ensures InStep(db')
  {
    SameIdsKeepUnique(db'.courses, db.courses);
    SoundAfterEdit(db.courses, db'.courses, db'.lessons);
    CountersAfterEdit(db.courses, db'.courses, db.lessons, db'.lessons, i, dCount, dTotal);
  }

  /** The counts and totals of every course after appending a lesson. */
  lemma AppendCountsAll(courses: seq<CS.Course>, lessons: seq<CS.Lesson>, lesson: CS.Lesson, i: nat)
    requires i < |courses| && courses[i].id == lesson.courseId && UniqueCourseIds(courses)
    ensures forall j :: 0 <= j < |courses| ==>
              && CountOf(lessons + [lesson], courses[j].id) == CountOf(lessons, courses[j].id) + (if j == i then 1 else 0)
              && TotalOf(lessons + [lesson], courses[j].id) == TotalOf(lessons, courses[j].id)
                                                              + (if j == i then lesson.duration else 0)
  {
    forall j | 0 <= j < |courses|
      ensures CountOf(lessons + [lesson], courses[j].id) == CountOf(lessons, courses[j].id) + (if j == i then 1 else 0)
      ensures TotalOf(lessons + [lesson], courses[j].id) == TotalOf(lessons, courses[j].id)
                                                           + (if j == i then lesson.duration else 0)
    {
      AppendCounts(lessons, lesson, courses[j].id);
    }
  }

  /** The counts and totals of every course after replacing lesson `l` by `l'`
      of the same course. */
  lemma ReplaceCountsAll(courses: seq<CS.Course>, a: seq<CS.Lesson>, l: CS.Lesson, l': CS.Lesson,
                         b: seq<CS.Lesson>, i: nat)
    requires i < |courses| && courses[i].id == l.courseId == l'.courseId && UniqueCourseIds(courses)
    ensures forall j :: 0 <= j < |courses| ==>
              && CountOf(a + [l'] + b, courses[j].id) == CountOf(a + [l] + b, courses[j].id)
              && TotalOf(a + [l'] + b, courses[j].id) == TotalOf(a + [l] + b, courses[j].id)
                                                         + (if j == i then l'.duration - l.duration else 0)
  {
    forall j | 0 <= j < |courses|
      ensures CountOf(a + [l'] + b, courses[j].id) == CountOf(a + [l] + b, courses[j].id)
      ensures TotalOf(a + [l'] + b, courses[j].id) == TotalOf(a + [l] + b, courses[j].id)
                                                      + (if j == i then l'.duration - l.duration else 0)
    {
      SplitCounts(a, l, b, courses[j].id);
      SplitCounts(a, l', b, courses[j].id);
    }
  }

  /** The counts and totals of every course after removing lesson `l`. */
  lemma RemoveCountsAll(courses: seq<CS.Course>, a: seq<CS.Lesson>, l: CS.Lesson, b: seq<CS.Lesson>, i: nat)
    requires i < |courses| && courses[i].id == l.courseId && UniqueCourseIds(courses)
    ensures forall j :: 0 <= j < |courses| ==>
              && CountOf(a + b, courses[j].id) == CountOf(a + [l] + b, courses[j].id) - (if j == i then 1 else 0)
              && TotalOf(a + b, courses[j].id) == TotalOf(a + [l] + b, courses[j].id)
                                                  - (if j == i then l.duration else 0)
  {
    forall j | 0 <= j < |courses|
      ensures CountOf(a + b, courses[j].id) == CountOf(a + [l] + b, courses[j].id) - (if j == i then 1 else 0)
      ensures TotalOf(a + b, courses[j].id) == TotalOf(a + [l] + b, courses[j].id)
                                               - (if j == i then l.duration else 0)
    {
      SplitCounts(a, l, b, courses[j].id);
    }
  }

  lemma AppendSound(courses: seq<CS.Course>, lessons: seq<CS.Lesson>, lesson: CS.Lesson)
    requires LessonsSound(courses, lessons)
    requires lesson.duration >= 0 && CS.IndexOfCourse(courses, lesson.courseId).Some?
    ensures LessonsSound(courses, lessons + [lesson])
  {
    var r := lessons + [lesson];
    forall k | 0 <= k < |r|
      ensures r[k].duration >= 0 && CS.IndexOfCourse(courses, r[k].courseId).Some?
    {
      if k < |lessons| {
        assert r[k] == lessons[k];
      }
    }
  }

  lemma ReplaceSound(courses: seq<CS.Course>, lessons: seq<CS.Lesson>, k: nat, l': CS.Lesson)
    requires LessonsSound(courses, lessons) && k < |lessons|
    requires l'.duration >= 0 && l'.courseId == lessons[k].courseId
    ensures LessonsSound(courses, lessons[k := l'])
  {
    var r := lessons[k := l'];
    forall m | 0 <= m < |r|
      ensures r[m].duration >= 0 && CS.IndexOfCourse(courses, r[m].courseId).Some?
    {
      if m != k {
        assert r[m] == lessons[m];
      }
    }
  }

  lemma RemoveSound(courses: seq<CS.Course>, lessons: seq<CS.Lesson>, k: nat)
    requires LessonsSound(courses, lessons) && k < |lessons|
    ensures LessonsSound(courses, RemoveAt(lessons, k))
  {
    var r := RemoveAt(lessons, k);
    forall m | 0 <= m < |r|
      ensures r[m].duration >= 0 && CS.IndexOfCourse(courses, r[m].courseId).Some?
    {
      assert r[m] == lessons[if m < k then m else m + 1];
    }
  }

  /** Storing a lesson of a stored course, with that course's counters raised
      by one and by the lesson's duration, keeps the invariant. */
  lemma AppendStep(db: Db, db': Db, lesson: CS.Lesson, i: nat)
    requires InStep(db)
    requires lesson.duration >= 0 && IndexOfLessonDoc(db.lessons, lesson.id).None?
    requires CS.IndexOfCourse(db.courses, lesson.courseId) == Some(i)
    requires db'.lessons == db.lessons + [lesson]
    requires SameIds(db'.courses, db.courses)
    requires forall j :: 0 <= j < |db.courses| && j != i ==> db'.courses[j] == db.courses[j]
    requires db'.courses[i].lessonsCount == db.courses[i].lessonsCount + 1
    requires db'.courses[i].totalDuration == db.courses[i].totalDuration + lesson.duration
    ensures InStep(db')
  {
    AppendCountsAll(db.courses, db.lessons, lesson, i);
    AppendKeepsUniqueLessons(db.lessons, lesson);
    AppendSound(db.courses, db.lessons, lesson);
    InStepAfterEdit(db, db', i, 1, lesson.duration);
  }

  /** Overwriting a lesson with one of the same id and course, with the course's
      total moved by the change in duration, keeps the invariant. */
  lemma ReplaceStep(db: Db, db': Db, k: nat, l': CS.Lesson, i: nat)
    requires InStep(db)
    requires k < |db.lessons| && l'.id == db.lessons[k].id && l'.courseId == db.lessons[k].courseId
    requires l'.duration >= 0
    requires CS.IndexOfCourse(db.courses, l'.courseId) == Some(i)
    requires db'.lessons == db.lessons[k := l']
    requires SameIds(db'.courses, db.courses)
    requires forall j :: 0 <= j < |db.courses| && j != i ==> db'.courses[j] == db.courses[j]
    requires db'.courses[i].lessonsCount == db.courses[i].lessonsCount
    requires db'.courses[i].totalDuration == db.courses[i].totalDuration + l'.duration - db.lessons[k].duration
    ensures InStep(db')
  {
    var l := db.lessons[k];
    var a, b := db.lessons[..k], db.lessons[k + 1..];
    SplitAround(db.lessons, k);
    SplitAround(db'.lessons, k);
    ReplaceCountsAll(db.courses, a, l, l', b, i);
    ReplaceKeepsUniqueLessons(db.lessons, k, l');
    ReplaceSound(db.courses, db.lessons, k, l');
    InStepAfterEdit(db, db', i, 0, l'.duration - l.duration);
  }

  /** Removing a lesson, with its course's counters lowered by one and by the
      lesson's duration, keeps the invariant. */
  lemma RemoveStep(db: Db, db': Db, k: nat, i: nat)
    requires InStep(db)
    requires k < |db.lessons|
    requires CS.IndexOfCourse(db.courses, db.lessons[k].courseId) == Some(i)
    requires db'.lessons == RemoveAt(db.lessons, k)
    requires SameIds(db'.courses, db.courses)
    requires forall j :: 0 <= j < |db.courses| && j != i ==> db'.courses[j] == db.courses[j]
    requires db'.courses[i].lessonsCount == db.courses[i].lessonsCount - 1
    requires db'.courses[i].totalDuration == db.courses[i].totalDuration - db.lessons[k].duration
    ensures InStep(db')
  {
    var l := db.lessons[k];
    var a, b := db.lessons[..k], db.lessons[k + 1..];
    SplitAround(db.lessons, k);
    RemoveCountsAll(db.courses, a, l, b, i);
    RemoveKeepsUniqueLessons(db.lessons, k);
    RemoveSound(db.courses, db.lessons, k);
    InStepAfterEdit(db, db', i, -1, -l.duration);
  }

  /** The floors at zero in `deleteLesson` never engage while the invariant
      holds: a stored lesson's course has at least that lesson's count and
      duration. */
  lemma FloorsIdle(db: Db, k: nat, i: nat)
    requires InStep(db)
    requires k < |db.lessons|
    requires CS.IndexOfCourse(db.courses, db.lessons[k].courseId) == Some(i)
    ensures db.courses[i].lessonsCount >= 1
    ensures db.courses[i].totalDuration >= db.lessons[k].duration
  {
    var l := db.lessons[k];
    var a, b := db.lessons[..k], db.lessons[k + 1..];
    SplitAround(db.lessons, k);
    assert CountersMatch(db.courses[i], db.lessons);
    SplitCounts(a, l, b, l.courseId);
    forall m | 0 <= m < |a + b|
      ensures (a + b)[m].duration >= 0
    {
      assert (a + b)[m] == db.lessons[if m < k then m else m + 1];
    }
    TotalNonNegative(a + b, l.courseId);
  }

  /** What `createLesson` leaves behind for a stored course, in plain terms. */
  lemma CreateLessonFacts(db: Db, draft: LessonDraft, newId: string, now: string, o: Outcome<CS.Lesson>, i: nat)
    requires IndexOfLessonDoc(db.lessons, newId).None?
    requires CS.IndexOfCourse(db.courses, draft.courseId) == Some(i)
    requires o == CreateLesson(db, draft, newId, now)
    ensures o.result.Ok?
    ensures o.db.lessons == db.lessons + [CS.Lesson(newId, draft.title, draft.description, draft.courseId,
                                                    draft.order, draft.videoUrl, draft.duration)]
    ensures SameIds(o.db.courses, db.courses)
    ensures forall j :: 0 <= j < |db.courses| && j != i ==> o.db.courses[j] == db.courses[j]
    ensures o.db.courses[i].lessonsCount == db.courses[i].lessonsCount + 1
    ensures o.db.courses[i].totalDuration == db.courses[i].totalDuration + draft.duration
  {
  }

  /** Creating a lesson for a stored course keeps every course's counters in step. */
  lemma CreateLessonKeepsInStep(db: Db, draft: LessonDraft, newId: string, now: string)
    requires InStep(db)
    requires draft.duration >= 0
    requires IndexOfLessonDoc(db.lessons, newId).None?
    requires CS.IndexOfCourse(db.courses, draft.courseId).Some?
    ensures CreateLesson(db, draft, newId, now).result.Ok?
    ensures InStep(CreateLesson(db, draft, newId, now).db)
  {
    var o := CreateLesson(db, draft, newId, now);
    var i := CS.IndexOfCourse(db.courses, draft.courseId).value;
    CreateLessonFacts(db, draft, newId, now, o, i);
    AppendStep(db, o.db, o.db.lessons[|db.lessons|], i);
  }

  /** A lesson created for a missing course is stored anyway: the call throws
      and the lesson is left without a course. */
  lemma CreateLessonOrphan(db: Db, draft: LessonDraft, newId: string, now: string)
    requires IndexOfLessonDoc(db.lessons, newId).None?
    requires CS.IndexOfCourse(db.courses, draft.courseId).None?
    ensures var o := CreateLesson(db, draft, newId, now);
            o.result.Err? && |o.db.lessons| == |db.lessons| + 1
            && o.db.lessons[|db.lessons|].courseId == draft.courseId
            && CS.IndexOfCourse(o.db.courses, draft.courseId).None?
  {
  }

  /** What `updateLesson` leaves behind when the lesson stays in its course. */
  lemma UpdateLessonFacts(db: Db, lessonId: string, patch: LessonPatch, now: string,
                          o: Outcome<CS.Lesson>, k: nat, i: nat)
    requires patch.courseId.None?
    requires patch.duration.Some? ==> patch.duration.value.Some?
    requires IndexOfLessonDoc(db.lessons, lessonId) == Some(k)
    requires CS.IndexOfCourse(db.courses, db.lessons[k].courseId) == Some(i)
    requires o == UpdateLesson(db, lessonId, patch, now)
    ensures o.result.Ok?
    ensures o.db.lessons == db.lessons[k := ApplyPatch(db.lessons[k], patch)]
    ensures ApplyPatch(db.lessons[k], patch).courseId == db.lessons[k].courseId
    ensures ApplyPatch(db.lessons[k], patch).id == db.lessons[k].id
    ensures SameIds(o.db.courses, db.courses)
    ensures forall j :: 0 <= j < |db.courses| && j != i ==> o.db.courses[j] == db.courses[j]
    ensures o.db.courses[i].lessonsCount == db.courses[i].lessonsCount
    ensures o.db.courses[i].totalDuration
            == db.courses[i].totalDuration + ApplyPatch(db.lessons[k], patch).duration - db.lessons[k].duration
  {
  }

  /** Updating a lesson without moving it keeps every course's counters in step. */
  lemma UpdateLessonKeepsInStep(db: Db, lessonId: string, patch: LessonPatch, now: string)
    requires InStep(db)
    requires patch.courseId.None?
    requires patch.duration.Some? ==> patch.duration.value.Some? && patch.duration.value.value >= 0
    requires IndexOfLessonDoc(db.lessons, lessonId).Some?
    ensures UpdateLesson(db, lessonId, patch, now).result.Ok?
    ensures InStep(UpdateLesson(db, lessonId, patch, now).db)
  {
    var o := UpdateLesson(db, lessonId, patch, now);
    var k := IndexOfLessonDoc(db.lessons, lessonId).value;
    var i := CS.IndexOfCourse(db.courses, db.lessons[k].courseId).value;
    UpdateLessonFacts(db, lessonId, patch, now, o, k, i);
    ReplaceStep(db, o.db, k, ApplyPatch(db.lessons[k], patch), i);
  }

  /** A patch whose `duration` key holds `undefined` breaks the invariant for a
      lesson with a positive duration: the stored lesson keeps its duration
      while its course's total drops by it. */
  lemma UndefinedDurationBreaksInStep(db: Db, lessonId: string, now: string)
    requires InStep(db)
    requires IndexOfLessonDoc(db.lessons, lessonId).Some?
    requires db.lessons[IndexOfLessonDoc(db.lessons, lessonId).value].duration > 0
    ensures var o := UpdateLesson(db, lessonId, LessonPatch(None, None, None, None, None, Some(None)), now);
            && o.result.Ok?
            && o.db.lessons == db.lessons
            && !InStep(o.db)
  {
    var patch := LessonPatch(None, None, None, None, None, Some(None));
    var o := UpdateLesson(db, lessonId, patch, now);
    var k := IndexOfLessonDoc(db.lessons, lessonId).value;
    var l := db.lessons[k];
    var i := CS.IndexOfCourse(db.courses, l.courseId).value;
    assert ApplyPatch(l, patch) == l;
    assert db.lessons[k := l] == db.lessons;
    assert o.db.courses[i].totalDuration == db.courses[i].totalDuration - l.duration;
    assert CountersMatch(db.courses[i], db.lessons);
    assert !CountersMatch(o.db.courses[i], o.db.lessons);
  }

  /** What `deleteLesson` leaves behind when the lesson's course is stored. */
  lemma DeleteLessonFacts(db: Db, lessonId: string, now: string, o: Outcome<()>, k: nat, i: nat)
    requires IndexOfLessonDoc(db.lessons, lessonId) == Some(k)
    requires CS.IndexOfCourse(db.courses, db.lessons[k].courseId) == Some(i)
    requires o == DeleteLesson(db, lessonId, now)
    ensures o.result.Ok?
    ensures o.db.lessons == RemoveAt(db.lessons, k)
    ensures SameIds(o.db.courses, db.courses)
    ensures forall j :: 0 <= j < |db.courses| && j != i ==> o.db.courses[j] == db.courses[j]
    ensures o.db.courses[i].lessonsCount == Max0(db.courses[i].lessonsCount - 1)
    ensures o.db.courses[i].totalDuration == Max0(db.courses[i].totalDuration - db.lessons[k].duration)
  {
  }

  /** Deleting a lesson keeps every course's counters in step, and the floors at
      zero never engage: the count drops by exactly one and the total by exactly
      the lesson's duration. */
  lemma DeleteLessonKeepsInStep(db: Db, lessonId: string, now: string)
    requires InStep(db)
    requires IndexOfLessonDoc(db.lessons, lessonId).Some?
    ensures var o := DeleteLesson(db, lessonId, now);
            var l := db.lessons[IndexOfLessonDoc(db.lessons, lessonId).value];
            var i := CS.IndexOfCourse(db.courses, l.courseId).value;
            && o.result.Ok?
            && InStep(o.db)
            && o.db.courses[i].lessonsCount == db.courses[i].lessonsCount - 1
            && o.db.courses[i].totalDuration == db.courses[i].totalDuration - l.duration
  {
    var o := DeleteLesson(db, lessonId, now);
    var k := IndexOfLessonDoc(db.lessons, lessonId).value;
    var i := CS.IndexOfCourse(db.courses, db.lessons[k].courseId).value;
    DeleteLessonFacts(db, lessonId, now, o, k, i);
    FloorsIdle(db, k, i);
    RemoveStep(db, o.db, k, i);
  }

  /** Creating a course under a fresh id keeps the invariant: no lesson names the
      new course yet, so its zero counters are already in step. */
  lemma CreateCourseKeepsInStep(db: Db, draft: CourseDraft, newId: string, now: string)
    requires InStep(db) && CS.IndexOfCourse(db.courses, newId).None?
    ensures CreateCourse(db, draft, newId, now).result.Ok?
    ensures InStep(CreateCourse(db, draft, newId, now).db)
  {
    var o := CreateCourse(db, draft, newId, now);
    AppendCourseStep(db, o.result.value);
  }

  /** Appending a course with a fresh id and zero counters keeps the invariant. */
  lemma AppendCourseStep(db: Db, c: CS.Course)
    requires InStep(db) && CS.IndexOfCourse(db.courses, c.id).None?
    requires c.lessonsCount == 0 && c.totalDuration == 0
    ensures InStep(db.(courses := db.courses + [c]))
  {
    var cs := db.courses + [c];
    AppendCourseUnique(db.courses, c);
    AppendCourseSound(db.courses, db.lessons, c);
    NoLessonsOfFreshCourse(db, c.id);
    forall j | 0 <= j < |cs|
      ensures CountersMatch(cs[j], db.lessons)
    {
      if j < |db.courses| {
        assert cs[j] == db.courses[j];
        assert CountersMatch(db.courses[j], db.lessons);
      }
    }
  }

  lemma AppendCourseUnique(courses: seq<CS.Course>, c: CS.Course)
    requires UniqueCourseIds(courses) && CS.IndexOfCourse(courses, c.id).None?
    ensures UniqueCourseIds(courses + [c])
  {
    var cs := courses + [c];
    forall i, j | 0 <= i < j < |cs|
      ensures cs[i].id != cs[j].id
    {
      assert cs[i] == courses[i];
    }
  }

  lemma AppendCourseSound(courses: seq<CS.Course>, lessons: seq<CS.Lesson>, c: CS.Course)
    requires LessonsSound(courses, lessons)
    ensures LessonsSound(courses + [c], lessons)
  {
    var cs := courses + [c];
    forall k | 0 <= k < |lessons|
      ensures CS.IndexOfCourse(cs, lessons[k].courseId).Some?
    {
      var j := CS.IndexOfCourse(courses, lessons[k].courseId).value;
      assert cs[j] == courses[j];
    }
  }

  /** A course id that is not stored has no lessons while every lesson names a
      stored course. */
  lemma NoLessonsOfFreshCourse(db: Db, id: string)
    requires LessonsSound(db.courses, db.lessons) && CS.IndexOfCourse(db.courses, id).None?
    ensures CountOf(db.lessons, id) == 0 && TotalOf(db.lessons, id) == 0
  {
  }
}

=== FILE: course_deletion.dfy ===
/** `deleteCourse` (src/lib/services/course.service.ts): every lesson of the
    course is deleted, one `deleteLesson` at a time, before the course document
    itself. While the counters are in step none of those deletions throws, so
    the course leaves with all of its lessons and nothing else. */
module CourseDeletion {
  import opened Wrappers
  import Seqs
  import CS = CourseSlice
  import opened Backend
  import opened CourseService
  import opened CourseCounters

  predicate DistinctIds(ids: seq<string>)
  {
    forall m, n :: 0 <= m < n < |ids| ==> ids[m] != ids[n]
  }

  /** Deleting one stored lesson under the invariant, in plain terms. */
  lemma DeleteOne(db: Db, id: string, now: string) returns (k: nat)
    requires InStep(db) && IndexOfLessonDoc(db.lessons, id).Some?
    ensures k < |db.lessons| && db.lessons[k].id == id
    ensures var o := DeleteLesson(db, id, now);
            && o.result.Ok? && InStep(o.db)
            && o.db.lessons == RemoveAt(db.lessons, k)
            && SameIds(o.db.courses, db.courses)
            && o.db.enrollments == db.enrollments && o.db.progress == db.progress
  {
    k := IndexOfLessonDoc(db.lessons, id).value;
    var o := DeleteLesson(db, id, now);
    var i := CS.IndexOfCourse(db.courses, db.lessons[k].courseId).value;
    DeleteLessonFacts(db, id, now, o, k, i);
    DeleteLessonKeepsInStep(db, id, now);
  }

  /** With distinct ids, removing the lesson at `k` removes exactly the lessons
      carrying its id. */
  lemma RemoveMembership(lessons: seq<CS.Lesson>, k: nat)
    requires UniqueLessonIds(lessons) && k < |lessons|
    ensures forall l :: l in RemoveAt(lessons, k) <==> l in lessons && l.id != lessons[k].id
  {
    var r := RemoveAt(lessons, k);
    forall l
      ensures l in r <==> l in lessons && l.id != lessons[k].id
    {
      if l in r {
        var p :| 0 <= p < |r| && r[p] == l;
        var q := if p < k then p else p + 1;
        assert r[p] == lessons[q] && q != k;
      }
      if l in lessons && l.id != lessons[k].id {
        var q :| 0 <= q < |lessons| && lessons[q] == l;
        assert q != k;
        var p := if q < k then q else q - 1;
        assert r[p] == l;
      }
    }
  }

  /** A lesson with another id survives the removal and can still be found. */
  lemma StillPresent(lessons: seq<CS.Lesson>, k: nat, id: string)
    requires k < |lessons| && IndexOfLessonDoc(lessons, id).Some? && id != lessons[k].id
    ensures IndexOfLessonDoc(RemoveAt(lessons, k), id).Some?
  {
    var q := IndexOfLessonDoc(lessons, id).value;
    var p := if q < k then q else q - 1;
    assert RemoveAt(lessons, k)[p].id == id;
  }

  /** Deleting distinct stored lessons one by one succeeds, keeps the invariant
      and removes exactly the lessons with those ids. */
  lemma {:induction false} DeleteLessonsKeepsInStep(db: Db, ids: seq<string>, now: string)
    requires InStep(db) && DistinctIds(ids)
    requires forall m :: 0 <= m < |ids| ==> IndexOfLessonDoc(db.lessons, ids[m]).Some?
    ensures var o := DeleteLessons(db, ids, now);
            && o.result.Ok? && InStep(o.db)
            && SameIds(o.db.courses, db.courses)
            && o.db.enrollments == db.enrollments && o.db.progress == db.progress
            && forall l :: l in o.db.lessons <==> l in db.lessons && l.id !in ids
    decreases |ids|
  {
    if |ids| > 0 {
      var k := DeleteOne(db, ids[0], now);
      var o1 := DeleteLesson(db, ids[0], now);
      RemoveMembership(db.lessons, k);
      var rest := ids[1..];
      RestStillPresent(db.lessons, k, ids);
      assert DeleteLessons(db, ids, now) == DeleteLessons(o1.db, rest, now);
      DeleteLessonsKeepsInStep(o1.db, rest, now);
      var o := DeleteLessons(o1.db, rest, now);
      SameIdsTrans(o.db.courses, o1.db.courses, db.courses);
      MembershipTrans(db.lessons, o1.db.lessons, o.db.lessons, ids);
    }
  }

  /** After removing the lesson with the first id, the lessons with the other ids are still stored. */
  lemma RestStillPresent(lessons: seq<CS.Lesson>, k: nat, ids: seq<string>)
    requires |ids| > 0 && DistinctIds(ids) && k < |lessons| && lessons[k].id == ids[0]
    requires forall m :: 0 <= m < |ids| ==> IndexOfLessonDoc(lessons, ids[m]).Some?
    ensures DistinctIds(ids[1..])
    ensures forall m :: 0 <= m < |ids[1..]| ==> IndexOfLessonDoc(RemoveAt(lessons, k), ids[1..][m]).Some?
  {
    var rest := ids[1..];
    forall m | 0 <= m < |rest|
      ensures IndexOfLessonDoc(RemoveAt(lessons, k), rest[m]).Some?
    {
      assert rest[m] == ids[m + 1] && ids[0] != ids[m + 1];
      StillPresent(lessons, k, rest[m]);
    }
  }

  lemma SameIdsTrans(a: seq<CS.Course>, b: seq<CS.Course>, c: seq<CS.Course>)
    requires SameIds(a, b) && SameIds(b, c)
    ensures SameIds(a, c)
  {
  }

  /** Removing the first id and then the rest removes all of them. */
  lemma MembershipTrans(s0: seq<CS.Lesson>, s1: seq<CS.Lesson>, s2: seq<CS.Lesson>, ids: seq<string>)
    requires |ids| > 0
    requires forall l :: l in s1 <==> l in s0 && l.id != ids[0]
    requires forall l :: l in s2 <==> l in s1 && l.id !in ids[1..]
    ensures forall l :: l in s2 <==> l in s0 && l.id !in ids
  {
    assert ids == [ids[0]] + ids[1..];
  }

  /** Filtering keeps lesson ids distinct. */
  lemma {:induction false} FilterKeepsUnique(s: seq<CS.Lesson>, p: CS.Lesson -> bool)
    requires UniqueLessonIds(s)
    ensures UniqueLessonIds(Seqs.Filter(s, p))
  {
    if |s| > 0 {
      assert UniqueLessonIds(s[1..]);
      FilterKeepsUnique(s[1..], p);
      var tail := Seqs.Filter(s[1..], p);
      var r := Seqs.Filter(s, p);
      if p(s[0]) {
        assert r == [s[0]] + tail;
        forall m | 0 < m < |r|
          ensures r[m].id != s[0].id
        {
          assert r[m] == tail[m - 1] && tail[m - 1] in s[1..];
        }
      }
    }
  }

  /** The ids `deleteCourse` deletes are distinct, stored, and are exactly the
      ids of the course's lessons. */
  lemma CourseLessonIds(db: Db, cid: string)
    requires UniqueLessonIds(db.lessons)
    ensures var ids := LessonIds(GetCourseLessons(db, cid));
            && DistinctIds(ids)
            && (forall m :: 0 <= m < |ids| ==> IndexOfLessonDoc(db.lessons, ids[m]).Some?)
            && forall l :: l in db.lessons ==> (l.id in ids <==> l.courseId == cid)
  {
    var r := GetCourseLessons(db, cid);
    FilterKeepsUnique(db.lessons, (l: CS.Lesson) => l.courseId == cid);
    IdsOfUnique(r);
    IdsStored(db.lessons, r);
    forall l | l in db.lessons
      ensures l.id in LessonIds(r) <==> l.courseId == cid
    {
      IdOfCourseLesson(db, cid, l);
    }
  }

  lemma IdsOfUnique(r: seq<CS.Lesson>)
    requires UniqueLessonIds(r)
    ensures DistinctIds(LessonIds(r))
  {
  }

  lemma IdsStored(lessons: seq<CS.Lesson>, r: seq<CS.Lesson>)
    requires forall l :: l in r ==> l in lessons
    ensures forall m :: 0 <= m < |r| ==> IndexOfLessonDoc(lessons, LessonIds(r)[m]).Some?
  {
    forall m | 0 <= m < |r|
      ensures IndexOfLessonDoc(lessons, LessonIds(r)[m]).Some?
    {
      assert r[m] in lessons;
      var q :| 0 <= q < |lessons| && lessons[q] == r[m];
      assert lessons[q].id == LessonIds(r)[m];
    }
  }

  lemma IdOfCourseLesson(db: Db, cid: string, l: CS.Lesson)
    requires UniqueLessonIds(db.lessons) && l in db.lessons
    ensures l.id in LessonIds(GetCourseLessons(db, cid)) <==> l.courseId == cid
  {
    var r := GetCourseLessons(db, cid);
    var ids := LessonIds(r);
    if l.id in ids {
      var m :| 0 <= m < |ids| && ids[m] == l.id;
      assert r[m] in r;
      var q :| 0 <= q < |db.lessons| && db.lessons[q] == r[m];
      var q' :| 0 <= q' < |db.lessons| && db.lessons[q'] == l;
      assert q == q';
    }
    if l.courseId == cid {
      assert l in r;
      var m :| 0 <= m < |r| && r[m] == l;
      assert ids[m] == l.id;
    }
  }

  /** Removing a course that no lesson names keeps the invariant, and the
      course can no longer be found. */
  lemma RemoveCourseStep(db: Db, i: nat)
    requires InStep(db) && i < |db.courses|
    requires forall l :: l in db.lessons ==> l.courseId != db.courses[i].id
    ensures InStep(db.(courses := RemoveAt(db.courses, i)))
    ensures CS.IndexOfCourse(RemoveAt(db.courses, i), db.courses[i].id).None?
  {
    var cs := RemoveAt(db.courses, i);
    RemoveKeepsUniqueCourses(db.courses, i);
    forall k | 0 <= k < |db.lessons|
      ensures CS.IndexOfCourse(cs, db.lessons[k].courseId).Some?
    {
      var j := CS.IndexOfCourse(db.courses, db.lessons[k].courseId).value;
      assert db.lessons[k] in db.lessons;
      var j' := if j < i then j else j - 1;
      assert cs[j'].id == db.lessons[k].courseId;
    }
    forall j | 0 <= j < |cs|
      ensures CountersMatch(cs[j], db.lessons)
    {
      var q := if j < i then j else j + 1;
      assert cs[j] == db.courses[q];
      assert CountersMatch(db.courses[q], db.lessons);
    }
    forall j | 0 <= j < |cs|
      ensures cs[j].id != db.courses[i].id
    {
      var q := if j < i then j else j + 1;
      assert cs[j] == db.courses[q] && q != i;
    }
  }

  /** `deleteCourse` on a stored course, under the invariant: it succeeds, the
      course and all of its lessons are gone, every other lesson stays, and the
      invariant still holds. */
  lemma DeleteCourseClears(db: Db, cid: string, now: string)
    requires InStep(db) && CS.IndexOfCourse(db.courses, cid).Some?
    ensures var o := DeleteCourse(db, cid, now);
            && o.result.Ok?
            && InStep(o.db)
            && |o.db.courses| == |db.courses| - 1
            && CS.IndexOfCourse(o.db.courses, cid).None?
            && (forall l :: l in o.db.lessons <==> l in db.lessons && l.courseId != cid)
            && o.db.enrollments == db.enrollments && o.db.progress == db.progress
  {
    var ids := LessonIds(GetCourseLessons(db, cid));
    CourseLessonIds(db, cid);
    DeleteLessonsKeepsInStep(db, ids, now);
    var o1 := DeleteLessons(db, ids, now);
    SameIdsSameIndex(o1.db.courses, db.courses, cid);
    var i := CS.IndexOfCourse(o1.db.courses, cid).value;
    RemoveCourseStep(o1.db, i);
  }

  /** A missing course with no lessons: nothing is deleted and the call throws
      "document not found". */
  lemma DeleteMissingCourse(db: Db, cid: string, now: string)
    requires CS.IndexOfCourse(db.courses, cid).None?
    requires forall l :: l in db.lessons ==> l.courseId != cid
    ensures DeleteCourse(db, cid, now) == Outcome(db, Err(DocumentNotFound))
  {
    assert |GetCourseLessons(db, cid)| == 0;
  }
}

=== FILE: course_service.dfy ===
/** The course service (src/lib/services/course.service.ts) over the abstract
    store: lookups, course creation, and the lesson operations that keep each
    course's `lessonsCount` and `totalDuration` in step with its lessons. */
module CourseService {
  import opened Wrappers
  import Seqs
  import Appwrite
  import CS = CourseSlice
  import opened Backend

  /** The fields a caller supplies to `createCourse` (a course without id, slug
      and timestamps); its counters are ignored. */
  datatype CourseDraft = CourseDraft(
    title: string,
    description: string,
    price: real,
    thumbnail: string,
    category: string,
    status: string,
    instructorId: string,
    instructorName: string,
    lessonsCount: int,
    totalDuration: int)

  /** The fields a caller supplies to `createLesson` (a lesson without id). */
  datatype LessonDraft = LessonDraft(
    title: string,
    description: string,
    courseId: string,
    order: int,
    videoUrl: string,
    duration: int)

  /** A `Partial<Lesson>`: None means the key is absent. A `duration` key may
      also be present holding `undefined` (`Some(None)`), which the request
      body drops when it is serialised. */
  datatype LessonPatch = LessonPatch(
    title: Option<string>,
    description: Option<string>,
    courseId: Option<string>,
    order: Option<int>,
    videoUrl: Option<string>,
    duration: Option<Option<int>>)

  function GetCourseById(db: Db, id: string): (r: Result<CS.Course>)
    ensures r.Ok? <==> CS.IndexOfCourse(db.courses, id).Some?
    ensures r.Ok? ==> r.value == db.courses[CS.IndexOfCourse(db.courses, id).value] && r.value.id == id
    ensures r.Err? ==> r.failure == DocumentNotFound
  {
    match CS.IndexOfCourse(db.courses, id)
    case None => Err(DocumentNotFound)
    case Some(i) => Ok(db.courses[i])
  }

  /** Position of the first course with this slug. */
  function IndexOfSlug(courses: seq<CS.Course>, slug: string): (r: Option<nat>)
    ensures r.Some? ==> r.value < |courses| && courses[r.value].slug == slug
    ensures r.Some? ==> forall j :: 0 <= j < r.value ==> courses[j].slug != slug
    ensures r.None? <==> forall j :: 0 <= j < |courses| ==> courses[j].slug != slug
  {
    Seqs.FindIndex(courses, (c: CS.Course) => c.slug == slug)
  }

  /** The first course listed with the slug, or the error "Course not found". */
  function GetCourseBySlug(db: Db, slug: string): (r: Result<CS.Course>)
    ensures r.Err? <==> forall j :: 0 <= j < |db.courses| ==> db.courses[j].slug != slug
    ensures r.Err? ==> r.failure == Message("Course not found")
    ensures r.Ok? ==> r.value in db.courses && r.value.slug == slug
    ensures r.Ok? ==> exists k :: 0 <= k < |db.courses| && db.courses[k] == r.value
                                  && forall j :: 0 <= j < k ==> db.courses[j].slug != slug
  {
    match IndexOfSlug(db.courses, slug)
    case None => Err(Message("Course not found"))
    case Some(i) => Ok(db.courses[i])
  }

  function GetLessonById(db: Db, id: string): (r: Result<CS.Lesson>)
    ensures r.Ok? <==> IndexOfLessonDoc(db.lessons, id).Some?
    ensures r.Ok? ==> r.value == db.lessons[IndexOfLessonDoc(db.lessons, id).value] && r.value.id == id
    ensures r.Err? ==> r.failure == DocumentNotFound
  {
    match IndexOfLessonDoc(db.lessons, id)
    case None => Err(DocumentNotFound)
    case Some(i) => Ok(db.lessons[i])
  }

  /** The lessons of a course, in store order. */
  function LessonsOf(lessons: seq<CS.Lesson>, courseId: string): (r: seq<CS.Lesson>)
    ensures forall l :: l in r ==> l in lessons && l.courseId == courseId
  {
    Seqs.Filter(lessons, (l: CS.Lesson) => l.courseId == courseId)
  }

  /** `getCourseLessons`: every lesson of the course. */
  function GetCourseLessons(db: Db, courseId: string): (r: seq<CS.Lesson>)
    ensures forall l :: l in r ==> l in db.lessons && l.courseId == courseId
    ensures forall l :: l in db.lessons && l.courseId == courseId ==> l in r
  {
    LessonsOf(db.lessons, courseId)
  }

  function Duration(l: CS.Lesson): int
  {
    l.duration
  }

  /** How many lessons a course has, and their summed duration. */
  function CountOf(lessons: seq<CS.Lesson>, courseId: string): nat
  {
    |LessonsOf(lessons, courseId)|
  }

  function TotalOf(lessons: seq<CS.Lesson>, courseId: string): int
  {
    Seqs.Sum(LessonsOf(lessons, courseId), Duration)
  }

  /** `createCourse`: a new course with a slug derived from its title, zero
      counters and equal creation and update stamps. */
  function CreateCourse(db: Db, draft: CourseDraft, newId: string, now: string): (o: Outcome<CS.Course>)
    ensures CS.IndexOfCourse(db.courses, newId).Some? ==> o == Outcome(db, Err(DocumentAlreadyExists))
    ensures CS.IndexOfCourse(db.courses, newId).None? ==>
              && o.result.Ok?
              && o.db == db.(courses := db.courses + [o.result.value])
              && var c := o.result.value;
              && c.id == newId && c.title == draft.title
              && c.slug == Appwrite.CreateSlug(draft.title)
              && c.description == draft.description && c.price == draft.price
              && c.thumbnail == draft.thumbnail && c.category == draft.category && c.status == draft.status
              && c.instructorId == draft.instructorId && c.instructorName == draft.instructorName
              && c.lessonsCount == 0 && c.totalDuration == 0
              && c.createdAt == now && c.updatedAt == now
  {
    if CS.IndexOfCourse(db.courses, newId).Some? then Outcome(db, Err(DocumentAlreadyExists))
    else
      var c := CS.Course(newId, draft.title, Appwrite.CreateSlug(draft.title), draft.description,
                         draft.price, draft.thumbnail, draft.category, draft.status,
                         draft.instructorId, draft.instructorName, 0, 0, now, now);
      Outcome(db.(courses := db.courses + [c]), Ok(c))
  }

  /** `updateCourse` as the lesson operations use it: overwrite the counters
      given, stamp `updatedAt`; a missing course throws. */
  function PatchCounters(db: Db, courseId: string, lessonsCount: Option<int>, totalDuration: Option<int>,
                         now: string): (o: Outcome<CS.Course>)
    ensures CS.IndexOfCourse(db.courses, courseId).None? ==> o == Outcome(db, Err(DocumentNotFound))
    ensures CS.IndexOfCourse(db.courses, courseId).Some? ==>
              var i := CS.IndexOfCourse(db.courses, courseId).value;
              && o.result.Ok?
              && o.db == db.(courses := db.courses[i := o.result.value])
              && o.result.value.id == courseId
              && o.result.value.lessonsCount == (if lessonsCount.Some? then lessonsCount.value else db.courses[i].lessonsCount)
              && o.result.value.totalDuration == (if totalDuration.Some? then totalDuration.value else db.courses[i].totalDuration)
              && o.result.value.updatedAt == now
              && o.result.value.(lessonsCount := db.courses[i].lessonsCount,
                                 totalDuration := db.courses[i].totalDuration,
                                 updatedAt := db.courses[i].updatedAt) == db.courses[i]
  {
    match CS.IndexOfCourse(db.courses, courseId)
    case None => Outcome(db, Err(DocumentNotFound))
    case Some(i) =>
      var c := db.courses[i];
      var c' := c.(lessonsCount := if lessonsCount.Some? then lessonsCount.value else c.lessonsCount,
                   totalDuration := if totalDuration.Some? then totalDuration.value else c.totalDuration,
                   updatedAt := now);
      Outcome(db.(courses := db.courses[i := c']), Ok(c'))
  }

  /** `createLesson`: store the lesson, then raise its course's count by one and
      its total duration by the lesson's. The lesson stays stored even when its
      course is missing and the call throws. */
  function CreateLesson(db: Db, draft: LessonDraft, newId: string, now: string): (o: Outcome<CS.Lesson>)
    ensures IndexOfLessonDoc(db.lessons, newId).Some? ==> o == Outcome(db, Err(DocumentAlreadyExists))
    ensures IndexOfLessonDoc(db.lessons, newId).None? ==>
              var lesson := CS.Lesson(newId, draft.title, draft.description, draft.courseId, draft.order,
                                      draft.videoUrl, draft.duration);
              && o.db.lessons == db.lessons + [lesson]
              && o.db.enrollments == db.enrollments && o.db.progress == db.progress
              && (CS.IndexOfCourse(db.courses, draft.courseId).None? ==>
                    o.result == Err(DocumentNotFound) && o.db.courses == db.courses)
              && (CS.IndexOfCourse(db.courses, draft.courseId).Some? ==>
                    var i := CS.IndexOfCourse(db.courses, draft.courseId).value;
                    && o.result == Ok(lesson)
                    && |o.db.courses| == |db.courses|
                    && o.db.courses[i].lessonsCount == db.courses[i].lessonsCount + 1
                    && o.db.courses[i].totalDuration == db.courses[i].totalDuration + draft.duration
                    && o.db.courses[i].(lessonsCount := db.courses[i].lessonsCount,
                                        totalDuration := db.courses[i].totalDuration,
                                        updatedAt := db.courses[i].updatedAt) == db.courses[i]
                    && forall j :: 0 <= j < |db.courses| && j != i ==> o.db.courses[j] == db.courses[j])
  {
    if IndexOfLessonDoc(db.lessons, newId).Some? then Outcome(db, Err(DocumentAlreadyExists))
    else
      var lesson := CS.Lesson(newId, draft.title, draft.description, draft.courseId, draft.order,
                              draft.videoUrl, draft.duration);
      var db1 := db.(lessons := db.lessons + [lesson]);
      match GetCourseById(db1, draft.courseId)
      case Err(f) => Outcome(db1, Err(f))
      case Ok(course) =>
        var o := PatchCounters(db1, draft.courseId, Some(course.lessonsCount + 1),
                               Some(course.totalDuration + draft.duration), now);
        Outcome(o.db, Ok(lesson))
  }

  /** A lesson with the patch's keys copied over it (`{...lesson, ...patch}`). */
  function ApplyPatch(l: CS.Lesson, p: LessonPatch): CS.Lesson
  {
    l.(title := if p.title.Some? then p.title.value else l.title,
       description := if p.description.Some? then p.description.value else l.description,
       courseId := if p.courseId.Some? then p.courseId.value else l.courseId,
       order := if p.order.Some? then p.order.value else l.order,
       videoUrl := if p.videoUrl.Some? then p.videoUrl.value else l.videoUrl,
       duration := if p.duration.Some? && p.duration.value.Some? then p.duration.value.value else l.duration)
  }

  /** `lessonData.duration || 0`: a present number, or 0 for `undefined`. */
  function DurationOrZero(d: Option<int>): (r: int)
    ensures d.Some? ==> r == d.value
    ensures d.None? ==> r == 0
  {
    if d.Some? then d.value else 0
  }

  /** `updateLesson`: patch the lesson; when the patch has a `duration` key, move
      the course's total by `(duration || 0)` minus the old duration. The count
      is never touched. A key holding `undefined` lowers the total by the old
      duration while the stored lesson keeps it. */
  function UpdateLesson(db: Db, lessonId: string, patch: LessonPatch, now: string): (o: Outcome<CS.Lesson>)
    ensures IndexOfLessonDoc(db.lessons, lessonId).None? ==> o == Outcome(db, Err(DocumentNotFound))
    ensures IndexOfLessonDoc(db.lessons, lessonId).Some? ==>
              var k := IndexOfLessonDoc(db.lessons, lessonId).value;
              var updated := ApplyPatch(db.lessons[k], patch);
              var diff := if patch.duration.Some? then DurationOrZero(patch.duration.value) - db.lessons[k].duration else 0;
              && o.db.lessons == db.lessons[k := updated]
              && o.db.enrollments == db.enrollments && o.db.progress == db.progress
              && (diff == 0 ==> o == Outcome(db.(lessons := db.lessons[k := updated]), Ok(updated)))
              && (diff != 0 && CS.IndexOfCourse(db.courses, updated.courseId).None? ==>
                    o.result == Err(DocumentNotFound) && o.db.courses == db.courses)
              && (diff != 0 && CS.IndexOfCourse(db.courses, updated.courseId).Some? ==>
                    var i := CS.IndexOfCourse(db.courses, updated.courseId).value;
                    && o.result == Ok(updated)
                    && |o.db.courses| == |db.courses|
                    && o.db.courses[i].lessonsCount == db.courses[i].lessonsCount
                    && o.db.courses[i].totalDuration == db.courses[i].totalDuration + diff
                    && o.db.courses[i].updatedAt == now
                    && o.db.courses[i].(lessonsCount := db.courses[i].lessonsCount,
                                        totalDuration := db.courses[i].totalDuration,
                                        updatedAt := db.courses[i].updatedAt) == db.courses[i]
                    && forall j :: 0 <= j < |db.courses| && j != i ==> o.db.courses[j] == db.courses[j])
  {
    // The old lesson is read only when the payload has a `duration` key.
    if patch.duration.Some? then
      match GetLessonById(db, lessonId)
      case Err(f) => Outcome(db, Err(f))
      case Ok(previous) => WriteLesson(db, lessonId, patch, DurationOrZero(patch.duration.value) - previous.duration, now)
    else WriteLesson(db, lessonId, patch, 0, now)
  }

  /** The rest of `updateLesson` once the duration difference is known. */
  function WriteLesson(db: Db, lessonId: string, patch: LessonPatch, diff: int, now: string): Outcome<CS.Lesson>
  {
    match IndexOfLessonDoc(db.lessons, lessonId)
    case None => Outcome(db, Err(DocumentNotFound))
    case Some(k) =>
      var updated := ApplyPatch(db.lessons[k], patch);
      var db1 := db.(lessons := db.lessons[k := updated]);
      if diff == 0 then Outcome(db1, Ok(updated))
      else
        match GetCourseById(db1, updated.courseId)
        case Err(f) => Outcome(db1, Err(f))
        case Ok(course) =>
          var o := PatchCounters(db1, updated.courseId, None, Some(course.totalDuration + diff), now);
          Outcome(o.db, Ok(updated))
  }

  /** `deleteLesson`: remove the lesson, then lower its course's count by one and
      total by its duration, each floored at zero. The lesson is gone even when
      its course is missing and the call throws. */
  function DeleteLesson(db: Db, lessonId: string, now: string): (o: Outcome<()>)
    ensures IndexOfLessonDoc(db.lessons, lessonId).None? ==> o == Outcome(db, Err(DocumentNotFound))
    ensures IndexOfLessonDoc(db.lessons, lessonId).Some? ==>
              var k := IndexOfLessonDoc(db.lessons, lessonId).value;
              var lesson := db.lessons[k];
              && o.db.lessons == RemoveAt(db.lessons, k)
              && o.db.enrollments == db.enrollments && o.db.progress == db.progress
              && (CS.IndexOfCourse(db.courses, lesson.courseId).None? ==>
                    o.result == Err(DocumentNotFound) && o.db.courses == db.courses)
              && (CS.IndexOfCourse(db.courses, lesson.courseId).Some? ==>
                    var i := CS.IndexOfCourse(db.courses, lesson.courseId).value;
                    && o.result.Ok?
                    && |o.db.courses| == |db.courses|
                    && o.db.courses[i].lessonsCount == Max0(db.courses[i].lessonsCount - 1)
                    && o.db.courses[i].totalDuration == Max0(db.courses[i].totalDuration - lesson.duration)
                    && o.db.courses[i].updatedAt == now
                    && o.db.courses[i].(lessonsCount := db.courses[i].lessonsCount,
                                        totalDuration := db.courses[i].totalDuration,
                                        updatedAt := db.courses[i].updatedAt) == db.courses[i]
                    && forall j :: 0 <= j < |db.courses| && j != i ==> o.db.courses[j] == db.courses[j])
  {
    match GetLessonById(db, lessonId)
    case Err(f) => Outcome(db, Err(f))
    case Ok(lesson) =>
      var k := IndexOfLessonDoc(db.lessons, lessonId).value;
      var db1 := db.(lessons := RemoveAt(db.lessons, k));
      match GetCourseById(db1, lesson.courseId)
      case Err(f) => Outcome(db1, Err(f))
      case Ok(course) =>
        var o := PatchCounters(db1, lesson.courseId, Some(Max0(course.lessonsCount - 1)),
                               Some(Max0(course.totalDuration - lesson.duration)), now);
        Outcome(o.db, Ok(()))
  }

  /** `Math.max(0, x)`. */
  function Max0(x: int): (r: int)
    ensures r >= 0 && r >= x && (r == 0 || r == x)
  {
    if x < 0 then 0 else x
  }

  /** Delete the listed lessons one after another, stopping at the first throw.
      Only lessons and course counters change: no course is added or removed. */
  function DeleteLessons(db: Db, ids: seq<string>, now: string): (o: Outcome<()>)
    ensures |o.db.courses| == |db.courses| && |o.db.lessons| <= |db.lessons|
    ensures o.db.enrollments == db.enrollments && o.db.progress == db.progress
    decreases |ids|
  {
    if |ids| == 0 then Outcome(db, Ok(()))
    else
      var o := DeleteLesson(db, ids[0], now);
      if o.result.Err? then o else DeleteLessons(o.db, ids[1..], now)
  }

  function LessonIds(lessons: seq<CS.Lesson>): (ids: seq<string>)
    ensures |ids| == |lessons|
    ensures forall i :: 0 <= i < |lessons| ==> ids[i] == lessons[i].id
  {
    if |lessons| == 0 then [] else [lessons[0].id] + LessonIds(lessons[1..])
  }

  /** `deleteCourse`: delete every lesson of the course, then the course document.
      A successful call removes exactly one course; enrollments and progress
      documents are never touched. */
  function DeleteCourse(db: Db, courseId: string, now: string): (o: Outcome<()>)
    ensures |o.db.courses| == |db.courses| - (if o.result.Ok? then 1 else 0)
    ensures o.db.enrollments == db.enrollments && o.db.progress == db.progress
  {
    var o := DeleteLessons(db, LessonIds(GetCourseLessons(db, courseId)), now);
    if o.result.Err? then o
    else
      match CS.IndexOfCourse(o.db.courses, courseId)
      case None => Outcome(o.db, Err(DocumentNotFound))
      case Some(i) => Outcome(o.db.(courses := RemoveAt(o.db.courses, i)), Ok(()))
  }
}

=== FILE: course_slice.dfy ===
/** The client-side course store (src/lib/store/slices/courseSlice.ts): the course
    and lesson documents and the reducers over the cached course list. */
module CourseSlice {
  import opened Wrappers
  import Seqs

  /** A lesson document; `duration` is in whole seconds. */
  datatype Lesson = Lesson(
    id: string,
    title: string,
    description: string,
    courseId: string,
    order: int,
    videoUrl: string,
    duration: int)

  /** A course document with its two aggregate counters. */
  datatype Course = Course(
    id: string,
    title: string,
    slug: string,
    description: string,
    price: real,
    thumbnail: string,
    category: string,
    status: string,
    instructorId: string,
    instructorName: string,
    lessonsCount: int,
    totalDuration: int,
    createdAt: string,
    updatedAt: string)

  datatype CoursesState = CoursesState(
    courses: seq<Course>,
    featuredCourses: seq<Course>,
    currentCourse: Option<Course>,
    courseLessons: seq<Lesson>,
    currentLesson: Option<Lesson>,
    isLoading: bool,
    error: Option<string>)

  const Initial: CoursesState := CoursesState([], [], None, [], None, false, None)

  /** Position of the first course with this id (`findIndex(c => c.$id === id)`). */
  function IndexOfCourse(courses: seq<Course>, id: string): (r: Option<nat>)
    ensures r.Some? ==> r.value < |courses| && courses[r.value].id == id
    ensures r.Some? ==> forall j :: 0 <= j < r.value ==> courses[j].id != id
    ensures r.None? <==> forall j :: 0 <= j < |courses| ==> courses[j].id != id
  {
    Seqs.FindIndex(courses, (c: Course) => c.id == id)
  }

  /** The courses whose id differs from `id`, in order (`filter(c => c.$id !== id)`). */
  function WithoutCourse(courses: seq<Course>, id: string): (r: seq<Course>)
    ensures forall c :: c in r ==> c in courses && c.id != id
    ensures forall c :: c in courses && c.id != id ==> multiset(r)[c] == multiset(courses)[c]
  {
    Seqs.Filter(courses, (c: Course) => c.id != id)
  }

  /** Filtering a concatenation filters each part: the courses that survive keep
      their relative order. */
  lemma WithoutCourseAppend(a: seq<Course>, b: seq<Course>, id: string)
    ensures WithoutCourse(a + b, id) == WithoutCourse(a, id) + WithoutCourse(b, id)
  {
    Seqs.FilterAppend(a, b, (c: Course) => c.id != id);
  }

  /** A single course survives exactly when its id differs. With the lemma above
      this fixes the filtered list element by element. */
  lemma WithoutCourseSingle(c: Course, id: string)
    ensures WithoutCourse([c], id) == if c.id == id then [] else [c]
  {
    assert [c][1..] == [];
  }

  function SetCoursesLoading(s: CoursesState, loading: bool): (r: CoursesState)
    ensures r.isLoading == loading
    ensures r.(isLoading := s.isLoading) == s
  {
    s.(isLoading := loading)
  }

  /** Storing the course list ends loading and clears the error. */
  function SetCourses(s: CoursesState, courses: seq<Course>): (r: CoursesState)
    ensures r.courses == courses && !r.isLoading && r.error.None?
    ensures r.(courses := s.courses, isLoading := s.isLoading, error := s.error) == s
  {
    s.(courses := courses, isLoading := false, error := None)
  }

  function SetFeaturedCourses(s: CoursesState, featured: seq<Course>): (r: CoursesState)
    ensures r.featuredCourses == featured
    ensures r.(featuredCourses := s.featuredCourses) == s
  {
    s.(featuredCourses := featured)
  }

  function SetCurrentCourse(s: CoursesState, course: Option<Course>): (r: CoursesState)
    ensures r.currentCourse == course
    ensures r.(currentCourse := s.currentCourse) == s
  {
    s.(currentCourse := course)
  }

  function SetCourseLessons(s: CoursesState, lessons: seq<Lesson>): (r: CoursesState)
    ensures r.courseLessons == lessons
    ensures r.(courseLessons := s.courseLessons) == s
  {
    s.(courseLessons := lessons)
  }

  function SetCurrentLesson(s: CoursesState, lesson: Option<Lesson>): (r: CoursesState)
    ensures r.currentLesson == lesson
    ensures r.(currentLesson := s.currentLesson) == s
  {
    s.(currentLesson := lesson)
  }

  /** An error ends loading and leaves the cached data alone. */
  function SetCourseError(s: CoursesState, message: string): (r: CoursesState)
    ensures r.error == Some(message) && !r.isLoading
    ensures r.(error := s.error, isLoading := s.isLoading) == s
  {
    s.(error := Some(message), isLoading := false)
  }

  /** `addCourse` appends exactly the new course at the end. */
  function AddCourse(s: CoursesState, course: Course): (r: CoursesState)
    ensures |r.courses| == |s.courses| + 1
    ensures r.courses[..|s.courses|] == s.courses && r.courses[|s.courses|] == course
    ensures r.(courses := s.courses) == s
  {
    s.(courses := s.courses + [course])
  }

  /** `updateCourse` replaces the first course with the same id (if any) and the
      current course when it has that id; nothing else changes. */
  function UpdateCourse(s: CoursesState, course: Course): (r: CoursesState)
    ensures |r.courses| == |s.courses|
    ensures IndexOfCourse(s.courses, course.id).None? ==> r.courses == s.courses
    ensures IndexOfCourse(s.courses, course.id).Some? ==>
              var i := IndexOfCourse(s.courses, course.id).value;
              r.courses[i] == course && forall j :: 0 <= j < |s.courses| && j != i ==> r.courses[j] == s.courses[j]
    ensures r.currentCourse == if s.currentCourse.Some? && s.currentCourse.value.id == course.id
                               then Some(course) else s.currentCourse
    ensures r.(courses := s.courses, currentCourse := s.currentCourse) == s
  {
    var courses := match IndexOfCourse(s.courses, course.id)
                   case Some(i) => s.courses[i := course]
                   case None => s.courses;
    var current := if s.currentCourse.Some? && s.currentCourse.value.id == course.id
                   then Some(course) else s.currentCourse;
    s.(courses := courses, currentCourse := current)
  }

  /** `deleteCourse` drops every course with the id, keeping the rest in order, and
      clears the current course only when it has that id. */
  function DeleteCourse(s: CoursesState, id: string): (r: CoursesState)
    ensures forall c :: c in r.courses ==> c.id != id
    ensures forall c :: c in s.courses && c.id != id ==> multiset(r.courses)[c] == multiset(s.courses)[c]
    ensures r.currentCourse == if s.currentCourse.Some? && s.currentCourse.value.id == id
                               then None else s.currentCourse
    ensures r.(courses := s.courses, currentCourse := s.currentCourse) == s
  {
    var current := if s.currentCourse.Some? && s.currentCourse.value.id == id then None else s.currentCourse;
    s.(courses := WithoutCourse(s.courses, id), currentCourse := current)
  }

  /** Deleting from a list split in two deletes from each half in place, so the
      remaining courses stay in their cached order. */
  lemma DeleteCourseInOrder(s: CoursesState, id: string, a: seq<Course>, b: seq<Course>)
    requires s.courses == a + b
    ensures DeleteCourse(s, id).courses == WithoutCourse(a, id) + WithoutCourse(b, id)
  {
    WithoutCourseAppend(a, b, id);
  }

  /** After an update, looking the course up by id finds the new version whenever
      a course with that id was cached. */
  lemma UpdateThenLookup(s: CoursesState, course: Course)
    requires IndexOfCourse(s.courses, course.id).Some?
    ensures var r := UpdateCourse(s, course);
            IndexOfCourse(r.courses, course.id).Some?
            && r.courses[IndexOfCourse(r.courses, course.id).value] == course
  {
    var i := IndexOfCourse(s.courses, course.id).value;
    var r := UpdateCourse(s, course);
    assert r.courses[i].id == course.id;
    assert IndexOfCourse(r.courses, course.id) == Some(i);
  }

  /** Adding a course whose id is not cached and then deleting that id restores the list. */
  lemma {:induction false} DeleteAfterAdd(s: CoursesState, course: Course)
    requires IndexOfCourse(s.courses, course.id).None?
    ensures DeleteCourse(AddCourse(s, course), course.id).courses == s.courses
  {
    var keep := (c: Course) => c.id != course.id;
    Seqs.FilterAppend(s.courses, [course], keep);
    Seqs.FilterAll(s.courses, keep);
    assert s.courses + [course] == AddCourse(s, course).courses;
  }

  /** Deleting an id twice is the same as deleting it once. */
  lemma DeleteIdempotent(s: CoursesState, id: string)
    ensures DeleteCourse(DeleteCourse(s, id), id) == DeleteCourse(s, id)
  {
    var once := DeleteCourse(s, id).courses;
    Seqs.FilterAll(once, (c: Course) => c.id != id);
  }
}

=== FILE: navbar.dfy ===
/** The navigation bar's pure helpers (src/components/layout/navbar.tsx): the
    avatar initials, the search-form guard and the theme toggle button. */
module Navbar {
  import opened Wrappers
  import Seqs
  import Text
  import AuthSlice
  import UiSlice

  // ---------------------------------------------------------------------------
  // Split facts used by the initials
  // ---------------------------------------------------------------------------

  /** Splitting at the first separator: the first piece is everything before it
      and the remaining pieces are the split of everything after it. */
  lemma {:induction false} SplitAtFirst(s: string, sep: char, i: nat)
    requires i < |s| && s[i] == sep
    requires forall j :: 0 <= j < i ==> s[j] != sep
    ensures |Text.Split(s, sep)| >= 2
    ensures Text.Split(s, sep)[0] == s[..i]
    ensures Text.Split(s, sep)[1..] == Text.Split(s[i + 1..], sep)
  {
    var rest := Text.Split(s[1..], sep);
    if i > 0 {
      SplitAtFirst(s[1..], sep, i - 1);
      assert s[1..][i..] == s[i + 1..];
      assert s[..i] == [s[0]] + s[1..][..i - 1];
    }
  }

  /** A string not starting with the separator has a first piece starting with its first character. */
  lemma SplitHead(s: string, sep: char)
    requires |s| > 0 && s[0] != sep
    ensures |Text.Split(s, sep)[0]| > 0 && Text.Split(s, sep)[0][0] == s[0]
  {
  }

  /** Every character of every piece comes from the string. */
  lemma {:induction false} SplitPartsFromString(s: string, sep: char, k: nat, c: char)
    requires k < |Text.Split(s, sep)| && c in Text.Split(s, sep)[k]
    ensures c in s
  {
    var parts := Text.Split(s, sep);
    var rest := Text.Split(s[1..], sep);
    if |s| > 0 {
      if s[0] == sep {
        SplitPartsFromString(s[1..], sep, k - 1, c);
      } else if k == 0 {
        if c != s[0] {
          SplitPartsFromString(s[1..], sep, 0, c);
        }
      } else {
        SplitPartsFromString(s[1..], sep, k, c);
      }
    }
  }

  /** Every non-separator character of the string lands in some piece. */
  lemma {:induction false} SplitCoversString(s: string, sep: char, i: nat)
    requires i < |s| && s[i] != sep
    ensures exists k :: 0 <= k < |Text.Split(s, sep)| && s[i] in Text.Split(s, sep)[k]
  {
    var parts := Text.Split(s, sep);
    if i == 0 {
      assert s[0] in parts[0];
    } else {
      var rest := Text.Split(s[1..], sep);
      SplitCoversString(s[1..], sep, i - 1);
      var k :| 0 <= k < |rest| && s[1..][i - 1] in rest[k];
      if s[0] == sep {
        assert parts[k + 1] == rest[k];
      } else if k == 0 {
        assert s[i] in parts[0];
      } else {
        assert parts[k] == rest[k];
      }
    }
  }

  // ---------------------------------------------------------------------------
  // getUserInitials, as written
  // ---------------------------------------------------------------------------

  /** The template-literal text of `part[0]`: the first character, or the text
      "undefined" when the part is empty and the index reads past its end. */
  function FirstCharText(part: string): string
  {
    if |part| == 0 then "undefined" else [part[0]]
  }

  /** `getUserInitials` as the navigation bar computes it: split the name at
      single spaces and upper-case the first character of the first one or two
      pieces. */
  function GetUserInitials(user: Option<AuthSlice.UserProfile>): (r: string)
    ensures user.None? || user.value.name == "" ==> r == ""
    ensures user.Some? && user.value.name != "" ==> |r| >= 1
  {
    if user.None? || user.value.name == "" then ""
    else
      var parts := Text.Split(user.value.name, ' ');
      if |parts| > 1 then Text.Upper(FirstCharText(parts[0]) + FirstCharText(parts[1]))
      else Text.Upper(FirstCharText(parts[0]))
  }

  /** A one-word name gives its upper-cased first character. */
  lemma InitialsOfOneWord(user: Option<AuthSlice.UserProfile>)
    requires user.Some? && user.value.name != "" && ' ' !in user.value.name
    ensures GetUserInitials(user) == [Text.UpperChar(user.value.name[0])]
  {
    Text.SplitNoSeparator(user.value.name, ' ');
  }

  /** A name whose first space at `i` has a word on each side gives the
      upper-cased first character of each of those two words; whatever follows
      the second word is ignored. */
  lemma InitialsOfTwoWords(user: Option<AuthSlice.UserProfile>, i: nat)
    requires user.Some? && 0 < i && i + 1 < |user.value.name|
    requires user.value.name[i] == ' ' && user.value.name[i + 1] != ' '
    requires forall j :: 0 <= j < i ==> user.value.name[j] != ' '
    ensures GetUserInitials(user) == [Text.UpperChar(user.value.name[0]), Text.UpperChar(user.value.name[i + 1])]
  {
    var name := user.value.name;
    SplitAtFirst(name, ' ', i);
    SplitHead(name[i + 1..], ' ');
    var parts := Text.Split(name, ' ');
    assert parts[1] == Text.Split(name[i + 1..], ' ')[0];
    assert FirstCharText(parts[0]) == [name[0]];
    assert FirstCharText(parts[1]) == [name[i + 1]];
  }

  /** With an empty first piece and a second one, the first piece contributes
      the spliced-in text "undefined", upper-cased. */
  lemma InitialsAfterEmptyPiece(user: Option<AuthSlice.UserProfile>)
    requires user.Some? && user.value.name != ""
    requires |Text.Split(user.value.name, ' ')| > 1 && Text.Split(user.value.name, ' ')[0] == ""
    ensures GetUserInitials(user) == "UNDEFINED" + Text.Upper(FirstCharText(Text.Split(user.value.name, ' ')[1]))
  {
    var rest := FirstCharText(Text.Split(user.value.name, ' ')[1]);
    UpperAppend("undefined", rest);
    UpperUndefined();
  }

  /** A name starting with a space has an empty first piece, so the initials
      begin with the spliced-in text "UNDEFINED". */
  lemma LeadingSpaceSplicesUndefined(user: Option<AuthSlice.UserProfile>)
    requires user.Some? && |user.value.name| > 0 && user.value.name[0] == ' '
    ensures |GetUserInitials(user)| > 2
    ensures GetUserInitials(user)[..9] == "UNDEFINED"
  {
    SplitAtFirst(user.value.name, ' ', 0);
    InitialsAfterEmptyPiece(user);
  }

  lemma {:induction false} UpperAppend(a: string, b: string)
    ensures Text.Upper(a + b) == Text.Upper(a) + Text.Upper(b)
  {
    if |a| == 0 {
      assert a + b == b;
    } else {
      assert (a + b)[0] == a[0];
      assert (a + b)[1..] == a[1..] + b;
      UpperAppend(a[1..], b);
    }
  }

  lemma UpperUndefined()
    ensures Text.Upper("undefined") == "UNDEFINED"
  {
  }

  /** The name " Ann" gets the initials "UNDEFINEDA". */
  lemma LeadingSpaceExample(user: Option<AuthSlice.UserProfile>)
    requires user.Some? && user.value.name == " Ann"
    ensures GetUserInitials(user) == "UNDEFINEDA"
  {
    var name := user.value.name;
    SplitAtFirst(name, ' ', 0);
    assert name[1..] == "Ann";
    Text.SplitNoSeparator("Ann", ' ');
    assert Text.Split(name, ' ')[1] == "Ann";
    InitialsAfterEmptyPiece(user);
    assert FirstCharText("Ann") == "A";
  }

  // ---------------------------------------------------------------------------
  // getUserInitials, corrected
  // ---------------------------------------------------------------------------

  /** A piece that holds a word. */
  predicate IsWord(w: string)
  {
    |w| > 0
  }

  /** The non-empty pieces of the name: its words, however many spaces separate them. */
  function Words(name: string): (ws: seq<string>)
    ensures forall k :: 0 <= k < |ws| ==> |ws[k]| > 0 && ' ' !in ws[k]
  {
    var parts := Text.Split(name, ' ');
    var ws := Seqs.Filter(parts, IsWord);
    assert forall k :: 0 <= k < |ws| ==> ws[k] in parts;
    ws
  }

  /** The first characters of the name's first two words, upper-cased; empty
      when there is no word. */
  function GetUserInitialsFixed(user: Option<AuthSlice.UserProfile>): (r: string)
    ensures |r| <= 2
    ensures user.None? ==> r == ""
  {
    if user.None? then ""
    else
      var ws := Words(user.value.name);
      if |ws| == 0 then ""
      else if |ws| > 1 then Text.Upper([ws[0][0], ws[1][0]])
      else Text.Upper([ws[0][0]])
  }

  /** Every word's characters come from the name. */
  lemma WordCharsFromName(name: string, k: nat, c: char)
    requires k < |Words(name)| && c in Words(name)[k]
    ensures c in name && c != ' '
  {
    var parts := Text.Split(name, ' ');
    var w := Words(name)[k];
    assert w in parts;
    var m :| 0 <= m < |parts| && parts[m] == w;
    SplitPartsFromString(name, ' ', m, c);
  }

  /** The corrected initials are upper-cased non-space characters of the name,
      never spliced-in text. */
  lemma FixedInitialsFromName(user: Option<AuthSlice.UserProfile>)
    requires user.Some?
    ensures forall k :: 0 <= k < |GetUserInitialsFixed(user)| ==>
      exists j :: 0 <= j < |user.value.name| && user.value.name[j] != ' '
        && GetUserInitialsFixed(user)[k] == Text.UpperChar(user.value.name[j])
  {
    var name := user.value.name;
    var ws := Words(name);
    var r := GetUserInitialsFixed(user);
    forall k | 0 <= k < |r|
      ensures exists j :: 0 <= j < |name| && name[j] != ' ' && r[k] == Text.UpperChar(name[j])
    {
      assert r[k] == Text.UpperChar(ws[k][0]);
      InitialFromName(name, k);
      var j :| 0 <= j < |name| && name[j] == ws[k][0];
      assert r[k] == Text.UpperChar(name[j]);
    }
  }

  lemma InitialFromName(name: string, m: nat)
    requires m < |Words(name)|
    ensures exists j :: 0 <= j < |name| && name[j] == Words(name)[m][0]
  {
    WordCharsFromName(name, m, Words(name)[m][0]);
  }

  /** The corrected initials are empty exactly when the name has no non-space character. */
  lemma FixedInitialsEmptyIff(user: Option<AuthSlice.UserProfile>)
    requires user.Some?
    ensures GetUserInitialsFixed(user) == "" <==> forall j :: 0 <= j < |user.value.name| ==> user.value.name[j] == ' '
  {
    var name := user.value.name;
    FixedEmptyIffNoWords(user);
    if j :| 0 <= j < |name| && name[j] != ' ' {
      WordsOfNonBlank(name, j);
    } else {
      WordsOfBlank(name);
    }
  }

  lemma FixedEmptyIffNoWords(user: Option<AuthSlice.UserProfile>)
    requires user.Some?
    ensures GetUserInitialsFixed(user) == "" <==> |Words(user.value.name)| == 0
  {
  }

  /** A blank name has no words. */
  lemma WordsOfBlank(name: string)
    requires forall j :: 0 <= j < |name| ==> name[j] == ' '
    ensures |Words(name)| == 0
  {
    var ws := Words(name);
    if |ws| > 0 {
      WordCharsFromName(name, 0, ws[0][0]);
      assert false;
    }
  }

  /** A name with a non-space character has a word. */
  lemma WordsOfNonBlank(name: string, j: nat)
    requires j < |name| && name[j] != ' '
    ensures |Words(name)| > 0
  {
    var parts := Text.Split(name, ' ');
    SplitCoversString(name, ' ', j);
    var k :| 0 <= k < |parts| && name[j] in parts[k];
    FilterKeepsWord(parts, k);
  }

  /** A word among the pieces survives the filter. */
  lemma FilterKeepsWord(parts: seq<string>, k: nat)
    requires k < |parts| && IsWord(parts[k])
    ensures parts[k] in Seqs.Filter(parts, IsWord)
  {
    var ws := Seqs.Filter(parts, IsWord);
    assert parts[k] in parts;
    assert multiset(ws)[parts[k]] == multiset(parts)[parts[k]] > 0;
  }

  /** The first two entries of a filter whose first two elements pass it. */
  lemma FilterFirstTwo(parts: seq<string>)
    requires |parts| >= 2 && IsWord(parts[0]) && IsWord(parts[1])
    ensures |Seqs.Filter(parts, IsWord)| >= 2
    ensures Seqs.Filter(parts, IsWord)[0] == parts[0]
    ensures Seqs.Filter(parts, IsWord)[1] == parts[1]
  {
    var tail := parts[1..];
    assert tail[0] == parts[1];
    assert Seqs.Filter(parts, IsWord) == [parts[0]] + Seqs.Filter(tail, IsWord);
    assert Seqs.Filter(tail, IsWord) == [tail[0]] + Seqs.Filter(tail[1..], IsWord);
  }

  /** Where the as-written initials are well defined (a one-word name, or a first
      space with a word on each side) the corrected initials agree with them. */
  lemma FixedAgreesOnWellFormedNames(user: Option<AuthSlice.UserProfile>, i: nat)
    requires user.Some? && user.value.name != ""
    requires (' ' !in user.value.name)
      || (0 < i && i + 1 < |user.value.name| && user.value.name[i] == ' ' && user.value.name[i + 1] != ' '
          && forall j :: 0 <= j < i ==> user.value.name[j] != ' ')
    ensures GetUserInitialsFixed(user) == GetUserInitials(user)
  {
    var name := user.value.name;
    var parts := Text.Split(name, ' ');
    if ' ' !in name {
      Text.SplitNoSeparator(name, ' ');
      InitialsOfOneWord(user);
      assert Words(name) == [name];
    } else {
      SplitAtFirst(name, ' ', i);
      SplitHead(name[i + 1..], ' ');
      assert parts[1] == Text.Split(name[i + 1..], ' ')[0];
      FilterFirstTwo(parts);
      InitialsOfTwoWords(user, i);
    }
  }

  // ---------------------------------------------------------------------------
  // Search and theme
  // ---------------------------------------------------------------------------

  /** `handleSearch`: with a query that is not blank after trimming, set the
      searching flag and go to the search page with the untrimmed query
      (returned here as the navigation target); otherwise do nothing. */
  function HandleSearch(ui: UiSlice.UIState): (r: (UiSlice.UIState, Option<string>))
    ensures r.1.Some? <==> exists i :: 0 <= i < |ui.searchQuery| && !Text.IsJsWhitespace(ui.searchQuery[i])
    ensures r.1.Some? ==> r.1.value == ui.searchQuery && r.0.isSearching
    ensures r.0.(isSearching := ui.isSearching) == ui
    ensures r.1.None? ==> r.0 == ui
  {
    Text.TrimEmptyIff(ui.searchQuery);
    if Text.Trim(ui.searchQuery) != "" then (UiSlice.SetSearching(ui, true), Some(ui.searchQuery))
    else (ui, None)
  }

  /** The theme the provider may hold: light, dark, or follow the system. */
  datatype ThemeChoice = Light | Dark | System

  /** The toggle button: dark goes to light, anything else to dark. */
  function NextTheme(t: ThemeChoice): (r: ThemeChoice)
    ensures r != System && r != t
    ensures r == Light <==> t == Dark
  {
    if t == Dark then Light else Dark
  }

  /** Two presses restore light or dark, and leave the system setting for light. */
  lemma NextThemeTwice(t: ThemeChoice)
    ensures t != System ==> NextTheme(NextTheme(t)) == t
    ensures t == System ==> NextTheme(NextTheme(t)) == Light
  {
  }
}

=== FILE: payment_service.dfy ===
/** The payment service (src/lib/services/payment.service.ts) over the abstract
    store: enrolling a user in a course, checking enrollment, settling a payment,
    and the fixed promo-code table. */
module PaymentService {
  import opened Wrappers
  import opened Constants
  import Seqs
  import CS = CourseSlice
  import PS = ProgressSlice
  import opened Backend

  /** `getDocument` on the courses collection. */
  function FindCourse(db: Db, courseId: string): (r: Result<CS.Course>)
    ensures r.Ok? <==> CS.IndexOfCourse(db.courses, courseId).Some?
    ensures r.Ok? ==> r.value == db.courses[CS.IndexOfCourse(db.courses, courseId).value]
    ensures r.Err? ==> r.failure == DocumentNotFound
  {
    match CS.IndexOfCourse(db.courses, courseId)
    case None => Err(DocumentNotFound)
    case Some(i) => Ok(db.courses[i])
  }

  /** `createEnrollment`: read the course (a missing one throws before anything is
      written), store an active enrollment charging the course price, then store
      an empty progress document for the course. A clash of either new id throws;
      a clash on the progress document leaves the enrollment stored. */
  function CreateEnrollment(db: Db, userId: string, courseId: string, paymentId: Option<string>,
                            enrollmentId: string, progressId: string, now: string): (o: Outcome<Enrollment>)
    ensures CS.IndexOfCourse(db.courses, courseId).None? ==> o == Outcome(db, Err(DocumentNotFound))
    ensures CS.IndexOfCourse(db.courses, courseId).Some? && IndexOfEnrollment(db.enrollments, enrollmentId).Some? ==>
              o == Outcome(db, Err(DocumentAlreadyExists))
    ensures CS.IndexOfCourse(db.courses, courseId).Some? && IndexOfEnrollment(db.enrollments, enrollmentId).None? ==>
              var course := db.courses[CS.IndexOfCourse(db.courses, courseId).value];
              var e := Enrollment(enrollmentId, userId, courseId, paymentId, course.price, ACTIVE, now, None);
              && o.db.courses == db.courses && o.db.lessons == db.lessons
              && o.db.enrollments == db.enrollments + [e]
              && (IndexOfProgressDoc(db.progress, progressId).Some? ==>
                    o.result == Err(DocumentAlreadyExists) && o.db.progress == db.progress)
              && (IndexOfProgressDoc(db.progress, progressId).None? ==>
                    && o.result == Ok(e)
                    && o.db.progress == db.progress + [PS.CourseProgress(progressId, userId, courseId, [], ACTIVE,
                                                                          now, None, now, None)])
  {
    match FindCourse(db, courseId)
    case Err(f) => Outcome(db, Err(f))
    case Ok(course) =>
      if IndexOfEnrollment(db.enrollments, enrollmentId).Some? then Outcome(db, Err(DocumentAlreadyExists))
      else
        var e := Enrollment(enrollmentId, userId, courseId, paymentId, course.price, ACTIVE, now, None);
        var db1 := db.(enrollments := db.enrollments + [e]);
        if IndexOfProgressDoc(db1.progress, progressId).Some? then Outcome(db1, Err(DocumentAlreadyExists))
        else
          var p := PS.CourseProgress(progressId, userId, courseId, [], ACTIVE, now, None, now, None);
          Outcome(db1.(progress := db1.progress + [p]), Ok(e))
  }

  /** An enrollment that makes the user count as enrolled in the course. */
  predicate Grants(e: Enrollment, userId: string, courseId: string)
  {
    e.userId == userId && e.courseId == courseId && e.status == ACTIVE
  }

  /** `isUserEnrolled`: some active enrollment of the user for the course. */
  function IsUserEnrolled(db: Db, userId: string, courseId: string): (r: bool)
    ensures r <==> exists j :: 0 <= j < |db.enrollments| && Grants(db.enrollments[j], userId, courseId)
  {
    Seqs.FindIndex(db.enrollments, (e: Enrollment) => Grants(e, userId, courseId)).Some?
  }

  /** `getUserEnrollments`: every enrollment of the user, in store order. */
  function GetUserEnrollments(db: Db, userId: string): (r: seq<Enrollment>)
    ensures forall e :: e in r <==> e in db.enrollments && e.userId == userId
  {
    Seqs.Filter(db.enrollments, (e: Enrollment) => e.userId == userId)
  }

  /** A successful enrollment makes the user enrolled, whatever was stored before. */
  lemma EnrolledAfterCreate(db: Db, userId: string, courseId: string, paymentId: Option<string>,
                            enrollmentId: string, progressId: string, now: string)
    requires CreateEnrollment(db, userId, courseId, paymentId, enrollmentId, progressId, now).result.Ok?
    ensures IsUserEnrolled(CreateEnrollment(db, userId, courseId, paymentId, enrollmentId, progressId, now).db,
                           userId, courseId)
  {
    var o := CreateEnrollment(db, userId, courseId, paymentId, enrollmentId, progressId, now);
    assert Grants(o.db.enrollments[|db.enrollments|], userId, courseId);
  }

  /** Enrolling also gives the user a progress document for the course, which
      `getCourseProgress` finds unless an earlier one shadows it. */
  lemma ProgressAfterCreate(db: Db, userId: string, courseId: string, paymentId: Option<string>,
                            enrollmentId: string, progressId: string, now: string)
    requires CreateEnrollment(db, userId, courseId, paymentId, enrollmentId, progressId, now).result.Ok?
    ensures var o := CreateEnrollment(db, userId, courseId, paymentId, enrollmentId, progressId, now);
            var d := o.db.progress[|o.db.progress| - 1];
            && |o.db.progress| == |db.progress| + 1
            && d.id == progressId && d.userId == userId && d.courseId == courseId
            && d.progress == [] && d.enrollmentStatus == ACTIVE
  {
  }

  /** How a payment provider reports a payment. */
  datatype PaymentStatus = Succeeded | Failed

  /** The enrollment status a settled payment leads to. */
  function EnrollmentStatusFor(status: PaymentStatus): (r: string)
    ensures r == ACTIVE <==> status.Succeeded?
    ensures r == FAILED <==> status.Failed?
  {
    assert ACTIVE[0] != FAILED[0];
    if status == Succeeded then ACTIVE else FAILED
  }

  /** Position of the first enrollment carrying this payment id. */
  function IndexOfPayment(docs: seq<Enrollment>, paymentId: string): (r: Option<nat>)
    ensures r.Some? ==> r.value < |docs| && docs[r.value].paymentId == Some(paymentId)
    ensures r.Some? ==> forall j :: 0 <= j < r.value ==> docs[j].paymentId != Some(paymentId)
    ensures r.None? <==> forall j :: 0 <= j < |docs| ==> docs[j].paymentId != Some(paymentId)
  {
    Seqs.FindIndex(docs, (e: Enrollment) => e.paymentId == Some(paymentId))
  }

  /** `verifyPayment`: the first enrollment with the payment id becomes active on
      success and failed otherwise; without one nothing changes. */
  function VerifyPayment(db: Db, paymentId: string, status: PaymentStatus): (o: Outcome<()>)
    ensures o.result.Ok?
    ensures o.db.courses == db.courses && o.db.lessons == db.lessons && o.db.progress == db.progress
    ensures |o.db.enrollments| == |db.enrollments|
    ensures IndexOfPayment(db.enrollments, paymentId).None? ==> o.db == db
    ensures IndexOfPayment(db.enrollments, paymentId).Some? ==>
              var i := IndexOfPayment(db.enrollments, paymentId).value;
              && o.db.enrollments[i] == db.enrollments[i].(status := if status == Succeeded then ACTIVE else FAILED)
              && forall j :: 0 <= j < |db.enrollments| && j != i ==> o.db.enrollments[j] == db.enrollments[j]
  {
    match IndexOfPayment(db.enrollments, paymentId)
    case None => Outcome(db, Ok(()))
    case Some(i) =>
      var e := db.enrollments[i];
      Outcome(db.(enrollments := db.enrollments[i := e.(status := EnrollmentStatusFor(status))]), Ok(()))
  }

  /** A succeeded payment enrolls the payer; settling the same payment twice
      with the same status is the same as settling it once. */
  lemma VerifySucceededEnrolls(db: Db, paymentId: string)
    requires IndexOfPayment(db.enrollments, paymentId).Some?
    ensures var e := db.enrollments[IndexOfPayment(db.enrollments, paymentId).value];
            IsUserEnrolled(VerifyPayment(db, paymentId, Succeeded).db, e.userId, e.courseId)
  {
    var i := IndexOfPayment(db.enrollments, paymentId).value;
    var o := VerifyPayment(db, paymentId, Succeeded);
    assert Grants(o.db.enrollments[i], db.enrollments[i].userId, db.enrollments[i].courseId);
  }

  lemma VerifyIdempotent(db: Db, paymentId: string, status: PaymentStatus)
    ensures var once := VerifyPayment(db, paymentId, status).db;
            VerifyPayment(once, paymentId, status).db == once
  {
    var once := VerifyPayment(db, paymentId, status).db;
    match IndexOfPayment(db.enrollments, paymentId)
    case None =>
    case Some(i) =>
      assert IndexOfPayment(once.enrollments, paymentId) == Some(i);
      assert once.enrollments[i := once.enrollments[i]] == once.enrollments;
  }

  /** The answer of `applyPromoCode`. */
  datatype PromoResult = PromoResult(valid: bool, discountPercent: Option<int>)

  /** The promo-code table; codes are matched exactly, case included. */
  const PromoCodes: map<string, int> := map["WELCOME10" := 10, "MOTION25" := 25, "DESIGN50" := 50]

  /** `applyPromoCode`: the table entry for the code, or invalid. The course is
      not consulted. */
  function ApplyPromoCode(code: string, courseId: string): (r: PromoResult)
    ensures r.valid <==> code in PromoCodes
    ensures r.valid ==> r.discountPercent == Some(PromoCodes[code])
    ensures !r.valid ==> r.discountPercent.None?
  {
    if code in PromoCodes then PromoResult(true, Some(PromoCodes[code])) else PromoResult(false, None)
  }

  /** Exactly the three codes are valid, each discount lies between 10 and 50
      percent, and the course never changes the answer. */
  lemma PromoCodeTable(code: string, courseId: string, otherCourse: string)
    ensures ApplyPromoCode(code, courseId).valid <==> code == "WELCOME10" || code == "MOTION25" || code == "DESIGN50"
    ensures ApplyPromoCode(code, courseId).valid ==>
              10 <= ApplyPromoCode(code, courseId).discountPercent.value <= 50
    ensures ApplyPromoCode(code, courseId) == ApplyPromoCode(code, otherCourse)
  {
  }

  /** Matching is case-sensitive. */
  lemma PromoCodeCaseSensitive()
    ensures !ApplyPromoCode("welcome10", "c").valid
    ensures ApplyPromoCode("WELCOME10", "c") == PromoResult(true, Some(10))
  {
    assert "welcome10" != "WELCOME10" by { assert "welcome10"[0] != "WELCOME10"[0]; }
    assert "welcome10" != "MOTION25" by { assert "welcome10"[0] != "MOTION25"[0]; }
    assert "welcome10" != "DESIGN50" by { assert "welcome10"[0] != "DESIGN50"[0]; }
  }
}

=== FILE: profile_page.dfy ===
/** The profile page's form rules (src/app/profile/page.tsx): the zod schemas of
    the profile and password forms, and what a profile submit sends. */
module ProfilePage {
  import opened Wrappers
  import AuthSlice

  /** One validation issue: the field it is reported on and its message. */
  datatype Issue = Issue(path: string, message: string)

  datatype ProfileForm = ProfileForm(name: string, bio: Option<string>)

  datatype PasswordForm = PasswordForm(currentPassword: string, newPassword: string, confirmPassword: string)

  const NameTooShort := "Name must be at least 2 characters"
  const BioTooLong := "Bio must not exceed 500 characters"
  const PasswordTooShort := "Password must be at least 6 characters"
  const PasswordsDiffer := "Passwords do not match"

  /** Whether some issue is reported on `path`. */
  predicate ReportedOn(issues: seq<Issue>, path: string)
  {
    exists k :: 0 <= k < |issues| && issues[k].path == path
  }

  /** `profileSchema`: the issues, in field order, of a profile form. */
  function ValidateProfile(f: ProfileForm): (r: seq<Issue>)
    ensures ReportedOn(r, "name") <==> |f.name| < 2
    ensures ReportedOn(r, "bio") <==> f.bio.Some? && |f.bio.value| > 500
    ensures forall k :: 0 <= k < |r| ==>
      || r[k] == Issue("name", NameTooShort)
      || r[k] == Issue("bio", BioTooLong)
    ensures r == [] <==> |f.name| >= 2 && (f.bio.None? || |f.bio.value| <= 500)
  {
    var nameIssues := if |f.name| < 2 then [Issue("name", NameTooShort)] else [];
    var bioIssues := if f.bio.Some? && |f.bio.value| > 500 then [Issue("bio", BioTooLong)] else [];
    var r := nameIssues + bioIssues;
    assert |f.name| < 2 ==> r[0].path == "name";
    assert f.bio.Some? && |f.bio.value| > 500 ==> r[|r| - 1].path == "bio";
    r
  }

  /** `passwordSchema`: the length issues of the two checked fields, then the
      refinement's mismatch issue. String-length failures do not abort zod's
      object parse, so the refinement runs even when a length check failed. */
  function ValidatePassword(f: PasswordForm): (r: seq<Issue>)
    ensures ReportedOn(r, "currentPassword") <==> |f.currentPassword| < 6
    ensures ReportedOn(r, "newPassword") <==> |f.newPassword| < 6
    ensures ReportedOn(r, "confirmPassword") <==> f.newPassword != f.confirmPassword
    ensures forall k :: 0 <= k < |r| && r[k].path == "confirmPassword" ==> r[k].message == PasswordsDiffer
    ensures forall k :: 0 <= k < |r| && r[k].path != "confirmPassword" ==> r[k].message == PasswordTooShort
    ensures r == [] <==> |f.currentPassword| >= 6 && |f.newPassword| >= 6 && f.newPassword == f.confirmPassword
  {
    var a := if |f.currentPassword| < 6 then [Issue("currentPassword", PasswordTooShort)] else [];
    var b := if |f.newPassword| < 6 then [Issue("newPassword", PasswordTooShort)] else [];
    var c := if f.newPassword != f.confirmPassword then [Issue("confirmPassword", PasswordsDiffer)] else [];
    var r := a + b + c;
    assert |a| == 1 ==> r[0] == a[0];
    assert |b| == 1 ==> r[|a|] == b[0];
    assert |c| == 1 ==> r[|r| - 1] == c[0];
    r
  }

  /** `confirmPassword` has no length rule of its own, yet in every valid form it
      is at least six characters long, through the equality with `newPassword`. */
  lemma ValidConfirmIsLongEnough(f: PasswordForm)
    requires ValidatePassword(f) == []
    ensures |f.confirmPassword| >= 6
  {
  }

  /** A mismatch is reported on `confirmPassword` with its own message, however
      the length checks went. */
  lemma MismatchReported(f: PasswordForm)
    requires f.newPassword != f.confirmPassword
    ensures Issue("confirmPassword", PasswordsDiffer) in ValidatePassword(f)
  {
    var r := ValidatePassword(f);
    var k :| 0 <= k < |r| && r[k].path == "confirmPassword";
    assert r[k] == Issue("confirmPassword", PasswordsDiffer);
  }

  /** The profile submit handler: with a signed-in user and a valid form, the
      update request for that user carries the form's name and bio and no other
      field; otherwise nothing is sent. */
  function SubmitProfile(user: Option<AuthSlice.UserProfile>, f: ProfileForm): (r: Option<(string, AuthSlice.ProfilePatch)>)
    ensures r.Some? <==> user.Some? && ValidateProfile(f) == []
    ensures r.Some? ==> r.value.0 == user.value.id
    ensures r.Some? ==> r.value.1.name == Some(f.name) && r.value.1.bio == Some(f.bio)
    ensures r.Some? ==> r.value.1.id.None? && r.value.1.email.None? && r.value.1.role.None? && r.value.1.avatarUrl.None?
  {
    if user.None? || ValidateProfile(f) != [] then None
    else Some((user.value.id, AuthSlice.ProfilePatch(None, None, Some(f.name), None, None, Some(f.bio))))
  }

  /** When the service echoes the request back and it is stored, the signed-in
      user changes in name and bio only. */
  lemma SubmitChangesOnlyNameAndBio(s: AuthSlice.AuthState, f: ProfileForm)
    requires s.user.Some? && SubmitProfile(s.user, f).Some?
    ensures
      var after := AuthSlice.UpdateUserProfile(s, SubmitProfile(s.user, f).value.1);
      after.user == Some(s.user.value.(name := f.name, bio := f.bio))
      && after.(user := s.user) == s
  {
  }
}

=== FILE: progress_service.dfy ===
/** The progress service (src/lib/services/progress.service.ts): reading and
    updating a user's progress document for a course over the abstract store,
    and the three pure queries on a document — completion percentage, whether a
    lesson is completed, and which lesson to watch next. */
module ProgressService {
  import opened Wrappers
  import opened Constants
  import Seqs
  import PS = ProgressSlice
  import opened Backend

  /** Position of the first progress document of this user for this course. */
  function IndexOfUserCourse(docs: seq<PS.CourseProgress>, userId: string, courseId: string): (r: Option<nat>)
    ensures r.Some? ==> r.value < |docs| && docs[r.value].userId == userId && docs[r.value].courseId == courseId
    ensures r.Some? ==> forall j :: 0 <= j < r.value ==> !(docs[j].userId == userId && docs[j].courseId == courseId)
    ensures r.None? <==> forall j :: 0 <= j < |docs| ==> !(docs[j].userId == userId && docs[j].courseId == courseId)
  {
    Seqs.FindIndex(docs, (d: PS.CourseProgress) => d.userId == userId && d.courseId == courseId)
  }

  /** `getCourseProgress`: the first listed document of the user for the course,
      or None when there is none. */
  function GetCourseProgress(db: Db, userId: string, courseId: string): (r: Option<PS.CourseProgress>)
    ensures r.None? <==> forall d :: d in db.progress ==> !(d.userId == userId && d.courseId == courseId)
    ensures r.Some? ==> r.value in db.progress && r.value.userId == userId && r.value.courseId == courseId
    ensures r.Some? ==> exists i :: 0 <= i < |db.progress| && db.progress[i] == r.value
                                    && forall j :: 0 <= j < i ==> !(db.progress[j].userId == userId && db.progress[j].courseId == courseId)
  {
    match IndexOfUserCourse(db.progress, userId, courseId)
    case None => None
    case Some(i) => Some(db.progress[i])
  }

  /** `getAllUserProgress`: every document of the user, in store order. */
  function GetAllUserProgress(db: Db, userId: string): (r: seq<PS.CourseProgress>)
    ensures forall d :: d in r <==> d in db.progress && d.userId == userId
  {
    Seqs.Filter(db.progress, (d: PS.CourseProgress) => d.userId == userId)
  }

  /** `updateLessonProgress`: read the document (a missing one throws), upsert the
      lesson's entry and stamp `lastAccessedAt`; nothing else in the store changes. */
  function UpdateLessonProgress(db: Db, progressId: string, u: PS.LessonUpdate, now: string)
    : (o: Outcome<PS.CourseProgress>)
    ensures IndexOfProgressDoc(db.progress, progressId).None? ==> o == Outcome(db, Err(DocumentNotFound))
    ensures IndexOfProgressDoc(db.progress, progressId).Some? ==>
              var i := IndexOfProgressDoc(db.progress, progressId).value;
              && o.result.Ok?
              && o.db == db.(progress := db.progress[i := o.result.value])
              && o.result.value.progress == PS.Upsert(db.progress[i].progress, u, now)
              && o.result.value.lastAccessedAt == now
              && o.result.value.(progress := db.progress[i].progress,
                                 lastAccessedAt := db.progress[i].lastAccessedAt) == db.progress[i]
  {
    match IndexOfProgressDoc(db.progress, progressId)
    case None => Outcome(db, Err(DocumentNotFound))
    case Some(i) =>
      var d := db.progress[i];
      var d' := d.(progress := PS.Upsert(d.progress, u, now), lastAccessedAt := now);
      Outcome(db.(progress := db.progress[i := d']), Ok(d'))
  }

  /** `markCourseAsCompleted`: stamp the document's `completedAt`. */
  function MarkCourseAsCompleted(db: Db, progressId: string, now: string): (o: Outcome<PS.CourseProgress>)
    ensures IndexOfProgressDoc(db.progress, progressId).None? ==> o == Outcome(db, Err(DocumentNotFound))
    ensures IndexOfProgressDoc(db.progress, progressId).Some? ==>
              var i := IndexOfProgressDoc(db.progress, progressId).value;
              && o.result.Ok?
              && o.db == db.(progress := db.progress[i := o.result.value])
              && o.result.value.completedAt == Some(now)
              && o.result.value.(completedAt := db.progress[i].completedAt) == db.progress[i]
  {
    match IndexOfProgressDoc(db.progress, progressId)
    case None => Outcome(db, Err(DocumentNotFound))
    case Some(i) =>
      var d := db.progress[i].(completedAt := Some(now));
      Outcome(db.(progress := db.progress[i := d]), Ok(d))
  }

  /** `Math.round`: the nearest integer, halves rounded up. */
  function JsRound(x: real): (r: int)
    ensures r as real - 0.5 <= x < r as real + 0.5
  {
    (x + 0.5).Floor
  }

  /** The entries with status completed. */
  function CompletedEntries(entries: seq<PS.LessonProgress>): (r: seq<PS.LessonProgress>)
    ensures forall e :: e in r <==> e in entries && e.status == Completed
  {
    Seqs.Filter(entries, (e: PS.LessonProgress) => e.status == Completed)
  }

  /** `getCompletionPercentage`: the rounded share of completed entries among
      `totalLessons`; 0 without a document or with no lessons. Nothing caps it. */
  function CompletionPercentage(progress: Option<PS.CourseProgress>, totalLessons: int): (r: int)
    ensures progress.None? || totalLessons == 0 ==> r == 0
    ensures progress.Some? && totalLessons > 0 && CompletedEntries(progress.value.progress) == [] ==> r == 0
  {
    if progress.None? || totalLessons == 0 then 0
    else JsRound((|CompletedEntries(progress.value.progress)| as real / totalLessons as real) * 100.0)
  }

  /** In integers the percentage is (200c + t) div 2t for c completed entries
      out of t > 0 lessons. */
  lemma CompletionPercentageFormula(progress: PS.CourseProgress, totalLessons: int)
    requires totalLessons > 0
    ensures var c := |CompletedEntries(progress.progress)|;
            CompletionPercentage(Some(progress), totalLessons) == (200 * c + totalLessons) / (2 * totalLessons)
  {
    RoundedShare(|CompletedEntries(progress.progress)|, totalLessons);
  }

  /** `Math.round(c / t * 100)` in integer arithmetic. */
  lemma RoundedShare(c: int, t: int)
    requires t > 0
    ensures JsRound((c as real / t as real) * 100.0) == (200 * c + t) / (2 * t)
  {
    var x := (c as real / t as real) * 100.0;
    var r := JsRound(x);
    FracTimes(c, t);
    ScaledBounds(x, r, c, t);
    DivBounds(200 * c + t, 2 * t, r);
  }

  /** Scaling the rounding bounds of x by 2t, where x·2t is 200c. */
  lemma ScaledBounds(x: real, r: int, c: int, t: int)
    requires t > 0 && r as real - 0.5 <= x < r as real + 0.5
    requires x * (2 * t) as real == (200 * c) as real
    ensures r * (2 * t) - t <= 200 * c
    ensures 200 * c < r * (2 * t) + t
  {
    var m := (2 * t) as real;
    ScaledHalf(r, t);
    ScaledLe(r as real - 0.5, x, m, r * (2 * t) - t, 200 * c);
    ScaledLt(x, r as real + 0.5, m, 200 * c, r * (2 * t) + t);
  }

  /** Multiplying by a positive factor keeps an order between values whose products are integers. */
  lemma ScaledLe(a: real, b: real, m: real, i: int, j: int)
    requires a <= b && m > 0.0 && a * m == i as real && b * m == j as real
    ensures i <= j
  {
    MulLe(a, b, m);
  }

  lemma ScaledLt(a: real, b: real, m: real, i: int, j: int)
    requires a < b && m > 0.0 && a * m == i as real && b * m == j as real
    ensures i < j
  {
    MulLt(a, b, m);
  }

  lemma MulLe(a: real, b: real, m: real)
    requires a <= b && m > 0.0
    ensures a * m <= b * m
  {
  }

  lemma MulLt(a: real, b: real, m: real)
    requires a < b && m > 0.0
    ensures a * m < b * m
  {
  }

  lemma FracTimes(c: int, t: int)
    requires t > 0
    ensures (c as real / t as real) * 100.0 * (2 * t) as real == (200 * c) as real
  {
  }

  lemma ScaledHalf(r: int, t: int)
    ensures (r as real - 0.5) * (2 * t) as real == (r * (2 * t) - t) as real
    ensures (r as real + 0.5) * (2 * t) as real == (r * (2 * t) + t) as real
  {
  }

  lemma MulAtLeast(a: int, d: int)
    requires a >= 1 && d > 0
    ensures a * d >= d
  {
  }

  /** `q` is the quotient when `q·d <= n < q·d + d`. */
  lemma DivBounds(n: int, d: int, q: int)
    requires d > 0 && q * d <= n < q * d + d
    ensures n / d == q
  {
    var q', r' := n / d, n % d;
    assert n == q' * d + r' && 0 <= r' < d;
    if q' > q {
      MulAtLeast(q' - q, d);
    } else if q' < q {
      MulAtLeast(q - q', d);
    }
  }

  /** With no more completed entries than lessons the percentage lies in 0..100. */
  lemma CompletionPercentageBounded(progress: PS.CourseProgress, totalLessons: int)
    requires totalLessons > 0 && |CompletedEntries(progress.progress)| <= totalLessons
    ensures 0 <= CompletionPercentage(Some(progress), totalLessons) <= 100
  {
    CompletionPercentageFormula(progress, totalLessons);
    var c := |CompletedEntries(progress.progress)|;
    var t := totalLessons;
    assert 200 * c + t < 101 * (2 * t);
    DivAtMost(200 * c + t, 2 * t, 100);
  }

  lemma DivAtMost(n: int, d: int, q: int)
    requires d > 0 && 0 <= n < (q + 1) * d
    ensures 0 <= n / d <= q
  {
    var q', r' := n / d, n % d;
    assert n == q' * d + r' && 0 <= r' < d;
    if q' > q {
      MulAtLeast(q' - q, d);
    }
    if q' < 0 {
      MulAtLeast(-q', d);
    }
  }

  /** Two completed entries against one lesson read as 200 percent. */
  lemma CompletionPercentageExceeds()
    ensures var e := PS.LessonProgress("l1", Completed, None, 100.0);
            var d := PS.CourseProgress("p", "u", "c", [e, e.(lessonId := "l2")], ACTIVE, "t", None, "t", None);
            CompletionPercentage(Some(d), 1) == 200
  {
    var e := PS.LessonProgress("l1", Completed, None, 100.0);
    var entries := [e, e.(lessonId := "l2")];
    var d := PS.CourseProgress("p", "u", "c", entries, ACTIVE, "t", None, "t", None);
    assert entries[1..] == [e.(lessonId := "l2")];
    assert entries[1..][1..] == [];
    assert |CompletedEntries(entries)| == 2;
  }

  /** `isLessonCompleted`: the first entry for the lesson says completed. */
  function IsLessonCompleted(progress: Option<PS.CourseProgress>, lessonId: string): (r: bool)
    ensures r <==> && progress.Some?
                   && PS.IndexOfLesson(progress.value.progress, lessonId).Some?
                   && progress.value.progress[PS.IndexOfLesson(progress.value.progress, lessonId).value].status
                      == Completed
  {
    match progress
    case None => false
    case Some(d) =>
      match PS.IndexOfLesson(d.progress, lessonId)
      case None => false
      case Some(i) => d.progress[i].status == Completed
  }

  /** The ids of the lessons with some completed entry (the source's `completedMap`). */
  function CompletedIds(entries: seq<PS.LessonProgress>): (done: set<string>)
    ensures forall id :: id in done <==>
              exists j :: 0 <= j < |entries| && entries[j].lessonId == id && entries[j].status == Completed
  {
    if |entries| == 0 then {}
    else
      var last := entries[|entries| - 1];
      var rest := CompletedIds(entries[..|entries| - 1]);
      assert forall j :: 0 <= j < |entries| - 1 ==> entries[..|entries| - 1][j] == entries[j];
      if last.status == Completed then rest + {last.lessonId} else rest
  }

  /** Without duplicate entries, "the first entry is completed" and "some entry
      is completed" agree; with duplicates only the second direction can fail. */
  lemma IsLessonCompletedIffCompletedIds(progress: PS.CourseProgress, lessonId: string)
    ensures IsLessonCompleted(Some(progress), lessonId) ==> lessonId in CompletedIds(progress.progress)
    ensures PS.DistinctLessons(progress.progress) ==>
              (IsLessonCompleted(Some(progress), lessonId) <==> lessonId in CompletedIds(progress.progress))
  {
    var entries := progress.progress;
    if lessonId in CompletedIds(entries) && PS.DistinctLessons(entries) {
      var j :| 0 <= j < |entries| && entries[j].lessonId == lessonId && entries[j].status == Completed;
      var i := PS.IndexOfLesson(entries, lessonId).value;
      assert i == j;
    }
  }

  /** A duplicate entry can make a lesson count as done for `getNextLesson` while
      `isLessonCompleted` says it is not. */
  lemma FirstEntryDecides()
    ensures var e := PS.LessonProgress("l1", InProgress, None, 50.0);
            var d := PS.CourseProgress("p", "u", "c", [e, e.(status := Completed)], ACTIVE, "t", None, "t", None);
            !IsLessonCompleted(Some(d), "l1") && "l1" in CompletedIds(d.progress)
  {
    var e := PS.LessonProgress("l1", InProgress, None, 50.0);
    var entries := [e, e.(status := Completed)];
    assert entries[1].lessonId == "l1" && entries[1].status == Completed;
  }

  /** The lesson `getNextLesson` picks from a non-empty list: the first one not
      completed, or the last one when all are. */
  function NextLessonOf(done: set<string>, lessons: seq<string>): (r: string)
    requires |lessons| > 0
    ensures r in lessons
    ensures exists k :: 0 <= k < |lessons| && lessons[k] == r
                        && (forall j :: 0 <= j < k ==> lessons[j] in done)
                        && (r !in done || k == |lessons| - 1)
    decreases |lessons|
  {
    if lessons[0] !in done || |lessons| == 1 then lessons[0]
    else
      var r := NextLessonOf(done, lessons[1..]);
      assert exists k :: 1 <= k < |lessons| && lessons[k] == r
                         && (forall j :: 0 <= j < k ==> lessons[j] in done)
                         && (r !in done || k == |lessons| - 1) by {
        var k' :| 0 <= k' < |lessons[1..]| && lessons[1..][k'] == r
                  && (forall j :: 0 <= j < k' ==> lessons[1..][j] in done)
                  && (r !in done || k' == |lessons[1..]| - 1);
        assert lessons[k' + 1] == r;
        assert forall j :: 1 <= j < k' + 1 ==> lessons[j] == lessons[1..][j - 1];
      }
      r
  }

  /** `getNextLesson`: None stands for JavaScript's `undefined` (`lessons[0]` of
      an empty list). Without a document it is the first lesson. */
  method GetNextLesson(progress: Option<PS.CourseProgress>, lessons: seq<string>) returns (r: Option<string>)
    ensures |lessons| == 0 ==> r.None?
    ensures progress.None? && |lessons| > 0 ==> r == Some(lessons[0])
    ensures progress.Some? && |lessons| > 0 ==>
              r == Some(NextLessonOf(CompletedIds(progress.value.progress), lessons))
  {
    if progress.None? || |lessons| == 0 {
      if |lessons| == 0 {
        return None;
      }
      return Some(lessons[0]);
    }
    var entries := progress.value.progress;
    var done: set<string> := {};
    var i := 0;
    while i < |entries|
      invariant 0 <= i <= |entries|
      invariant done == CompletedIds(entries[..i])
    {
      assert entries[..i + 1][..i] == entries[..i];
      if entries[i].status == Completed {
        done := done + {entries[i].lessonId};
      }
      i := i + 1;
    }
    assert entries[..|entries|] == entries;
    var k := 0;
    while k < |lessons|
      invariant 0 <= k <= |lessons|
      invariant forall j :: 0 <= j < k ==> lessons[j] in done
    {
      if lessons[k] !in done {
        return Some(lessons[k]);
      }
      k := k + 1;
    }
    return Some(lessons[|lessons| - 1]);
  }

  /** After a successful update the lesson reads as completed exactly when the
      reported status is completed. */
  lemma UpdateThenIsCompleted(db: Db, progressId: string, u: PS.LessonUpdate, now: string)
    requires IndexOfProgressDoc(db.progress, progressId).Some?
    ensures var o := UpdateLessonProgress(db, progressId, u, now);
            o.result.Ok? && (IsLessonCompleted(Some(o.result.value), u.lessonId) <==> u.status == Completed)
  {
    var i := IndexOfProgressDoc(db.progress, progressId).value;
    PS.UpsertRecordsUpdate(db.progress[i].progress, u, now);
  }
}

=== FILE: progress_slice.dfy ===
/** The client-side progress store (src/lib/store/slices/progressSlice.ts): the
    per-lesson progress records, the course progress document, and the reducers
    over them. The upsert of one lesson's entry is shared with the progress
    service, which performs the same update on the stored document. */
module ProgressSlice {
  import opened Wrappers
  import opened Constants
  import Seqs

  /** One lesson's entry in a course progress document. */
  datatype LessonProgress = LessonProgress(
    lessonId: string,
    status: ProgressStatus,
    completedAt: Option<string>,
    watchTimePercentage: real)

  /** A user's progress document for one course. */
  datatype CourseProgress = CourseProgress(
    id: string,
    userId: string,
    courseId: string,
    progress: seq<LessonProgress>,
    enrollmentStatus: string,
    startedAt: string,
    completedAt: Option<string>,
    lastAccessedAt: string,
    certificate: Option<string>)

  datatype ProgressState = ProgressState(
    userCourseProgress: seq<CourseProgress>,
    currentCourseProgress: Option<CourseProgress>,
    isLoading: bool,
    error: Option<string>)

  const Initial: ProgressState := ProgressState([], None, false, None)

  /** What one playback update reports about a lesson. */
  datatype LessonUpdate = LessonUpdate(lessonId: string, status: ProgressStatus, watchTimePercentage: real)

  /** Position of the first entry for `lessonId` (`findIndex(p => p.lessonId === lessonId)`). */
  function IndexOfLesson(entries: seq<LessonProgress>, lessonId: string): (r: Option<nat>)
    ensures r.Some? ==> r.value < |entries| && entries[r.value].lessonId == lessonId
    ensures r.Some? ==> forall j :: 0 <= j < r.value ==> entries[j].lessonId != lessonId
    ensures r.None? <==> forall j :: 0 <= j < |entries| ==> entries[j].lessonId != lessonId
  {
    Seqs.FindIndex(entries, (e: LessonProgress) => e.lessonId == lessonId)
  }

  /** No lesson has two entries. */
  predicate DistinctLessons(entries: seq<LessonProgress>)
  {
    forall i, j :: 0 <= i < j < |entries| ==> entries[i].lessonId != entries[j].lessonId
  }

  /** An existing entry after an update: status and percentage are overwritten,
      `completedAt` is stamped only for a completion and kept otherwise. */
  function Touch(e: LessonProgress, u: LessonUpdate, now: string): LessonProgress
  {
    e.(status := u.status,
       watchTimePercentage := u.watchTimePercentage,
       completedAt := if u.status == Completed then Some(now) else e.completedAt)
  }

  /** The entry appended when the lesson has none yet. */
  function FreshEntry(u: LessonUpdate, now: string): LessonProgress
  {
    LessonProgress(u.lessonId, u.status, if u.status == Completed then Some(now) else None,
                   u.watchTimePercentage)
  }

  /** Update the first entry for the lesson, or append one when there is none. */
  function Upsert(entries: seq<LessonProgress>, u: LessonUpdate, now: string): (r: seq<LessonProgress>)
    ensures |entries| <= |r| <= |entries| + 1
    ensures forall j :: 0 <= j < |entries| && entries[j].lessonId != u.lessonId ==> r[j] == entries[j]
    ensures IndexOfLesson(entries, u.lessonId).None? ==>
              && r[..|entries|] == entries && |r| == |entries| + 1
              && r[|entries|].lessonId == u.lessonId
              && r[|entries|].status == u.status
              && r[|entries|].watchTimePercentage == u.watchTimePercentage
              && r[|entries|].completedAt == (if u.status == Completed then Some(now) else None)
    ensures IndexOfLesson(entries, u.lessonId).Some? ==>
              var i := IndexOfLesson(entries, u.lessonId).value;
              && |r| == |entries|
              && r[i].lessonId == u.lessonId
              && r[i].status == u.status
              && r[i].watchTimePercentage == u.watchTimePercentage
              && (u.status == Completed ==> r[i].completedAt == Some(now))
              && (u.status != Completed ==> r[i].completedAt == entries[i].completedAt)
              && forall j :: 0 <= j < |entries| && j != i ==> r[j] == entries[j]
  {
    match IndexOfLesson(entries, u.lessonId)
    case Some(i) => entries[i := Touch(entries[i], u, now)]
    case None => entries + [FreshEntry(u, now)]
  }

  /** After an upsert the first entry for the lesson carries exactly the reported
      status and percentage, and a completion is stamped with `now`. */
  lemma UpsertRecordsUpdate(entries: seq<LessonProgress>, u: LessonUpdate, now: string)
    ensures var r := Upsert(entries, u, now);
            && IndexOfLesson(r, u.lessonId).Some?
            && var e := r[IndexOfLesson(r, u.lessonId).value];
            && e.status == u.status
            && e.watchTimePercentage == u.watchTimePercentage
            && (u.status == Completed ==> e.completedAt == Some(now))
            && (IndexOfLesson(entries, u.lessonId).None? && u.status != Completed ==> e.completedAt.None?)
  {
    var r := Upsert(entries, u, now);
    match IndexOfLesson(entries, u.lessonId)
    case Some(i) =>
      assert r[i].lessonId == u.lessonId;
      assert IndexOfLesson(r, u.lessonId) == Some(i);
    case None =>
      assert r[|entries|].lessonId == u.lessonId;
      assert IndexOfLesson(r, u.lessonId) == Some(|entries|);
  }

  /** Repeating the same update changes nothing further. */
  lemma UpsertIdempotent(entries: seq<LessonProgress>, u: LessonUpdate, now: string)
    ensures Upsert(Upsert(entries, u, now), u, now) == Upsert(entries, u, now)
  {
    var r := Upsert(entries, u, now);
    match IndexOfLesson(entries, u.lessonId)
    case Some(i) =>
      assert IndexOfLesson(r, u.lessonId) == Some(i);
    case None =>
      assert r[|entries|].lessonId == u.lessonId;
      assert IndexOfLesson(r, u.lessonId) == Some(|entries|);
  }

  /** The upsert never introduces a second entry for a lesson. */
  lemma UpsertKeepsDistinct(entries: seq<LessonProgress>, u: LessonUpdate, now: string)
    requires DistinctLessons(entries)
    ensures DistinctLessons(Upsert(entries, u, now))
  {
  }

  function SetProgressLoading(s: ProgressState, loading: bool): (r: ProgressState)
    ensures r.isLoading == loading
    ensures r.userCourseProgress == s.userCourseProgress && r.currentCourseProgress == s.currentCourseProgress
    ensures r.error == s.error
  {
    s.(isLoading := loading)
  }

  /** Storing the user's progress list also ends loading and clears the error. */
  function SetUserCourseProgress(s: ProgressState, list: seq<CourseProgress>): (r: ProgressState)
    ensures r.userCourseProgress == list && !r.isLoading && r.error.None?
    ensures r.currentCourseProgress == s.currentCourseProgress
  {
    s.(userCourseProgress := list, isLoading := false, error := None)
  }

  /** Storing the current course's progress ends loading but leaves the error alone. */
  function SetCurrentCourseProgress(s: ProgressState, cp: Option<CourseProgress>): (r: ProgressState)
    ensures r.currentCourseProgress == cp && !r.isLoading
    ensures r.error == s.error && r.userCourseProgress == s.userCourseProgress
  {
    s.(currentCourseProgress := cp, isLoading := false)
  }

  /** Record a lesson update in the current course's progress; without a current
      course the state is unchanged. Only the progress list and `lastAccessedAt`
      of the current document change. */
  function UpdateLessonProgress(s: ProgressState, u: LessonUpdate, now: string): (r: ProgressState)
    ensures s.currentCourseProgress.None? ==> r == s
    ensures s.currentCourseProgress.Some? ==>
              && r.currentCourseProgress.Some?
              && r.currentCourseProgress.value.progress == Upsert(s.currentCourseProgress.value.progress, u, now)
              && r.currentCourseProgress.value.lastAccessedAt == now
              && r.currentCourseProgress.value.(progress := s.currentCourseProgress.value.progress,
                                                lastAccessedAt := s.currentCourseProgress.value.lastAccessedAt)
                 == s.currentCourseProgress.value
    ensures r.userCourseProgress == s.userCourseProgress && r.isLoading == s.isLoading && r.error == s.error
  {
    match s.currentCourseProgress
    case None => s
    case Some(cp) =>
      s.(currentCourseProgress := Some(cp.(progress := Upsert(cp.progress, u, now), lastAccessedAt := now)))
  }

  /** An error ends loading. */
  function SetProgressError(s: ProgressState, message: string): (r: ProgressState)
    ensures r.error == Some(message) && !r.isLoading
    ensures r.userCourseProgress == s.userCourseProgress && r.currentCourseProgress == s.currentCourseProgress
  {
    s.(error := Some(message), isLoading := false)
  }
}

=== FILE: seqs.dfy ===
/** Sequence helpers with the meaning of the JavaScript array methods the source
    relies on: `findIndex`, `find`, `filter`, and summing a field. */
module Seqs {
  import opened Wrappers

  /** `findIndex`: the position of the first element satisfying `p`, or None for -1. */
  function FindIndex<T>(s: seq<T>, p: T -> bool): (r: Option<nat>)
    ensures r.Some? ==> r.value < |s| && p(s[r.value])
    ensures r.Some? ==> forall j :: 0 <= j < r.value ==> !p(s[j])
    ensures r.None? <==> forall j :: 0 <= j < |s| ==> !p(s[j])
  {
    if |s| == 0 then None
    else if p(s[0]) then Some(0)
    else
      match FindIndex(s[1..], p)
      case None => None
      case Some(i) => Some(i + 1)
  }

  /** `filter`: the elements satisfying `p`, in their original order. */
  function Filter<T>(s: seq<T>, p: T -> bool): (r: seq<T>)
    ensures |r| <= |s|
    ensures forall x :: x in r ==> x in s && p(x)
    ensures forall x :: x in s ==> multiset(r)[x] == if p(x) then multiset(s)[x] else 0
  {
    if |s| == 0 then []
    else
      assert s == [s[0]] + s[1..];
      (if p(s[0]) then [s[0]] else []) + Filter(s[1..], p)
  }

  /** Filtering a concatenation filters each part, so `Filter` keeps relative order. */
  lemma {:induction false} FilterAppend<T>(a: seq<T>, b: seq<T>, p: T -> bool)
    ensures Filter(a + b, p) == Filter(a, p) + Filter(b, p)
  {
    if |a| == 0 {
      assert a + b == b;
    } else {
      assert (a + b)[1..] == a[1..] + b;
      FilterAppend(a[1..], b, p);
    }
  }

  /** A filter that every element passes changes nothing. */
  lemma {:induction false} FilterAll<T>(s: seq<T>, p: T -> bool)
    requires forall i :: 0 <= i < |s| ==> p(s[i])
    ensures Filter(s, p) == s
  {
    if |s| > 0 {
      FilterAll(s[1..], p);
    }
  }

  /** A filter that no element passes leaves nothing. */
  lemma {:induction false} FilterNone<T>(s: seq<T>, p: T -> bool)
    requires forall i :: 0 <= i < |s| ==> !p(s[i])
    ensures Filter(s, p) == []
  {
    if |s| > 0 {
      FilterNone(s[1..], p);
    }
  }

  /** The sum of `f` over the elements of `s`. */
  function Sum<T>(s: seq<T>, f: T -> int): int
  {
    if |s| == 0 then 0 else f(s[0]) + Sum(s[1..], f)
  }

  lemma {:induction false} SumAppend<T>(a: seq<T>, b: seq<T>, f: T -> int)
    ensures Sum(a + b, f) == Sum(a, f) + Sum(b, f)
  {
    if |a| == 0 {
      assert a + b == b;
    } else {
      assert (a + b)[1..] == a[1..] + b;
      SumAppend(a[1..], b, f);
    }
  }

  lemma {:induction false} SumNonNegative<T>(s: seq<T>, f: T -> int)
    requires forall i :: 0 <= i < |s| ==> f(s[i]) >= 0
    ensures Sum(s, f) >= 0
  {
    if |s| > 0 {
      SumNonNegative(s[1..], f);
    }
  }

  /** No two elements share a key. */
  ghost predicate UniqueBy<T, K>(s: seq<T>, key: T -> K)
  {
    forall i, j :: 0 <= i < j < |s| ==> key(s[i]) != key(s[j])
  }

  /** Splitting a sequence around position `k`. */
  lemma SplitAt<T>(s: seq<T>, k: nat)
    requires k < |s|
    ensures s == s[..k] + [s[k]] + s[k + 1..]
  {
  }
}

=== FILE: text.dfy ===
/** String helpers with the meaning of the JavaScript built-ins the source calls:
    decimal rendering of numbers, ASCII case mapping, `trim` and `split`. */
module Text {

  predicate IsDigit(c: char)
  {
    '0' <= c <= '9'
  }

  predicate AllDigits(s: string)
  {
    forall i :: 0 <= i < |s| ==> IsDigit(s[i])
  }

  function DigitChar(d: nat): (c: char)
    requires d < 10
    ensures IsDigit(c)
    ensures c == '0' <==> d == 0
  {
    ['0', '1', '2', '3', '4', '5', '6', '7', '8', '9'][d]
  }

  function DigitValue(c: char): (d: nat)
    requires IsDigit(c)
    ensures d < 10
  {
    c as int - '0' as int
  }

  /** The decimal text of a natural number, as `String(n)`. */
  function NatToString(n: nat): (s: string)
    ensures |s| >= 1 && AllDigits(s)
    ensures n < 10 <==> |s| == 1
    ensures s[0] == '0' <==> n == 0
    ensures |s| > 1 ==> s[0] != '0'
  {
    if n < 10 then [DigitChar(n)] else NatToString(n / 10) + [DigitChar(n % 10)]
  }

  /** The decimal text of an integer, with a leading '-' when negative. */
  function IntToString(i: int): (s: string)
    ensures i >= 0 ==> s == NatToString(i)
    ensures i < 0 ==> s == "-" + NatToString(-i)
  {
    if i < 0 then "-" + NatToString(-i) else NatToString(i)
  }

  /** The value of a string of decimal digits (0 for the empty string). */
  function ParseDigits(s: string): nat
    requires AllDigits(s)
  {
    if |s| == 0 then 0 else ParseDigits(s[..|s| - 1]) * 10 + DigitValue(s[|s| - 1])
  }

  /** Reading the decimal text of `n` back yields `n`. */
  lemma {:induction false} ParseNatToString(n: nat)
    ensures ParseDigits(NatToString(n)) == n
  {
    var s := NatToString(n);
    if n >= 10 {
      assert s[..|s| - 1] == NatToString(n / 10);
      ParseNatToString(n / 10);
    }
  }

  /** Distinct numbers have distinct decimal texts. */
  lemma NatToStringInjective(a: nat, b: nat)
    requires NatToString(a) == NatToString(b)
    ensures a == b
  {
    ParseNatToString(a);
    ParseNatToString(b);
  }

  predicate IsAsciiUpper(c: char)
  {
    'A' <= c <= 'Z'
  }

  predicate IsAsciiLower(c: char)
  {
    'a' <= c <= 'z'
  }

  /** `toLowerCase` restricted to the ASCII letters. */
  function LowerChar(c: char): (r: char)
    ensures !IsAsciiUpper(r)
    ensures !IsAsciiUpper(c) ==> r == c
    ensures IsAsciiUpper(c) ==> IsAsciiLower(r) && r as int == c as int + 32
  {
    if IsAsciiUpper(c) then (c as int + 32) as char else c
  }

  /** `toUpperCase` restricted to the ASCII letters. */
  function UpperChar(c: char): (r: char)
    ensures !IsAsciiLower(r)
    ensures !IsAsciiLower(c) ==> r == c
    ensures IsAsciiLower(c) ==> IsAsciiUpper(r) && r as int == c as int - 32
  {
    if IsAsciiLower(c) then (c as int - 32) as char else c
  }

  function Lower(s: string): (r: string)
    ensures |r| == |s|
    ensures forall i :: 0 <= i < |s| ==> r[i] == LowerChar(s[i])
  {
    if |s| == 0 then "" else [LowerChar(s[0])] + Lower(s[1..])
  }

  function Upper(s: string): (r: string)
    ensures |r| == |s|
    ensures forall i :: 0 <= i < |s| ==> r[i] == UpperChar(s[i])
  {
    if |s| == 0 then "" else [UpperChar(s[0])] + Upper(s[1..])
  }

  /** The characters `String.prototype.trim` removes: ECMAScript WhiteSpace and
      LineTerminator code points. */
  predicate IsJsWhitespace(c: char)
  {
    || c == '\t' || c == '\n' || c == '\U{000B}' || c == '\U{000C}' || c == '\r'
    || c == ' ' || c == '\U{00A0}' || c == '\U{1680}'
    || ('\U{2000}' <= c <= '\U{200A}')
    || c == '\U{2028}' || c == '\U{2029}' || c == '\U{202F}' || c == '\U{205F}'
    || c == '\U{3000}' || c == '\U{FEFF}'
  }

  function TrimStart(s: string): (r: string)
    ensures |r| <= |s| && r == s[|s| - |r|..]
    ensures |r| > 0 ==> !IsJsWhitespace(r[0])
    ensures forall i :: 0 <= i < |s| - |r| ==> IsJsWhitespace(s[i])
  {
    if |s| > 0 && IsJsWhitespace(s[0]) then TrimStart(s[1..]) else s
  }

  function TrimEnd(s: string): (r: string)
    ensures |r| <= |s| && r == s[..|r|]
    ensures |r| > 0 ==> !IsJsWhitespace(r[|r| - 1])
    ensures forall i :: |r| <= i < |s| ==> IsJsWhitespace(s[i])
  {
    if |s| > 0 && IsJsWhitespace(s[|s| - 1]) then TrimEnd(s[..|s| - 1]) else s
  }

  /** `trim`: strip whitespace at both ends. */
  function Trim(s: string): string
  {
    TrimEnd(TrimStart(s))
  }

  /** The trimmed text is empty exactly when every character is whitespace. */
  lemma TrimEmptyIff(s: string)
    ensures Trim(s) == "" <==> forall i :: 0 <= i < |s| ==> IsJsWhitespace(s[i])
  {
    var t := TrimStart(s);
    if Trim(s) == "" {
      assert |t| == 0;
    } else {
      assert |t| > 0;
      var k := |s| - |t|;
      assert s[k] == t[0];
      assert !IsJsWhitespace(s[k]);
    }
  }

  /** `split(sep)` with a one-character separator: the pieces between separators,
      always at least one (possibly empty) piece. */
  function Split(s: string, sep: char): (parts: seq<string>)
    ensures |parts| >= 1
    ensures forall k :: 0 <= k < |parts| ==> sep !in parts[k]
  {
    if |s| == 0 then [""]
    else
      var rest := Split(s[1..], sep);
      if s[0] == sep then [""] + rest else [[s[0]] + rest[0]] + rest[1..]
  }

  /** `join(sep)`. */
  function Join(parts: seq<string>, sep: char): string
    requires |parts| >= 1
  {
    if |parts| == 1 then parts[0] else parts[0] + [sep] + Join(parts[1..], sep)
  }

  /** Joining the pieces with the separator gives back the string. */
  lemma {:induction false} JoinSplit(s: string, sep: char)
    ensures Join(Split(s, sep), sep) == s
  {
    if |s| > 0 {
      var rest := Split(s[1..], sep);
      JoinSplit(s[1..], sep);
      if s[0] == sep {
        assert Split(s, sep)[1..] == rest;
      } else {
        var parts := Split(s, sep);
        if |rest| == 1 {
          assert parts == [[s[0]] + rest[0]];
        } else {
          assert parts[1..] == rest[1..];
          assert Join(rest, sep) == rest[0] + [sep] + Join(rest[1..], sep);
        }
        assert s == [s[0]] + s[1..];
      }
    }
  }

  /** `split` yields more than one piece exactly when the separator occurs. */
  lemma {:induction false} SplitManyIff(s: string, sep: char)
    ensures |Split(s, sep)| > 1 <==> sep in s
  {
    if |s| > 0 {
      SplitManyIff(s[1..], sep);
      assert s == [s[0]] + s[1..];
    }
  }

  /** With no separator in the string, the only piece is the string itself. */
  lemma {:induction false} SplitNoSeparator(s: string, sep: char)
    requires sep !in s
    ensures Split(s, sep) == [s]
  {
    SplitManyIff(s, sep);
    JoinSplit(s, sep);
  }
}

=== FILE: ui_slice.dfy ===
/** The client-side UI store (src/lib/store/slices/uiSlice.ts): theme, sidebar,
    notifications, search and video full-screen flags. */
module UiSlice {
  import opened Wrappers
  import Seqs
  import Text

  datatype Theme = Light | Dark

  datatype NotificationType = Success | Error | Info | Warning

  datatype Notification = Notification(
    id: string,
    kind: NotificationType,
    message: string,
    title: Option<string>,
    read: bool)

  datatype UIState = UIState(
    theme: Theme,
    sidebarOpen: bool,
    notifications: seq<Notification>,
    isSearching: bool,
    searchQuery: string,
    isVideoFullscreen: bool)

  const Initial: UIState := UIState(Light, false, [], false, "", false)

  /** `toggleTheme` swaps light and dark and touches nothing else. */
  function ToggleTheme(s: UIState): (r: UIState)
    ensures r.theme != s.theme
    ensures r.(theme := s.theme) == s
  {
    s.(theme := if s.theme == Light then Dark else Light)
  }

  function SetTheme(s: UIState, theme: Theme): (r: UIState)
    ensures r.theme == theme
    ensures r.(theme := s.theme) == s
  {
    s.(theme := theme)
  }

  function ToggleSidebar(s: UIState): (r: UIState)
    ensures r.sidebarOpen == !s.sidebarOpen
    ensures r.(sidebarOpen := s.sidebarOpen) == s
  {
    s.(sidebarOpen := !s.sidebarOpen)
  }

  function SetSidebarOpen(s: UIState, open: bool): (r: UIState)
    ensures r.sidebarOpen == open
    ensures r.(sidebarOpen := s.sidebarOpen) == s
  {
    s.(sidebarOpen := open)
  }

  /** `addNotification` appends one unread notification whose id is the decimal
      text of the clock reading `nowMillis` (`Date.now().toString()`). */
  function AddNotification(s: UIState, kind: NotificationType, message: string, title: Option<string>,
                           nowMillis: nat): (r: UIState)
    ensures |r.notifications| == |s.notifications| + 1
    ensures r.notifications[..|s.notifications|] == s.notifications
    ensures var n := r.notifications[|s.notifications|];
            && !n.read && n.kind == kind && n.message == message && n.title == title
            && n.id == Text.NatToString(nowMillis)
    ensures r.(notifications := s.notifications) == s
  {
    s.(notifications := s.notifications + [Notification(Text.NatToString(nowMillis), kind, message, title, false)])
  }

  /** Position of the first notification with this id (`find(n => n.id === id)`). */
  function IndexOfNotification(ns: seq<Notification>, id: string): (r: Option<nat>)
    ensures r.Some? ==> r.value < |ns| && ns[r.value].id == id
    ensures r.Some? ==> forall j :: 0 <= j < r.value ==> ns[j].id != id
    ensures r.None? <==> forall j :: 0 <= j < |ns| ==> ns[j].id != id
  {
    Seqs.FindIndex(ns, (n: Notification) => n.id == id)
  }

  /** Mark the first notification with the id as read; nothing else changes, and
      nothing at all when no notification has that id. */
  function MarkNotificationAsRead(s: UIState, id: string): (r: UIState)
    ensures |r.notifications| == |s.notifications|
    ensures IndexOfNotification(s.notifications, id).None? ==> r == s
    ensures IndexOfNotification(s.notifications, id).Some? ==>
              var i := IndexOfNotification(s.notifications, id).value;
              && r.notifications[i].read
              && r.notifications[i].(read := s.notifications[i].read) == s.notifications[i]
              && forall j :: 0 <= j < |s.notifications| && j != i ==> r.notifications[j] == s.notifications[j]
    ensures r.(notifications := s.notifications) == s
  {
    match IndexOfNotification(s.notifications, id)
    case None => s
    case Some(i) => s.(notifications := s.notifications[i := s.notifications[i].(read := true)])
  }

  function ClearNotifications(s: UIState): (r: UIState)
    ensures r.notifications == []
    ensures r.(notifications := s.notifications) == s
  {
    s.(notifications := [])
  }

  function SetSearching(s: UIState, searching: bool): (r: UIState)
    ensures r.isSearching == searching
    ensures r.(isSearching := s.isSearching) == s
  {
    s.(isSearching := searching)
  }

  function SetSearchQuery(s: UIState, query: string): (r: UIState)
    ensures r.searchQuery == query
    ensures r.(searchQuery := s.searchQuery) == s
  {
    s.(searchQuery := query)
  }

  function ToggleVideoFullscreen(s: UIState): (r: UIState)
    ensures r.isVideoFullscreen == !s.isVideoFullscreen
    ensures r.(isVideoFullscreen := s.isVideoFullscreen) == s
  {
    s.(isVideoFullscreen := !s.isVideoFullscreen)
  }

  function SetVideoFullscreen(s: UIState, fullscreen: bool): (r: UIState)
    ensures r.isVideoFullscreen == fullscreen
    ensures r.(isVideoFullscreen := s.isVideoFullscreen) == s
  {
    s.(isVideoFullscreen := fullscreen)
  }

  /** The three toggles undo themselves. */
  lemma TogglesAreInvolutions(s: UIState)
    ensures ToggleTheme(ToggleTheme(s)) == s
    ensures ToggleSidebar(ToggleSidebar(s)) == s
    ensures ToggleVideoFullscreen(ToggleVideoFullscreen(s)) == s
  {
  }

  /** A notification just added is found and marked by its id, unless an older
      one carries the same id: two notifications raised in the same millisecond
      share an id and only the older one is ever marked. */
  lemma MarkAfterAdd(s: UIState, kind: NotificationType, message: string, title: Option<string>, nowMillis: nat)
    requires IndexOfNotification(s.notifications, Text.NatToString(nowMillis)).None?
    ensures var added := AddNotification(s, kind, message, title, nowMillis);
            var r := MarkNotificationAsRead(added, Text.NatToString(nowMillis));
            && r.notifications[|s.notifications|].read
            && r.notifications[..|s.notifications|] == s.notifications
  {
    var id := Text.NatToString(nowMillis);
    var added := AddNotification(s, kind, message, title, nowMillis);
    assert added.notifications[|s.notifications|].id == id;
    assert IndexOfNotification(added.notifications, id) == Some(|s.notifications|);
  }

  /** Two notifications with the same timestamp: marking that id leaves the newer unread. */
  lemma SameMillisecondShadows(s: UIState, kind: NotificationType, message: string, nowMillis: nat)
    requires IndexOfNotification(s.notifications, Text.NatToString(nowMillis)).None?
    ensures var twice := AddNotification(AddNotification(s, kind, message, None, nowMillis), kind, message, None, nowMillis);
            var r := MarkNotificationAsRead(twice, Text.NatToString(nowMillis));
            r.notifications[|s.notifications|].read && !r.notifications[|s.notifications| + 1].read
  {
    var id := Text.NatToString(nowMillis);
    var twice := AddNotification(AddNotification(s, kind, message, None, nowMillis), kind, message, None, nowMillis);
    assert twice.notifications[|s.notifications|].id == id;
    assert IndexOfNotification(twice.notifications, id) == Some(|s.notifications|);
  }
}

=== FILE: video_player.dfy ===
/** The lesson video player (src/components/ui/video-player.tsx): how a time
    update becomes a watch percentage, a progress status and a dispatched
    progress update; the skip buttons; the volume and mute rules; the volume
    icon; and the `m:ss` clock. The `<video>` element is the record `Media`,
    the component's React state the record `Player`. */
module VideoPlayer {
  import opened Wrappers
  import opened Constants
  import Seqs
  import Text
  import PS = ProgressSlice
  import ProgressService

  /** The properties of the `<video>` element the component reads and writes. */
  datatype Media = Media(currentTime: real, duration: real, volume: real, muted: bool)

  /** The component's state: the clock it shows, the volume slider, the mute
      flag and the watched percentage. */
  datatype Player = Player(currentTime: real, volume: real, isMuted: bool, progress: real)

  /** The state before the video loads. */
  const InitialPlayer: Player := Player(0.0, 1.0, false, 0.0)

  /** What one `timeupdate` event does: the new state, the progress update sent
      to the store (if any) and the value passed to `onProgressUpdate` (if any). */
  datatype TimeUpdate = TimeUpdate(player: Player, dispatched: Option<PS.LessonUpdate>, reported: Option<real>)

  /** JavaScript truthiness of an optional id: present and non-empty. */
  predicate Truthy(id: Option<string>)
  {
    id.Some? && id.value != ""
  }

  /** The share of the video watched, in percent. */
  function WatchPercentage(currentTime: real, duration: real): real
    requires duration != 0.0
  {
    currentTime / duration * 100.0
  }

  /** The status a percentage reports: completed from 95 percent on. */
  function StatusFor(percentage: real): (s: ProgressStatus)
    ensures s == Completed <==> percentage >= 95.0
    ensures s != NotStarted
  {
    if percentage >= 95.0 then Completed else InProgress
  }

  /** `onTimeUpdate`. With a zero current time or duration (both falsy) nothing
      happens. Otherwise the clock and percentage are updated, one progress
      update is dispatched when both ids are truthy, and the callback (when
      given) receives the percentage in any case. */
  function OnTimeUpdate(p: Player, m: Media, lessonId: Option<string>, progressId: Option<string>,
                        hasCallback: bool): (r: TimeUpdate)
    ensures m.currentTime == 0.0 || m.duration == 0.0 ==> r == TimeUpdate(p, None, None)
    ensures m.currentTime != 0.0 && m.duration != 0.0 ==>
              && r.player == p.(currentTime := m.currentTime, progress := r.player.progress)
              && r.player.progress * m.duration == m.currentTime * 100.0
              && (r.dispatched.Some? <==> Truthy(lessonId) && Truthy(progressId))
              && (r.dispatched.Some? ==>
                    && r.dispatched.value.lessonId == lessonId.value
                    && r.dispatched.value.watchTimePercentage == r.player.progress
                    && (r.dispatched.value.status == Completed <==> r.player.progress >= 95.0)
                    && r.dispatched.value.status != NotStarted)
              && (r.reported.Some? <==> hasCallback)
              && (hasCallback ==> r.reported == Some(r.player.progress))
  {
    if m.currentTime == 0.0 || m.duration == 0.0 then TimeUpdate(p, None, None)
    else
      var pct := WatchPercentage(m.currentTime, m.duration);
      var p' := p.(currentTime := m.currentTime, progress := pct);
      var dispatched := if Truthy(progressId) && Truthy(lessonId)
                        then Some(PS.LessonUpdate(lessonId.value, StatusFor(pct), pct))
                        else None;
      TimeUpdate(p', dispatched, if hasCallback then Some(pct) else None)
  }

  /** The percentage is not capped: a clock past the end reads above 100. */
  lemma PercentageUncapped(p: Player, m: Media, lessonId: Option<string>, progressId: Option<string>)
    requires 0.0 < m.duration < m.currentTime
    ensures OnTimeUpdate(p, m, lessonId, progressId, false).player.progress > 100.0
  {
    var pct := OnTimeUpdate(p, m, lessonId, progressId, false).player.progress;
    assert pct * m.duration == m.currentTime * 100.0;
  }

  /** Feeding a dispatched update to the progress store makes the lesson read
      as completed exactly when at least 95 percent was watched. */
  lemma DispatchMarksCompletion(p: Player, m: Media, lessonId: Option<string>, progressId: Option<string>,
                                s: PS.ProgressState, now: string)
    requires OnTimeUpdate(p, m, lessonId, progressId, false).dispatched.Some?
    requires s.currentCourseProgress.Some?
    ensures var r := OnTimeUpdate(p, m, lessonId, progressId, false);
            var s' := PS.UpdateLessonProgress(s, r.dispatched.value, now);
            (ProgressService.IsLessonCompleted(s'.currentCourseProgress, lessonId.value)
             <==> r.player.progress >= 95.0)
  {
    var u := OnTimeUpdate(p, m, lessonId, progressId, false).dispatched.value;
    PS.UpsertRecordsUpdate(s.currentCourseProgress.value.progress, u, now);
  }

  /** Nothing keeps a completed lesson completed: a sample at 95 percent followed
      by one at 50 percent (a seek back) leaves the lesson in progress, while
      the completion stamp of the first sample stays on its entry. */
  lemma RewindRegressesStatus(s: PS.ProgressState, lessonId: string, now1: string, now2: string)
    requires s.currentCourseProgress.Some? && lessonId != ""
    ensures var late := OnTimeUpdate(InitialPlayer, Media(114.0, 120.0, 1.0, false), Some(lessonId), Some("p"), false);
            var early := OnTimeUpdate(late.player, Media(60.0, 120.0, 1.0, false), Some(lessonId), Some("p"), false);
            && late.dispatched == Some(PS.LessonUpdate(lessonId, Completed, 95.0))
            && early.dispatched == Some(PS.LessonUpdate(lessonId, InProgress, 50.0))
            && var s1 := PS.UpdateLessonProgress(s, late.dispatched.value, now1);
            && var s2 := PS.UpdateLessonProgress(s1, early.dispatched.value, now2);
            && ProgressService.IsLessonCompleted(s1.currentCourseProgress, lessonId)
            && !ProgressService.IsLessonCompleted(s2.currentCourseProgress, lessonId)
            && var entries := s2.currentCourseProgress.value.progress;
            && PS.IndexOfLesson(entries, lessonId).Some?
            && entries[PS.IndexOfLesson(entries, lessonId).value].completedAt == Some(now1)
  {
    var u1 := PS.LessonUpdate(lessonId, Completed, 95.0);
    var u2 := PS.LessonUpdate(lessonId, InProgress, 50.0);
    var e0 := s.currentCourseProgress.value.progress;
    var e1 := PS.Upsert(e0, u1, now1);
    PS.UpsertRecordsUpdate(e0, u1, now1);
    var i := PS.IndexOfLesson(e1, lessonId).value;
    assert e1[i].completedAt == Some(now1);
    var e2 := PS.Upsert(e1, u2, now2);
    PS.UpsertRecordsUpdate(e1, u2, now2);
    assert e2[i].completedAt == Some(now1);
    assert PS.IndexOfLesson(e2, lessonId) == Some(i);
  }

  /** `skipForward`: ten seconds on, but not past the end. */
  function SkipForward(m: Media): (r: Media)
    ensures r.currentTime <= m.duration && r.currentTime <= m.currentTime + 10.0
    ensures r.currentTime == m.duration || r.currentTime == m.currentTime + 10.0
    ensures r.(currentTime := m.currentTime) == m
  {
    m.(currentTime := if m.currentTime + 10.0 < m.duration then m.currentTime + 10.0 else m.duration)
  }

  /** `skipBackward`: ten seconds back, but not before the start. */
  function SkipBackward(m: Media): (r: Media)
    ensures r.currentTime >= 0.0 && r.currentTime >= m.currentTime - 10.0
    ensures r.currentTime == 0.0 || r.currentTime == m.currentTime - 10.0
    ensures r.(currentTime := m.currentTime) == m
  {
    m.(currentTime := if m.currentTime - 10.0 > 0.0 then m.currentTime - 10.0 else 0.0)
  }

  /** Both skips keep a clock that starts within the video within it; away from
      the ends a skip back undoes a skip forward. */
  lemma SkipsStayInside(m: Media)
    requires 0.0 <= m.currentTime <= m.duration
    ensures 0.0 <= SkipForward(m).currentTime <= m.duration
    ensures 0.0 <= SkipBackward(m).currentTime <= m.duration
    ensures m.currentTime + 10.0 <= m.duration ==> SkipBackward(SkipForward(m)) == m
  {
  }

  /** `handleVolumeChange` with the slider at `value` (0 to 100): the volume
      becomes value/100; zero mutes; any other value unmutes only a muted
      player. Both the element and the state are written. */
  function HandleVolumeChange(p: Player, m: Media, value: real): (r: (Player, Media))
    ensures r.0.volume * 100.0 == value && r.1.volume == r.0.volume
    ensures value == 0.0 ==> r.0.isMuted && r.1.muted
    ensures value != 0.0 && p.isMuted ==> !r.0.isMuted && !r.1.muted
    ensures value != 0.0 && !p.isMuted ==> !r.0.isMuted && r.1.muted == m.muted
    ensures r.0.(volume := p.volume, isMuted := p.isMuted) == p
    ensures r.1.(volume := m.volume, muted := m.muted) == m
  {
    var v := value / 100.0;
    var p1, m1 := p.(volume := v), m.(volume := v);
    if v == 0.0 then (p1.(isMuted := true), m1.(muted := true))
    else if p.isMuted then (p1.(isMuted := false), m1.(muted := false))
    else (p1, m1)
  }

  /** `toggleMute`: the element's flag and the state's flag are each negated. */
  function ToggleMute(p: Player, m: Media): (r: (Player, Media))
    ensures r.0.isMuted != p.isMuted && r.1.muted != m.muted
    ensures r.0.(isMuted := p.isMuted) == p && r.1.(muted := m.muted) == m
  {
    (p.(isMuted := !p.isMuted), m.(muted := !m.muted))
  }

  /** `onVolumeChange`: the state copies the element's volume and mute flag. */
  function OnVolumeChange(p: Player, m: Media): (r: Player)
    ensures Synced(r, m)
    ensures r.(volume := p.volume, isMuted := p.isMuted) == p
  {
    p.(volume := m.volume, isMuted := m.muted)
  }

  /** The state agrees with the element on volume and mute. */
  predicate Synced(p: Player, m: Media)
  {
    p.volume == m.volume && p.isMuted == m.muted
  }

  /** The volume handlers keep the state and the element in agreement, and a
      double toggle restores both. */
  lemma VolumeHandlersKeepSync(p: Player, m: Media, value: real)
    requires Synced(p, m)
    ensures var r := HandleVolumeChange(p, m, value); Synced(r.0, r.1)
    ensures var r := ToggleMute(p, m); Synced(r.0, r.1)
    ensures var r := ToggleMute(p, m); ToggleMute(r.0, r.1) == (p, m)
  {
  }

  /** Without the sync a muted element can stay muted while the state says
      unmuted: the slider unmutes only when the state is muted. */
  lemma VolumeChangeNeedsSync()
    ensures var r := HandleVolumeChange(Player(0.0, 0.5, false, 0.0), Media(0.0, 10.0, 0.5, true), 50.0);
            !r.0.isMuted && r.1.muted
  {
  }

  /** The four volume icons. */
  datatype VolumeIcon = Muted | Low | Medium | High

  /** `getVolumeIcon`. */
  function GetVolumeIcon(isMuted: bool, volume: real): (icon: VolumeIcon)
    ensures icon == Muted <==> isMuted || volume == 0.0
    ensures icon == Low <==> !isMuted && volume != 0.0 && volume < 0.3
    ensures icon == Medium <==> !isMuted && volume != 0.0 && 0.3 <= volume < 0.7
    ensures icon == High <==> !isMuted && volume != 0.0 && volume >= 0.7
  {
    if isMuted || volume == 0.0 then Muted
    else if volume < 0.3 then Low
    else if volume < 0.7 then Medium
    else High
  }

  function IconLevel(icon: VolumeIcon): nat
  {
    match icon
    case Muted => 0
    case Low => 1
    case Medium => 2
    case High => 3
  }

  /** For an unmuted player on a volume in 0..1 a louder volume never shows a
      quieter icon. */
  lemma VolumeIconMonotone(v1: real, v2: real)
    requires 0.0 <= v1 <= v2
    ensures IconLevel(GetVolumeIcon(false, v1)) <= IconLevel(GetVolumeIcon(false, v2))
  {
  }

  /** JavaScript's `%` on numbers: the remainder takes the sign of the dividend. */
  function JsRem(x: real, y: real): real
    requires y != 0.0
  {
    x - y * Truncate(x / y) as real
  }

  /** Rounding toward zero. */
  function Truncate(x: real): int
  {
    if x >= 0.0 then x.Floor else -((-x).Floor)
  }

  /** `formatTime`: whole minutes, a colon, and whole seconds with a '0' in
      front of values below ten. For a non-negative time the clock shows
      ⌊t⌋ div 60, a colon and ⌊t⌋ mod 60 as exactly two digits. */
  function FormatTime(time: real): (s: string)
    ensures ':' in s
    ensures time >= 0.0 ==> s == Text.NatToString(time.Floor / 60) + ":" + Pad2(time.Floor % 60)
  {
    var minutes := (time / 60.0).Floor;
    var seconds := JsRem(time, 60.0).Floor;
    var text := Text.IntToString(minutes) + ":" + (if seconds < 10 then "0" else "") + Text.IntToString(seconds);
    assert text[|Text.IntToString(minutes)|] == ':';
    if time >= 0.0 then
      FloorSplit(time, time.Floor, time.Floor / 60, time.Floor % 60);
      text
    else text
  }

  /** Two-digit seconds. */
  function Pad2(n: nat): (s: string)
    requires n < 60
    ensures |s| == 2 && Text.AllDigits(s)
  {
    if n < 10 then "0" + Text.NatToString(n) else Text.NatToString(n)
  }

  /** Two-digit seconds read back as the number. */
  lemma ParsePad2(n: nat)
    requires n < 60
    ensures Text.ParseDigits(Pad2(n)) == n
  {
    var s := Pad2(n);
    Text.ParseNatToString(n);
    if n < 10 {
      assert s[..|s| - 1] == "0";
      assert s[..|s| - 1][..0] == [];
    }
  }

  /** ⌊t/60⌋ and ⌊t rem 60⌋ from ⌊t⌋ = 60q + r. */
  lemma FloorSplit(time: real, n: int, q: int, r: int)
    requires time >= 0.0 && n == time.Floor && q == n / 60 && r == n % 60
    ensures (time / 60.0).Floor == q
    ensures Truncate(time / 60.0) == q
    ensures JsRem(time, 60.0).Floor == r
  {
    var f := time - n as real;
    assert 0.0 <= f < 1.0;
    assert n == 60 * q + r && 0 <= r < 60;
    assert time == (60 * q + r) as real + f;
    var g := (r as real + f) / 60.0;
    assert 0.0 <= g < 1.0;
    assert time / 60.0 == q as real + g;
    FloorOf(time / 60.0, q);
    assert JsRem(time, 60.0) == r as real + f;
    FloorOf(r as real + f, r);
  }

  lemma FloorOf(x: real, k: int)
    requires k as real <= x < k as real + 1.0
    ensures x.Floor == k
  {
  }

  predicate IsColon(c: char)
  {
    c == ':'
  }

  /** Read an `m:ss` clock back to seconds. */
  function ParseClock(s: string): (r: Option<nat>)
  {
    match Seqs.FindIndex(s, IsColon)
    case None => None
    case Some(i) => ClockParts(s[..i], s[i + 1..])
  }

  /** The seconds shown by the text before and after the colon: at least one
      minute digit and exactly two second digits below 60. */
  function ClockParts(minutes: string, seconds: string): (r: Option<nat>)
  {
    if |minutes| >= 1 && Text.AllDigits(minutes) && |seconds| == 2 && Text.AllDigits(seconds)
       && Text.ParseDigits(seconds) < 60
    then Some(Text.ParseDigits(minutes) * 60 + Text.ParseDigits(seconds))
    else None
  }

  /** A clock written as digits, a colon and two digits reads as minutes and seconds. */
  lemma ParseClockOf(a: string, b: string, m: nat, sec: nat)
    requires |a| >= 1 && Text.AllDigits(a) && |b| == 2 && Text.AllDigits(b)
    requires Text.ParseDigits(a) == m && Text.ParseDigits(b) == sec && sec < 60
    ensures ParseClock(a + ":" + b) == Some(m * 60 + sec)
  {
    var s := a + ":" + b;
    ColonAfterDigits(a, b);
    ParseClockAt(s, |a|);
    AroundColon(a, b);
    ClockPartsOf(a, b, m, sec);
  }

  lemma ParseClockAt(s: string, i: nat)
    requires Seqs.FindIndex(s, IsColon) == Some(i)
    ensures i < |s| && ParseClock(s) == ClockParts(s[..i], s[i + 1..])
  {
  }

  lemma ClockPartsOf(a: string, b: string, m: nat, sec: nat)
    requires |a| >= 1 && Text.AllDigits(a) && |b| == 2 && Text.AllDigits(b)
    requires Text.ParseDigits(a) == m && Text.ParseDigits(b) == sec && sec < 60
    ensures ClockParts(a, b) == Some(m * 60 + sec)
  {
  }

  lemma AroundColon(a: string, b: string)
    ensures (a + ":" + b)[..|a|] == a
    ensures (a + ":" + b)[|a| + 1..] == b
  {
  }

  /** The first colon of digits, a colon and more text is the one after the digits. */
  lemma ColonAfterDigits(a: string, b: string)
    requires Text.AllDigits(a)
    ensures Seqs.FindIndex(a + ":" + b, IsColon) == Some(|a|)
  {
    var s := a + ":" + b;
    forall j | 0 <= j < |a|
      ensures !IsColon(s[j])
    {
      assert s[j] == a[j] && Text.IsDigit(a[j]);
    }
    assert IsColon(s[|a|]);
  }

  /** Reading a formatted clock gives back the whole seconds it shows. */
  lemma ParseFormatTime(time: real)
    requires time >= 0.0
    ensures ParseClock(FormatTime(time)) == Some(time.Floor)
  {
    ParseSecondsClock(FormatTime(time), time.Floor);
  }

  /** The clock of n seconds reads back as n. */
  lemma ParseSecondsClock(clock: string, n: nat)
    requires clock == Text.NatToString(n / 60) + ":" + Pad2(n % 60)
    ensures ParseClock(clock) == Some(n)
  {
    DivMod60(n, n / 60, n % 60);
    ParseShownClock(n / 60, n % 60, n);
  }

  /** A clock of q minutes and r < 60 seconds reads back as n = 60q + r seconds. */
  lemma ParseShownClock(q: nat, r: nat, n: nat)
    requires r < 60 && q * 60 + r == n
    ensures ParseClock(Text.NatToString(q) + ":" + Pad2(r)) == Some(n)
  {
    var a, b := Text.NatToString(q), Pad2(r);
    Text.ParseNatToString(q);
    ParsePad2(r);
    ParseClockOf(a, b, q, r);
  }

  lemma DivMod60(n: int, q: int, r: int)
    requires n >= 0 && q == n / 60 && r == n % 60
    ensures q >= 0 && 0 <= r < 60 && q * 60 + r == n
  {
  }

  /** Zero renders as "0:00" and a negative time, which the element never
      reports, as a negative clock. */
  lemma FormatTimeExamples()
    ensures FormatTime(0.0) == "0:00"
    ensures FormatTime(-5.0) == "-1:0-5"
  {
    assert (0.0 / 60.0).Floor == 0;
    assert JsRem(0.0, 60.0) == 0.0;
    assert (-5.0 / 60.0).Floor == -1;
    assert Truncate(-5.0 / 60.0) == 0;
    assert JsRem(-5.0, 60.0) == -5.0;
  }
}

=== FILE: wrappers.dfy ===
/** Failure-carrying datatypes used by the model: optional values (JavaScript's
    `null`/`undefined`) and the outcome of a call that may throw. */
module Wrappers {

  /** A value that may be absent. */
  datatype Option<+T> = None | Some(value: T)

  /** Why a backend call or a service threw. */
  datatype Failure =
    | DocumentNotFound                 // the backend has no document with that id
    | DocumentAlreadyExists            // the backend refuses a second document with that id
    | Message(text: string)            // an `Error` the source raises itself

  /** Either a value or the reason the call threw. */
  datatype Result<+T> = Ok(value: T) | Err(failure: Failure) {
    predicate IsFailure() {
      Err?
    }
  }
}
